=== FILE: README.md ===
# Users and roles backend, modelled in Dafny

This project models the decision logic of a NestJS backend that manages users
and roles.

- **Access control.** The authorization guard decides each request in a fixed
  order: public route, resolved user, active flag, roles, then required
  permissions. The route policy comes from `@Auth(...)` and `@Public()`. The
  permission catalogue is a closed list. A JWT payload resolves to a user. The
  login checks build the token payloads, and a startup seeder repairs the
  ADMINISTRATOR and GUEST roles.
- **Role and user tables.** `RoleService` and `UserService` are classes over an
  in-memory table: a map from id to row plus the next id. Column normalisers
  run on write: a role code is trimmed and upper-cased, and e-mail and
  username are trimmed and lower-cased. Unique and length constraints are
  checked at save time. The tables support create, register, listing with
  filters and pages, update, password change, soft delete, restore and
  delete. The `init:user` console command is modelled over the same tables.
- **Validators.** The `Comparison` decorator, the DTO constraint sets, the
  query-string transforms and bounds, and the regular-expression predicates
  are all modelled.
- **Utilities.** The utilities cover accent stripping, slugs,
  capitalisation, day ranges with integer day numbers, cache keys with
  substring eviction over a key/value map, and unique upload file names.

JavaScript values that arrive in request bodies and query strings are modelled
by `Js.Value`: `undefined`, `null`, booleans, integers, `NaN`, strings, dates,
arrays and objects. The `Js` module supplies the JavaScript semantics the code
relies on: truthiness, `===`, `Number(...)`, `String(...)` and `JSON.stringify`.

Everything outside the program's own code is a parameter:

- the e-mail check of class-validator;
- bcrypt hashing and comparison;
- the MD5 digest;
- the UUID;
- the clock.

Error results carry the HTTP exception the code throws (`BadRequest`,
`Unauthorized`, `Forbidden`, `InternalServerError`). They also cover the error
a database constraint raises (`QueryFailed`, with the MySQL error name) and a
plain `Error` (`RuntimeError`).

Three behaviours a reader might expect differ in the code:

- A role code such as `editor` is not normalised to `EDITOR` on creation. The
  DTO's `^[A-Z]*$` refuses it first (`CreateRoleDto.LowerCaseCodeRefused`).
- The user duplicate check matches username AND e-mail together. It is not a
  check on either one alone. A row that shares only one of them is refused
  later, by the unique key at insert (`QueryFailed(ER_DUP_ENTRY)`).
- Registered users stay inactive, so the login refuses them
  (`AuthService.RegisteredUserIsLockedOut`).

## Model

| member | source | states |
|---|---|---|
| AuthGuard.CanActivateDecision | nest-app/src/guards/auth/auth.guard.ts:37-102 | The complete decision table, in order. A public route is allowed. Otherwise an error from the JWT step is passed on, and a missing user is Unauthorized. An inactive user is Forbidden, then a user without roles is Forbidden. An absent or empty permission list allows. Any other route is allowed iff some role lists a required permission. |
| AuthGuard.CanActivate | nest-app/src/guards/auth/auth.guard.ts:37-102 | The guard never answers false: it allows or it throws. |
| AuthGuard.RolePermissions | nest-app/src/guards/auth/auth.guard.ts:87-88 | The flattened list holds exactly the permissions of roles whose list is not null. |
| AuthGuard.AnyRequired | nest-app/src/guards/auth/auth.guard.ts:90-91 | `some` holds iff one current permission is in the required list. |
| AuthGuard.GrantsIff | nest-app/src/guards/auth/auth.guard.ts:88-98 | The flatten-then-`some` computation holds iff some role lists some required permission. |
| AuthGuard.ClassPermissionsIgnored | nest-app/src/guards/auth/auth.guard.ts:53-56 | Permission metadata on the controller class never changes the decision. |
| AuthGuard.Monotone | nest-app/src/guards/auth/auth.guard.ts:88-91 | For an active user with roles, appending roles or widening each role's permissions keeps an allowed request allowed. |
| AuthGuard.HolderPasses | nest-app/src/guards/auth/auth.guard.ts:88-98 | An active user whose role lists one of the `@Auth(...)` permissions is allowed. |
| AuthGuard.NullPermissionsGrantNothing | nest-app/src/guards/auth/auth.guard.ts:88 | Roles whose permissions are null grant no permission. |
| AuthDecorator.Auth | nest-app/src/common/decorators/auth.decorator.ts:25-33 | Records exactly the given permission list and leaves the public flag alone. |
| AuthDecorator.Public | nest-app/src/common/decorators/auth.decorator.ts:80 | Records `isPublic = true` and leaves the permission metadata alone. |
| AuthDecorator.IsPublicMetadata | nest-app/src/guards/auth/auth.guard.ts:39-42 | The handler's public flag wins; the class's flag is used when the handler has none. |
| AuthDecorator.IsPublic | nest-app/src/guards/auth/auth.guard.ts:39-47 | Defining model: the route is public iff the overriding `isPublic` metadata is present and true. |
| AuthDecorator.RequiredPermissions | nest-app/src/guards/auth/auth.guard.ts:53-56 | Defining model: the permission list is read from the handler only, never the class. |
| AuthDecorator.PublicOnHandlerOrClass | nest-app/src/guards/auth/auth.guard.ts:39-47 | `@Public()` on the handler, or on the class when the handler says nothing, makes the route public. |
| AuthDecorator.AuthWithoutPermissions | nest-app/src/common/decorators/auth.decorator.ts:25-32 | `@Auth()` records the empty list, and that list is what the guard reads. |
| AuthDecorator.AuthUser | nest-app/src/common/decorators/auth.decorator.ts:61-69 | With no field name the whole user is returned. Given a name, the user's field is returned when the user is truthy; otherwise the absent user comes back. |
| AuthDecorator.AuthUserField | nest-app/src/common/decorators/auth.decorator.ts:67 | On a user object, a named field is looked up in its fields. |
| RoleConfig.RolesAreBothRoles | nest-app/src/configs/role.config.ts:7-29 | `ROLES` is exactly ADMINISTRATOR and GUEST. The two values differ, and each equals its name. |
| RoleConfig.ParseValue | nest-app/src/configs/role.config.ts:36-69 | Reading an `ACCESS` member's string value back gives the member: the values are a faithful encoding. |
| RoleConfig.Parse | nest-app/src/configs/role.config.ts:36-69 | A recognised string is the value of the member it yields. |
| RoleConfig.ValueInjective | nest-app/src/configs/role.config.ts:36-69 | Different members have different string values. |
| RoleConfig.IsAccessValueIffListed | nest-app/src/configs/role.config.ts:36-69 | A string is an `ACCESS` value iff it is in the list of all values. |
| RoleConfig.CatalogueComplete | nest-app/src/configs/role.config.ts:36-69 | The catalogue has 23 members and lists every one of them. |
| RoleConfig.CatalogueDistinct | nest-app/src/configs/role.config.ts:36-69 | Catalogue members, and their string values, are pairwise distinct. |
| RoleConfig.Flatten | nest-app/src/configs/role.config.ts:76-121 | The flattened groups hold exactly the permissions of some group. |
| RoleConfig.GroupsPartitionCatalogue | nest-app/src/configs/role.config.ts:76-121 | The `PERMISSIONS` groups, concatenated, are the catalogue, and each value appears once. |
| RoleConfig.GroupNamesDistinct | nest-app/src/configs/role.config.ts:76-121 | There are five groups and their names are distinct. |
| Common.TrimRemovesOnlyEdges | nest-app/src/entities/role.entity.ts:18 | `trim` removes only white space at the two ends: the result is a contiguous slice of the input, with only white space before and after it. |
| RoleEntity.CodeTo | nest-app/src/entities/role.entity.ts:18 | A written code has no lower-case letter and no surrounding whitespace, and is no longer than the input. |
| RoleEntity.CodeFrom | nest-app/src/entities/role.entity.ts:19 | Reading a code gives back the stored value unchanged. |
| RoleEntity.CodeToUpperCasesTrimmed | nest-app/src/entities/role.entity.ts:18 | The stored code is the input with the white space at its ends removed and each remaining character upper-cased. |
| RoleEntity.CodeToIdempotent | nest-app/src/entities/role.entity.ts:18 | Normalising a code twice is normalising it once. |
| RoleEntity.NormalCodeIff | nest-app/src/entities/role.entity.ts:18 | A code is a fixed point of the normaliser iff it has no lower-case letter and no surrounding whitespace. |
| RoleEntity.CodeToKeepsUppercase | nest-app/src/modules/role/dto/create-role.dto.ts:19 | A code made of A-Z only passes the normaliser unchanged. |
| RoleEntity.RoleCodesAreNormal | nest-app/src/configs/role.config.ts:7-21 | ADMINISTRATOR and GUEST are already normalised codes. |
| RoleEntity.Load | nest-app/src/entities/role.entity.ts:37-39 | `Object.assign` overwrites exactly the fields the patch carries and keeps the id. |
| RoleEntity.LoadEmptyPatch | nest-app/src/entities/role.entity.ts:37-39 | An empty patch changes nothing. |
| UserEntity.IdentTo | nest-app/src/entities/user.entity.ts:33 | E-mail and username are written trimmed and lower-cased. `undefined` and `''` pass through unchanged. |
| UserEntity.IdentFrom | nest-app/src/entities/user.entity.ts:34 | Reading e-mail or username gives back the stored value. |
| UserEntity.IdentToLowerCasesTrimmed | nest-app/src/entities/user.entity.ts:33 | A non-empty e-mail or username is stored as the input with the white space at its ends removed and each remaining character lower-cased. |
| UserEntity.IdentToIdempotent | nest-app/src/entities/user.entity.ts:45 | Normalising an identifier twice is normalising it once. |
| UserEntity.NormalIdentIff | nest-app/src/entities/user.entity.ts:33 | An identifier is unchanged by the normaliser iff it has no upper-case letter and no surrounding whitespace. |
| UserEntity.HashPasswordBeforeWrite | nest-app/src/entities/user.entity.ts:67-79 | The hooks replace the password by its hash iff it is non-empty. |
| UserEntity.Selected | nest-app/src/entities/user.entity.ts:51-53 | The password is read only when hidden fields are asked for; every other field is read as stored. |
| UserEntity.Load | nest-app/src/entities/user.entity.ts:63-65 | `Object.assign` overwrites exactly the fields the patch carries and keeps id and deletion time. |
| RoleSeeder.UpToDateIff | nest-app/src/modules/role/role.seeder.ts:52-60 | The seeder's "same count and every value included" test holds iff the permissions are a permutation of the catalogue's values. |
| RoleSeeder.RepeatIsNotUpToDate | nest-app/src/modules/role/role.seeder.ts:52-60 | A list that repeats a permission is never up to date. |
| RoleSeeder.SyncAdmin | nest-app/src/modules/role/role.seeder.ts:30-66 | Creates a missing ADMINISTRATOR with every catalogue value. It throws on null permissions and writes nothing when they are up to date. Otherwise it overwrites them with the catalogue. On success the administrator holds exactly the catalogue. |
| RoleSeeder.SyncGuest | nest-app/src/modules/role/role.seeder.ts:72-85 | Creates a missing GUEST with an empty list, never touches an existing GUEST, and leaves ADMINISTRATOR as it was. |
| RoleSeeder.Bootstrap | nest-app/src/modules/role/role.seeder.ts:17-23 | Syncs the admin, then the guest. After success both exist and the admin is full. A run that starts from that state writes nothing, so the seeder is idempotent. |
| RoleService.AddRowValid | nest-app/src/entities/role.entity.ts:12-22 | Adding a well-formed row with a fresh code under the next id keeps ids consistent and codes normalised and unique. |
| RoleService.RoleTable.constructor | nest-app/src/modules/role/role.service.ts:23-35 | The table starts empty with next id 1. |
| RoleService.RoleTable.AllRows | nest-app/src/modules/role/role.service.ts:55 | The rows the query builder starts from: every stored row and nothing else. |
| RoleService.RoleTable.RowsOf | nest-app/src/modules/role/role.service.ts:87-89 | The rows of the given ids, in order. |
| RoleService.RoleTable.FindByCode | nest-app/src/modules/role/role.service.ts:76-80 | `findOne({ code })` finds a row iff one has the normalised code, and returns that row. |
| RoleService.RoleTable.FindsTheRow | nest-app/src/modules/role/role.service.ts:76-80 | The row holding a code is the one found by that code. |
| RoleService.RoleTable.FirstWithCode | nest-app/src/modules/role/role.service.ts:76-80 | Scanning ids finds a row with the code, or proves that no listed row has it. |
| RoleService.RoleTable.FindAllInIds | nest-app/src/modules/role/role.service.ts:87-89 | Returns exactly the stored roles whose id is listed, ascending by id, possibly fewer than the ids given. |
| RoleService.RoleTable.Insert | nest-app/src/entities/role.entity.ts:12-31 | Saving stores the normalised code. A code or description too long for its column, or a code already present, fails and writes nothing. |
| RoleService.RoleTable.Create | nest-app/src/modules/role/role.service.ts:23-35 | An invalid body is refused. A taken code gives `general.alreadyExists` and leaves the table unchanged. Otherwise exactly one role is added with the given fields, and `findOne` by its code finds it. |
| RoleService.RoleTable.FindAll | nest-app/src/modules/role/role.service.ts:43-68 | An invalid query is refused. Otherwise the result is the page of the matching rows, ordered by id, with `total` counting every match. |
| RoleService.RoleTable.Update | nest-app/src/modules/role/role.service.ts:98-106 | A code another role already has is refused. An unknown id answers false and writes nothing. Otherwise exactly that row takes the given columns and the answer is true. |
| RoleService.RoleTable.Put | nest-app/src/modules/role/role.service.ts:103 | Writes one well-formed row over its id, keeping codes unique. |
| RoleService.RoleTable.Remove | nest-app/src/modules/role/role.service.ts:113-116 | Answers whether the id was present. Afterwards no role has it and every other role is unchanged. |
| RoleService.Conditions | nest-app/src/modules/role/role.service.ts:57-61 | The `andWhere` conditions select exactly the rows matching the code substring and the id lists. |
| RoleService.ListedIds | nest-app/src/modules/role/role.service.ts:87-89 | Filtering ascending ids by membership keeps exactly the listed ones, ascending. |
| RoleService.HoldsAllConcat | nest-app/src/modules/role/role.service.ts:57-61 | Adding conditions conjoins them. |
| RoleService.HoldsAllSingle | nest-app/src/modules/role/role.service.ts:57-61 | One condition holds exactly when it holds. |
| Listing.IdsBelow | nest-app/src/modules/role/role.service.ts:62 | The table's ids in range, ascending: the order by id. |
| Listing.Filter | nest-app/src/modules/role/role.service.ts:57-61 | The `WHERE` clause keeps exactly the satisfying rows, in their order. |
| Listing.FilterAscending | nest-app/src/modules/role/role.service.ts:62 | Filtering keeps an ascending list ascending. |
| Listing.FilterCongruent | nest-app/src/modules/user/user.service.ts:109-125 | Equivalent conditions select the same rows. |
| Listing.Reverse | nest-app/src/modules/role/role.service.ts:62 | Element `i` of the result is element `n-1-i` of the input. |
| Listing.Arrange | nest-app/src/modules/role/role.service.ts:62 | ASC keeps the ascending order; DESC reverses it. |
| Listing.Window | nest-app/src/modules/role/role.service.ts:63 | `skip(s).take(t)`: at most `t` rows (all when `t` is 0), the `i`-th being the `(s+i)`-th. |
| Listing.Paginate | nest-app/src/modules/role/role.service.ts:62-65 | `total` is the number of all matches. Row `i` of page `page` is row `(page - 1) * limit + i` of the ordered matches. A page holds `limit` rows, or what remains after the skipped ones; a `limit` of 0 takes every remaining row. |
| Listing.PagesTile | nest-app/src/modules/role/role.service.ts:63 | The row at position `i` is on page `i / limit + 1`, at `i % limit`, so successive pages tile the matches. |
| UserService.RoleIdsOf | nest-app/src/modules/user/user.service.ts:50 | The ids of the roles, in order. |
| UserService.DeletedUsersQueryIsValid | nest-app/src/modules/user/user.service.ts:118-125 | The query asking for deleted users, `isDeleted=1&withDeleted=1`, passes validation. |
| UserService.DeletedNeedWithDeleted | nest-app/src/modules/user/user.service.ts:118-125 | Asking for deleted users without `withDeleted` selects nobody. |
| UserService.Conditions | nest-app/src/modules/user/user.service.ts:109-124 | The conditions select exactly the filtered users. They name only existing columns iff no `isDeleted` filter is given or the soft-delete column is named correctly. |
| UserService.AndWhere | nest-app/src/modules/user/user.service.ts:109-124 | Adding a condition conjoins it and keeps track of whether every column exists. |
| UserService.HoldsAllConcat | nest-app/src/modules/user/user.service.ts:109-124 | Adding conditions conjoins them. |
| UserService.HoldsAllSingle | nest-app/src/modules/user/user.service.ts:109-124 | One condition holds exactly when it holds. |
| UserService.UserTable.constructor | nest-app/src/modules/user/user.service.ts:37-55 | The table starts empty with next id 1 over the given role table. |
| UserService.UserTable.Resolve | nest-app/src/modules/user/user.service.ts:142-153 | A user is read with its stored fields, the password only on request, and its roles joined from the role table. |
| UserService.UserTable.FindOne | nest-app/src/modules/user/user.service.ts:142-153 | Finds a user iff some live row matches the criteria, and returns that row read as `Resolve` reads it. |
| UserService.UserTable.FirstMatch | nest-app/src/modules/user/user.service.ts:142-153 | Scanning ids finds a live match, or proves that no listed row matches. |
| UserService.UserTable.FoundIffDuplicate | nest-app/src/modules/user/user.service.ts:40-42 | The duplicate lookup finds a user iff one live row has both the username and the e-mail. |
| UserService.UserTable.AllUsers | nest-app/src/modules/user/user.service.ts:109-111 | Every stored user, as the listing reads it. |
| UserService.UserTable.UsersOf | nest-app/src/modules/user/user.service.ts:109-111 | The users of the given ids, in order. |
| UserService.UserTable.Insert | nest-app/src/entities/user.entity.ts:27-79 | Saving hashes the password and normalises the identifiers. A missing NOT NULL value, an over-long value or a taken e-mail or username fails and writes nothing. |
| UserService.UserTable.Create | nest-app/src/modules/user/user.service.ts:37-55 | An invalid body is refused. A user with both the username and the e-mail gives `general.alreadyExists`. A role id that does not resolve gives `general.failed`. Otherwise exactly one row is added with the normalised identifiers, the hashed password, `isActive` coerced to boolean and exactly the listed roles. |
| UserService.UserTable.CreateValid | nest-app/src/modules/user/user.service.ts:40-54 | `CreatedAs`: the outcome described under `Create`, for a validated body. |
| UserService.UserTable.InsertCreated | nest-app/src/modules/user/user.service.ts:47-54 | Inserting a validated user succeeds whenever the row fits the table. It stores exactly the listed roles, and a failure writes nothing. |
| UserService.UserTable.Register | nest-app/src/modules/user/user.service.ts:64-87 | An invalid body is refused. A duplicate gives `general.alreadyExists`, and a missing GUEST role gives status 500. Otherwise exactly one inactive row is added whose only role is GUEST. |
| UserService.UserTable.RegisterValid | nest-app/src/modules/user/user.service.ts:64-87 | `RegisteredAs`: the outcome described under `Register`, for a validated body. |
| UserService.UserTable.FindAllWith | nest-app/src/modules/user/user.service.ts:95-132 | A filter on a column the table lacks fails the query. Otherwise the result is the page of matches, with deleted users hidden unless `withDeleted` is set and `total` counting every match. |
| UserService.UserTable.Select | nest-app/src/modules/user/user.service.ts:109-125 | The rows the conditions select before ordering and paging, or the unknown-column failure. |
| UserService.UserTable.FindAllAsWritten | nest-app/src/modules/user/user.service.ts:118-124 | As written, any `isDeleted` filter fails with an unknown column. |
| UserService.UserTable.FindAll | nest-app/src/modules/user/user.service.ts:95-132 | Corrected: every valid query gets the page of matches and the total. |
| UserService.UserTable.Update | nest-app/src/modules/user/user.service.ts:164-179 | The intended update, the corrected half of the fourth Findings row. An invalid body is refused and writes nothing; a valid one is applied as `UpdatedAs` says. |
| UserService.UserTable.UpdateValid | nest-app/src/modules/user/user.service.ts:164-179 | An unknown or deleted id gives `general.notFound`. A role list none of whose ids resolves gives `general.invalid`; a partly resolving list is accepted. A null, over-long or taken username fails at the column. Otherwise only that row changes: the username normalised, the resolved roles and the flag, each when given. |
| UserService.UserTable.WriteUpdate | nest-app/src/modules/user/user.service.ts:177-178 | The write step of the intended update for a live user whose roles resolved. A null, over-long or taken username fails at the column and writes nothing. Otherwise exactly that row takes the username, the roles and the flag, and the answer is true. |
| UserService.UserTable.UpdateAsWritten | nest-app/src/modules/user/user.service.ts:164-179 | The update as written. An invalid body, an unknown id and a role list that resolves to nothing are refused as in the intended update. Then a body that gives `roleIds` or `isActive`, even as `null`, fails with a runtime error and writes nothing. A body with at most a username is applied like the intended update. |
| UserService.UserTable.AsWrittenKeepsRolesAndFlag | nest-app/src/modules/user/user.service.ts:177 | Whatever the body, a successful as-written update leaves the user's roles and flag as they were. |
| UserService.UserTable.IntendedWritesRolesAndFlag | nest-app/src/modules/user/user.service.ts:170-177 | A successful intended update stores the roles the listed ids resolve to, and the flag when one is given. |
| UserService.RoleListBodyReachesRepository | nest-app/src/modules/user/user.service.ts:165-177 | `{"roleIds": [2]}` passes the update's validation with `[2]` as its role list, and its `roleIds` key is defined when the body reaches the repository. |
| UserService.UserTable.Add | nest-app/src/modules/user/user.service.ts:54 | Stores a new valid row under the next id. |
| UserService.UserTable.PutRow | nest-app/src/modules/user/user.service.ts:177 | Writes one valid row over its id. |
| UserService.UserTable.SetPassword | nest-app/src/modules/user/user.service.ts:187-193 | Writes the hash of the new password into the row of that id, or fails when the hash does not fit the column. Answers whether a row was affected. |
| UserService.UserTable.SoftDelete | nest-app/src/modules/user/user.service.ts:201-204 | An empty id list throws. Otherwise it answers whether any listed row exists. Every listed row, deleted or not, gets the deletion time; nothing else changes. |
| UserService.UserTable.Restore | nest-app/src/modules/user/user.service.ts:212-215 | An empty id list throws. Otherwise it answers whether any listed row exists. Every listed row, deleted or not, has its deletion time cleared; nothing else changes. |
| UserService.UserTable.Delete | nest-app/src/modules/user/user.service.ts:223-226 | An empty id list throws. Otherwise it answers whether a listed user existed, and exactly the listed rows are removed. |
| UserService.AllListedRolesFound | nest-app/src/modules/user/user.service.ts:44-46 | When as many roles are found as ids were given, the found roles' ids are exactly the given ids. |
| AuthService.ValidUserBeforeLogin | nest-app/src/modules/auth/auth.service.ts:41-68 | An unknown username and a wrong password both get the same BadRequest. An inactive user is Forbidden before the password is compared. On success the user comes back as found: active, and its password matches. |
| AuthService.DisabledAccountRefused | nest-app/src/modules/auth/auth.service.ts:53-54 | A live disabled account is Forbidden under any name normalising to its username, whatever the password. |
| AuthService.RegisteredUserIsLockedOut | nest-app/src/modules/auth/auth.service.ts:53-54 | A user who has just registered is refused at login. |
| AuthService.CreateToken | nest-app/src/modules/auth/auth.service.ts:82-107 | The access payload is exactly the user's id and username. The refresh payload adds the digest of the stored password. The refresh lifetime is the configured one, or `90d` when unset. A user without its password makes the digest throw. |
| AuthService.RefreshHashTracksPassword | nest-app/src/modules/auth/auth.service.ts:91-94 | Equal stored passwords give equal refresh hashes. For an injective digest, different passwords give different hashes. |
| AuthService.LoggedInUserGetsTokens | nest-app/src/modules/auth/auth.service.ts:57-107 | A user who passed the login checks always gets tokens. |
| JwtStrategy.Validate | nest-app/src/modules/auth/jwt.strategy.ts:25-40 | A payload resolves iff a live user has its id. The user comes back with that id and with its password. Any other outcome is `Unauthorized('Unauthorized')`. |
| JwtStrategy.Authenticated | nest-app/src/modules/auth/jwt.strategy.ts:25-40 | The strategy's outcome becomes the guard's input: the user or the error. |
| JwtStrategy.TokenResolvesToLoggedInUser | nest-app/src/modules/auth/jwt.strategy.ts:28 | A token issued at login resolves to the same user. |
| JwtStrategy.GoneUserRefused | nest-app/src/modules/auth/jwt.strategy.ts:31-33 | On a protected route, a token whose user is gone is Unauthorized. |
| JwtStrategy.DisabledUserForbidden | nest-app/src/guards/auth/auth.guard.ts:70-74 | On a protected route, a token of a disabled user is Forbidden. |
| UserCommand.Precheck | nest-app/src/commands/user.command.ts:29-52 | The checks run in order: a valid e-mail, no space in the password, at least 3 characters, an existing ADMINISTRATOR, and no user with the e-mail. Passing all of them yields the administrator role. |
| UserCommand.InitUser | nest-app/src/commands/user.command.ts:25-69 | As written, each failed check is reported. A run that passes them fails at the NOT NULL username column. The table never changes. |
| UserCommand.InitUserWithUsername | nest-app/src/commands/user.command.ts:55-62 | Corrected: after the same checks exactly one active user is saved whose only role is ADMINISTRATOR. A failure changes nothing. |
| Comparison.Related | nest-app/src/common/decorators/comparison.decorator.ts:56-66 | A string constraint names a sibling property, whose value is the reference. Other constraints are used directly. |
| Comparison.CompareNumbers | nest-app/src/common/decorators/comparison.decorator.ts:119-136 | Numbers support the six relations and throw on in/nin. Against NaN, only `ne` holds. |
| Comparison.Validate | nest-app/src/common/decorators/comparison.decorator.ts:48-146 | Defining model of `validate`, branch by branch. An `Err` is the `Error` thrown for an unsupported operator. Its meaning is stated by the lemmas below. |
| Comparison.ValidateThrowsIffUnsupported | nest-app/src/common/decorators/comparison.decorator.ts:48-146 | A null reference passes. Otherwise the check throws iff the value pair and operator are unsupported: array with other than in/nin, Date or number with in/nin, string with other than eq/ne, or mixed types. |
| Comparison.NinNegatesIn | nest-app/src/common/decorators/comparison.decorator.ts:71-80 | Against an array, `in` is membership by `===` and `nin` is its negation. |
| Comparison.NumberOperatorDuals | nest-app/src/common/decorators/comparison.decorator.ts:119-136 | `ne` negates `eq`. Without NaN, `lt` negates `gte` and `gt` negates `lte`. |
| Comparison.StringsOnlyEquality | nest-app/src/common/decorators/comparison.decorator.ts:103-116 | Two strings compare only by eq and ne; any other operator throws. |
| Comparison.DatesByTimestamp | nest-app/src/common/decorators/comparison.decorator.ts:83-100 | Two dates compare by timestamp, and in/nin throw. |
| QueryDto.TypeNumber | nest-app/src/common/dtos/query.dto.ts:59-63 | `@Type(() => Number)` leaves null and undefined alone. A scalar becomes `Number(v)`, that is, a number or NaN. A list is converted element by element. |
| QueryDto.PageLimitTransform | nest-app/src/common/dtos/query.dto.ts:59-79 | A falsy converted value, 0 included, becomes undefined. A truthy one becomes `Number(value)`, which for a scalar is the non-zero number itself. |
| QueryDto.IdsTransform | nest-app/src/common/dtos/query.dto.ts:110-132 | A falsy value gives `[]`, and a scalar becomes a one-element list. Elements are numeric-converted. |
| QueryDto.Ints | nest-app/src/common/dtos/query.dto.ts:110-132 | The id lists pass iff every element is an integer. |
| QueryDto.Flag | nest-app/src/common/dtos/query.dto.ts:90 | An absent flag stays absent. A present one is accepted iff it converts to the number 0 or 1, and the number is kept; otherwise the query is refused. |
| QueryDto.ParseOrder | nest-app/src/common/dtos/query.dto.ts:21-26 | Absent stays absent. `ASC` and `DESC` are accepted as themselves; any other present value is refused. |
| QueryDto.PageField | nest-app/src/common/dtos/query.dto.ts:59-63 | Accepted iff the transformed page is undefined or a number of at least 1, and that number is kept. |
| QueryDto.LimitField | nest-app/src/common/dtos/query.dto.ts:75-79 | Accepted iff the transformed limit is undefined or a number in [0, 100], and that number is kept. A kept limit is not 0 unless it came from a list. |
| QueryDto.Parse | nest-app/src/common/dtos/query.dto.ts:21-156 | A query is accepted iff each field passes its own rule, the delete flags counting only on the with-delete query. An accepted query carries each field's kept value: order, search text, page, limit, the flags and both id lists. `orderBy` is always `id`. Every failure is the validation error. |
| QueryDto.Page | nest-app/src/modules/role/role.service.ts:46 | An absent page means page 1. |
| QueryDto.Limit | nest-app/src/modules/role/role.service.ts:47 | An absent limit means 10. |
| QueryDto.ZeroMeansDefault | nest-app/src/common/dtos/query.dto.ts:75-79 | `limit=0`, an empty limit and no limit all become undefined, and so the default. |
| QueryDto.ParseDeleteFlagsOnly | nest-app/src/common/dtos/query.dto.ts:144-156 | A query carrying only the two delete flags parses to exactly those flags. |
| QueryDto.FlagOfOne | nest-app/src/common/dtos/query.dto.ts:144 | The query-string `1` is the flag 1. |
| QueryDto.IdsScalar | nest-app/src/common/dtos/query.dto.ts:110-132 | A numeric scalar id is the list of that id; a non-numeric one is refused. |
| DtoRules.IntsOf | nest-app/src/modules/user/dto/create-user.dto.ts:47-52 | The integers of an all-integer list, element for element. |
| DtoRules.Nums | nest-app/src/modules/user/dto/create-user.dto.ts:47-52 | The list of numbers holding the given integers. |
| DtoRules.ConfirmAsWritten | nest-app/src/common/decorators/comparison.decorator.ts:139-141 | As written, a missing reference passes and two strings compare by equality. |
| DtoRules.MissingConfirmThrows | nest-app/src/modules/auth/dto/register.dto.ts:55 | As written, a body without a confirmation makes the comparison throw. |
| DtoRules.ConfirmIff | nest-app/src/modules/auth/dto/register.dto.ts:43-57 | Corrected: a confirmation passes iff it is identical to the password. |
| CreateRoleDto.Validate | nest-app/src/modules/role/dto/create-role.dto.ts:16-35 | A body passes iff the code is a non-empty A-Z string and the description is absent or at most 400 characters. The permissions must be absent or a list of catalogue values. The normaliser is a no-op on a validated code. |
| CreateRoleDto.Strings | nest-app/src/modules/role/dto/create-role.dto.ts:30-35 | The strings of an all-string list, element for element. |
| CreateRoleDto.LowerCaseCodeRefused | nest-app/src/modules/role/dto/create-role.dto.ts:19 | A code with a lower-case letter, such as `editor`, is refused. |
| CreateUserDto.Validate | nest-app/src/modules/user/dto/create-user.dto.ts:19-58 | A body passes iff: a non-empty username and an e-mail of at most 191 characters; a 3-32 character password without whitespace; a non-empty list of integer role ids; and an optional boolean flag. The result carries exactly those values. |
| UpdateUserDto.Validate | nest-app/src/modules/user/dto/update-user.dto.ts:14-16 | The same constraints on username, role ids and flag, each optional; `undefined` and `null` are told apart. |
| UpdateUserDto.CreateBodyIsUpdateBody | nest-app/src/modules/user/dto/update-user.dto.ts:14-16 | Every body the create DTO accepts is accepted here, with the same username, role ids and flag. |
| UpdateUserDto.DropsEmailAndPassword | nest-app/src/modules/user/dto/update-user.dto.ts:14-16 | E-mail and password are not update fields: sending them changes nothing. |
| UpdateUserDto.EmptyBodyIsEmptyUpdate | nest-app/src/modules/user/dto/update-user.dto.ts:18 | An empty body is valid and changes nothing, so `UpdateMyProfileDto` accepts it. |
| UpdateUserDto.ValidateSetPassword | nest-app/src/modules/user/dto/update-user.dto.ts:21-50 | `newPassword` is 3-32 characters without whitespace, and `confirmPassword` equals it. |
| UpdateUserDto.MismatchRefused | nest-app/src/modules/user/dto/update-user.dto.ts:36-50 | Two different passwords are refused. |
| RegisterDto.Validate | nest-app/src/modules/auth/dto/register.dto.ts:15-57 | Corrected, with the confirmation of the second Findings row. A body passes iff: a non-empty username; a valid e-mail; a 3-32 character password without whitespace; and a confirmation equal to it. The result carries those values. A missing or non-string confirmation is refused as invalid, where the code as written throws. |
| RegisterDto.MissingConfirmRefused | nest-app/src/modules/auth/dto/register.dto.ts:43-57 | A registration without a confirmation is refused as invalid input. The comparison as written throws on it. |
| RegexUtils.IsValidSlug | nest-app/src/common/utils/regex.utils.ts:8-10 | Defining model: `^[a-z0-9]+(?:-[a-z0-9]+)*$`: non-empty, lower-case letters, digits and hyphens, with no hyphen at either end or next to another. Its meaning is stated by `HyphenatedRunsAreSlugs` and `SlugsAreHyphenatedRuns`. |
| RegexUtils.IsStrongPassword | nest-app/src/common/utils/regex.utils.ts:13-17 | Defining model: `pwdStrongRegex`: 6 to 15 characters from letters, digits and `!@#$%^&*`, with at least one digit and at least one such special character. |
| RegexUtils.IsAllUppercase | nest-app/src/common/utils/regex.utils.ts:20-23 | Defining model: `^[A-Z]*$`: every character is an ASCII capital, and the empty string passes. |
| RegexUtils.IsValidUsername | nest-app/src/common/utils/regex.utils.ts:26-29 | Defining model: `^[a-zA-Z0-9_.]{3,30}$`: 3 to 30 letters, digits, `_` or `.`. |
| RegexUtils.IsAlphabetOnly | nest-app/src/common/utils/regex.utils.ts:32-35 | Defining model: `^[a-zA-Z]*$`: ASCII letters only, and the empty string passes. |
| RegexUtils.IsValidPostType | nest-app/src/common/utils/regex.utils.ts:38-41 | Defining model: `^[a-z-]+$`: non-empty, lower-case letters and hyphens. |
| RegexUtils.IsValidCapitalLettersOrUnderscores | nest-app/src/common/utils/regex.utils.ts:44-47 | Defining model: `^[A-Z_]+$`: non-empty, capitals and underscores. |
| RegexUtils.ContainsNoWhitespace | nest-app/src/common/utils/regex.utils.ts:50-53 | Defining model: `^\S*$`: no whitespace character. |
| RegexUtils.IsAlphaNumSpecial | nest-app/src/common/utils/regex.utils.ts:56-60 | Defining model: `regexAlphaNumSpecial`: non-empty, letters, digits and the listed specials only. |
| RegexUtils.HyphenatedRunsAreSlugs | nest-app/src/common/utils/regex.utils.ts:8-10 | Every string of `[a-z0-9]+` runs joined by single hyphens passes `isValidSlug`. |
| RegexUtils.SlugsAreHyphenatedRuns | nest-app/src/common/utils/regex.utils.ts:8-10 | Every string passing `isValidSlug` splits at its hyphens into such runs. |
| RegexUtils.FirstHyphen | nest-app/src/common/utils/regex.utils.ts:8-10 | The first hyphen, given that there is one. |
| RegexUtils.PredicateInclusions | nest-app/src/common/utils/regex.utils.ts:8-53 | How the character classes nest: upper-case is alphabetic, and a non-empty upper-case string is capitals-or-underscores. Strong passwords, usernames and slugs contain no whitespace and are alphanumeric-special. Alphabetic strings contain no whitespace. |
| RegexUtils.UppercaseIsNormalised | nest-app/src/common/utils/regex.utils.ts:20-23 | A string passing `isAllUppercase` is already trimmed and upper-case. |
| StringUtils.BaseLetterKeepsCase | nest-app/src/common/utils/string.utils.ts:9-22 | An accented lower-case letter maps to a plain lower-case vowel or d, and an upper-case one to the upper-case base. Any other character is kept. |
| StringUtils.BaseLetterFixed | nest-app/src/common/utils/string.utils.ts:9-22 | A base letter maps to itself. |
| StringUtils.CasesDisjoint | nest-app/src/common/utils/string.utils.ts:9-22 | No letter is in both the lower-case and the upper-case tables. |
| StringUtils.ReplaceEach | nest-app/src/common/utils/string.utils.ts:9-22 | One `replace(/[...]/g, base)`: each listed letter becomes the base, others stay. |
| StringUtils.ChainIsBaseLetter | nest-app/src/common/utils/string.utils.ts:9-22 | The chain of lower-case replacements followed by the upper-case ones maps a letter to its base. |
| StringUtils.RemoveLowerAccents | nest-app/src/common/utils/string.utils.ts:9-15 | The lower-case replacements, character by character, preserving length. |
| StringUtils.RemoveUpperAccents | nest-app/src/common/utils/string.utils.ts:16-22 | The upper-case replacements, character by character, preserving length. |
| StringUtils.RemoveAccents | nest-app/src/common/utils/string.utils.ts:7-24 | Each character becomes its base letter, and length is preserved. |
| StringUtils.RemoveAccentsIdempotent | nest-app/src/common/utils/string.utils.ts:7-24 | Removing accents twice is removing them once. |
| StringUtils.KeepWordsAndSpaces | nest-app/src/common/utils/string.utils.ts:37 | Only word characters and spaces remain; such a string is kept whole, and no upper-case letter appears. |
| StringUtils.SkipSpaces | nest-app/src/common/utils/string.utils.ts:38 | A suffix without leading spaces. |
| StringUtils.HyphenateSpaces | nest-app/src/common/utils/string.utils.ts:38 | Defining model of `.replace(/ +/g, '-')`: a leading run of spaces gives one hyphen, and any other character is kept. Its meaning is stated by `HyphenateIsSqueezedRuns`. |
| StringUtils.HyphenateChars | nest-app/src/common/utils/string.utils.ts:38 | The hyphenated string holds hyphens and the input's non-space characters. |
| StringUtils.HyphenateNoDouble | nest-app/src/common/utils/string.utils.ts:38 | No two hyphens are adjacent in the hyphenated text, and it starts with a hyphen iff the input starts with a space. |
| StringUtils.SqueezeAfter | nest-app/src/common/utils/string.utils.ts:38 | Reference definition for `/ +/`: each run of spaces is cut to its first space. The result is no longer than the input, has no two spaces in a row, and after a space does not start with one. |
| StringUtils.SpacesToHyphens | nest-app/src/common/utils/string.utils.ts:38 | Reference definition for the `'-'` replacement: same length, every space becomes a hyphen, and every other character is kept. |
| StringUtils.HyphenateIsSqueezedRuns | nest-app/src/common/utils/string.utils.ts:38 | `.replace(/ +/g, '-')` equals squeezing each run of spaces to one space and mapping spaces to hyphens. So each run of spaces becomes exactly one hyphen in its place, and nothing else changes. |
| StringUtils.HyphenateHasHyphen | nest-app/src/common/utils/string.utils.ts:38 | There is a hyphen iff there was a space. |
| StringUtils.HyphenateKeepsWords | nest-app/src/common/utils/string.utils.ts:38 | Apart from hyphens and spaces, the text is unchanged. |
| StringUtils.SlugTrimIsNoOp | nest-app/src/common/utils/string.utils.ts:38-39 | The final `trim` changes nothing. |
| StringUtils.ConvertToSlug | nest-app/src/common/utils/string.utils.ts:32-40 | The slug is exactly the cleaned words with each run of spaces squeezed and mapped to one hyphen. Hence it holds only `[a-z0-9_-]` with no double hyphen, has a hyphen iff the cleaned words had a space, and apart from hyphens is the cleaned words. |
| StringUtils.Capitalize | nest-app/src/common/utils/string.utils.ts:48-51 | Length is preserved. The first character is upper-cased and the rest lower-cased, so empty gives empty. |
| StringUtils.CapitalizeIgnoresCase | nest-app/src/common/utils/string.utils.ts:48-51 | Capitalising ignores the input's case and is idempotent. |
| DateUtils.SortBy | nest-app/src/common/utils/date.ultis.ts:32 | Sorts the array in place by the key, as a permutation of its elements. |
| DateUtils.InsertInto | nest-app/src/common/utils/date.ultis.ts:32 | One insertion step extends the sorted prefix by one element, as a permutation. |
| DateUtils.Swap | nest-app/src/common/utils/date.ultis.ts:32 | Exchanges two elements. |
| DateUtils.MinStart | nest-app/src/common/utils/date.ultis.ts:28-34 | None iff there are no schedules; otherwise a start that is at most every start. |
| DateUtils.SortedHeadIsMin | nest-app/src/common/utils/date.ultis.ts:32-33 | The head of a sorted permutation holds the smallest start. |
| DateUtils.GetEarliestStartDate | nest-app/src/common/utils/date.ultis.ts:28-34 | Returns the smallest start, or null for none. The array is left sorted by start, as a permutation of itself. |
| DateUtils.Days | nest-app/src/common/utils/date.ultis.ts:64-72 | One day per date from start to end inclusive; none when start is after end. |
| DateUtils.AllDaysLength | nest-app/src/common/utils/date.ultis.ts:64-72 | All schedules' days number the sum of their lengths. |
| DateUtils.AllDaysCount | nest-app/src/common/utils/date.ultis.ts:64-72 | A date occurs once per schedule covering it. |
| DateUtils.DaysOnce | nest-app/src/common/utils/date.ultis.ts:64-72 | A schedule lists each of its dates once. |
| DateUtils.Numbered | nest-app/src/common/utils/date.ultis.ts:55-71 | The generated days numbered 1..N in generation order. |
| DateUtils.GenerateDaysWithIndex | nest-app/src/common/utils/date.ultis.ts:53-79 | An empty list gives `[]`. The result is the numbered days, sorted by date, as a permutation. |
| DateUtils.ProjectionPermutes | nest-app/src/common/utils/date.ultis.ts:76 | Permuting entries permutes any projection of them. |
| DateUtils.GeneratedDays | nest-app/src/common/utils/date.ultis.ts:53-79 | The sorted result has one entry per scheduled day, and its day numbers are exactly 1..N, each once. Each date appears as often as schedules cover it. |
| DateUtils.CountLeaveDaysInRange | nest-app/src/common/utils/date.ultis.ts:92-106 | At most the number of leave days. All of them count iff every one is in range, and none iff none is. |
| DateUtils.InRangeIffScheduled | nest-app/src/common/utils/date.ultis.ts:98-105 | A day is in range iff it is one of the schedule's days. |
| DateUtils.CountAdditive | nest-app/src/common/utils/date.ultis.ts:98-105 | The count over two lists of leave days is the sum of the counts. |
| DateUtils.CountMonotone | nest-app/src/common/utils/date.ultis.ts:98-105 | A wider range counts at least as many leave days. |
| CacheService.KeyPart | nest-app/src/common/services/cache.service.ts:25-33 | Objects are JSON-serialised; everything else goes through `String`. |
| CacheService.KeyParts | nest-app/src/common/services/cache.service.ts:25-33 | Each part turned into text, in order. |
| CacheService.GenerateCacheKey | nest-app/src/common/services/cache.service.ts:22-36 | The parts' texts joined with `&`; no parts give `''`. |
| CacheService.Remaining | nest-app/src/common/services/cache.service.ts:77-95 | Exactly the entries whose key contains no generated key are kept, with their values. |
| CacheService.Cache.constructor | nest-app/src/common/services/cache.service.ts:44-105 | The store holds the given entries. |
| CacheService.Cache.Get | nest-app/src/common/services/cache.service.ts:44-53 | Returns the generated key and the value stored under it, or none on a miss. |
| CacheService.Cache.Set | nest-app/src/common/services/cache.service.ts:63-67 | Stores the data under the generated key, replacing what was there. |
| CacheService.Cache.CleanBy | nest-app/src/common/services/cache.service.ts:77-95 | Deletes exactly the keys that contain some generated key anywhere in them; every other entry is unchanged. |
| CacheService.Cache.CleanAll | nest-app/src/common/services/cache.service.ts:103-105 | Empties the store. |
| CacheService.CleanByNothing | nest-app/src/common/services/cache.service.ts:77-95 | Cleaning by no key lists deletes nothing. |
| CacheService.CleanByEmptyKeyClearsAll | nest-app/src/common/services/cache.service.ts:83-87 | An empty key list generates `''`, which every key contains, so everything is deleted. |
| CacheService.CleanByMatchesInside | nest-app/src/common/services/cache.service.ts:83-87 | A key holding the generated key in its middle is deleted too. |
| CacheService.CleanByIdempotent | nest-app/src/common/services/cache.service.ts:77-95 | Cleaning twice is cleaning once, and cleaning never adds entries. |
| CacheService.KeysCollide | nest-app/src/common/services/cache.service.ts:22-36 | A number and its numeral, and a part holding `&` and the two parts around it, generate the same key. |
| MediaService.Prefix | nest-app/src/modules/media/media.service.ts:17 | `slice(0, n)`: the first `n` characters, or all of them. |
| MediaService.UniqueSuffix | nest-app/src/modules/media/media.service.ts:15-18 | The first 8 UUID characters, a hyphen, then the timestamp. |
| MediaService.StripTrailingSlashes | nest-app/src/modules/media/media.service.ts:33 | A prefix of the path without a trailing slash. |
| MediaService.AfterLastSlash | nest-app/src/modules/media/media.service.ts:33 | The slash-free suffix of the path. |
| MediaService.LastDot | nest-app/src/modules/media/media.service.ts:33 | The index of the last dot, or -1. |
| MediaService.Base | nest-app/src/modules/media/media.service.ts:33 | The last path segment has no slash. |
| MediaService.ParsePath | nest-app/src/modules/media/media.service.ts:33 | Name and extension make up the last segment. The extension is empty or a single dot-led part. A dot that opens the segment does not start an extension. |
| MediaService.UniqueFileName | nest-app/src/modules/media/media.service.ts:26-40 | A missing or empty original name throws. Otherwise the name is `slug(name) + '-' + suffix + ext`, lower-cased, with no upper-case letter. |
| MediaService.FileNameShape | nest-app/src/modules/media/media.service.ts:39 | Lower-casing the joined name leaves the slug and the hyphen as they are. |
| MediaService.DifferentTimesDifferentNames | nest-app/src/modules/media/media.service.ts:15-40 | The same file and UUID at two different times get different names. |
| MediaService.NameParts | nest-app/src/modules/media/media.service.ts:33-39 | The name cut at its timestamp. |
| MediaService.SuffixLowered | nest-app/src/modules/media/media.service.ts:17 | Lower-casing the suffix leaves the timestamp alone. |
| MediaService.LowerOfNumeral | nest-app/src/modules/media/media.service.ts:17 | A numeral has nothing to lower-case. |

## Left out

- Signing and verifying the tokens (RFC 7519), the MD5 digest (RFC 1321), bcrypt hashing and comparison, and UUID generation are library code. They are uninterpreted function parameters, and the model checks none of their behaviour. The bearer-header extraction and the expiry check of the JWT step are left out too.
- The refresh `hash` is put into the token, but the code never compares it anywhere. The model therefore states nothing about refresh tokens after a password change.
- The role update when `code` is omitted depends on how the ORM treats an undefined criterion. The model always takes a code (`RoleService.RoleUpdate`).
- The ORM and MySQL are modelled as two in-memory tables. The model checks unique keys, NOT NULL columns and column lengths at save time. Transactions, the join table and the order in which the database checks constraints are not modelled.
- LIKE: `s` is matched as a case-insensitive ASCII substring. `%` and `_` inside `s` are not treated as wildcards, and the database collation is not modelled beyond ASCII case.
- `isEmail` from class-validator is a parameter; its grammar is not part of this model.
- Error messages: the guard's messages and the i18n keys (`general.alreadyExists` and so on) are the code's. The messages that the ORM and `Error` produce are named by their MySQL error name or a short English text.
- String length is counted in code points, not in UTF-16 units. Upper and lower case are ASCII only. Accents written as combining characters are not stripped.
- `Date` values are integer timestamps, and schedule dates are integer day numbers, so the time of day is not modelled. In the cache key a `Date` is an object and goes through `JSON.stringify`, as in the code. The model writes it as its quoted timestamp, not as the quoted ISO-8601 text that `Date.prototype.toJSON` gives.
- `getEarliestStartDate`, `generateDaysWithIndex` and `countLeaveDaysInRange` throw on a `null` list in the code. In the last one the guard `leaveDays?.length < 0` is false for `null`, so `leaveDays.filter` throws. The model takes a list.
- DateUtils.GenerateDaysWithIndex: states the result as a sorted permutation, not the exact order of entries with equal dates. Array `sort` leaves that order to the engine.
- Time-to-live in the cache is not modelled. `cleanBy` deletes keys concurrently with `Promise.all`; the model deletes them one at a time, which gives the same final store.
- The spinner and the logger of the console command, and all framework wiring, are left out: controllers, modules, interceptors, filters and Swagger metadata.
- The global `ValidationPipe` (nest-app/src/main.ts:114-119, `transform: true` with `enableImplicitConversion`) converts and validates every `@Body` and `@Query` DTO once before the service's own `validateDto` runs. The model has only the service's pass, so it refuses some requests the pipe lets through. The pipe converts a boolean field from any non-empty string, so `{"isActive":"false"}` is accepted as `true`; `CreateUserDto.Validate` refuses it. It converts a string field from a number, so `{"username":123}` is accepted as `"123"`; the model refuses it. It turns `?limit[]=0` into 0 and then `undefined`, so the default of 10 applies; `QueryDto.Parse` gives a take of 0, that is, no limit.
- Js.ParseNumber: numbers are integers, so `Number(...)` of a decimal fraction, an exponent or a hexadecimal numeral reads as `NaN`. `QueryDto.Parse` therefore refuses `?page=1.5`, `?limit=2.5`, `?limit=1e1` or `?page=0x10` with `BadRequest`, where the code accepts them.
- UserService.UserTable.UpdateAsWritten: a key of the partial entity whose value is `undefined` is taken as skipped. The errors the ORM raises for `roleIds`, `isActive` and the many-to-many `roles` are one runtime error; their types and messages are not modelled.
- The S3, Google Cloud, static-file and mail modules are network I/O and are not part of this model.
- UserService.UserTable.SetPassword: the answer is "a row with that id exists". It does not model that the ORM reports a row as affected even when the value is unchanged.

## Findings

| source | as written | input that shows it | evidently intended | confidence | as-written member | corrected member |
|---|---|---|---|---|---|---|
| nest-app/src/modules/user/user.service.ts:118-124 | The `isDeleted` filter names `user.deletedAt`, but the soft-delete column is `deleted_at`. | `GET /users?isDeleted=1&withDeleted=1` passes validation and then fails with an unknown-column error. | The filter selects deleted (or live) users on the `deleted_at` column. | not executed | UserService.UserTable.FindAllAsWritten, UserService.DeletedUsersQueryIsValid | UserService.UserTable.FindAll |
| nest-app/src/common/decorators/comparison.decorator.ts:139-141 | `@Comparison('password', 'eq')` on `confirmPassword` throws a plain `Error` when the confirmation is missing or not a string. class-validator does not catch it, so the request gets a 500 instead of a validation error. | A registration body with no `confirmPassword` field. | A missing or mistyped confirmation fails validation like any other constraint. | not executed | DtoRules.ConfirmAsWritten, DtoRules.MissingConfirmThrows | DtoRules.ConfirmIff, RegisterDto.MissingConfirmRefused |
| nest-app/src/commands/user.command.ts:55-62 | `init:user` saves a user without a username. The username column is NOT NULL without a default, so the save always fails, and the error is caught and only logged. | `init:user admin@example.com secret` with an ADMINISTRATOR role present and the e-mail unused. | One active administrator is created. | not executed | UserCommand.InitUser | UserCommand.InitUserWithUsername |
| nest-app/src/modules/user/user.service.ts:177 | `update(id, { ...body, roles })` hands the ORM's `update` the DTO's `roleIds` and `isActive` keys and the `roles` relation. Neither key is a property of the user (the flag's property is `is_active`), and `update` cannot write a many-to-many relation. So any body that gives roles or the flag fails with a 500 and writes nothing. | `PATCH /users/1` with `{"roleIds": [2]}` (or `{"isActive": true}`) for a live user 1 and an existing role 2. | The user's roles are replaced by the resolved ones and the flag is set, as the method's own comment says. | not executed | UserService.UserTable.UpdateAsWritten, UserService.UserTable.AsWrittenKeepsRolesAndFlag, UserService.RoleListBodyReachesRepository | UserService.UserTable.Update, UserService.UserTable.IntendedWritesRolesAndFlag |

=== FILE: auth_decorator.dfy ===
/**
 * The route policy the `@Auth(...)` and `@Public()` decorators record, the way
 * the guard reads it back, and the `@AuthUser()` parameter projection.
 */
module AuthDecorator {
  import opened Common
  import Js

  /** The metadata one decorator target (a handler or a controller class) carries. */
  datatype Metadata = Metadata(isPublic: Option<bool>, permission: Option<seq<string>>)

  const NO_METADATA := Metadata(None, None)

  /** A route: its handler's metadata and its controller class's. */
  datatype Route = Route(handler: Metadata, controller: Metadata)

  /** `@Auth(p1, ..., pn)`: sets the `permission` metadata to exactly `[p1, ..., pn]`. */
  function Auth(target: Metadata, permissions: seq<string>): (r: Metadata)
    ensures r.permission == Some(permissions)
    ensures r.isPublic == target.isPublic
  {
    target.(permission := Some(permissions))
  }

  /** `@Public()`: sets `isPublic` to true and nothing else. */
  function Public(target: Metadata): (r: Metadata)
    ensures r.isPublic == Some(true)
    ensures r.permission == target.permission
  {
    target.(isPublic := Some(true))
  }

  /**
   * `reflector.getAllAndOverride('isPublic', [handler, class])`: the handler's
   * value when it has one, otherwise the class's.
   */
  function IsPublicMetadata(route: Route): (r: Option<bool>)
    ensures route.handler.isPublic.Some? ==> r == route.handler.isPublic
    ensures route.handler.isPublic.None? ==> r == route.controller.isPublic
  {
    if route.handler.isPublic.Some? then route.handler.isPublic else route.controller.isPublic
  }

  /** `if (isPublic)`: the value read back is present and true. */
  predicate IsPublic(route: Route)
  {
    IsPublicMetadata(route) == Some(true)
  }

  /** `reflector.get('permission', handler)`: only the handler is consulted. */
  function RequiredPermissions(route: Route): Option<seq<string>>
  {
    route.handler.permission
  }

  /** `@Public()` on either the handler or its class makes the route public. */
  lemma PublicOnHandlerOrClass(route: Route)
    ensures IsPublic(route.(handler := Public(route.handler)))
    ensures route.handler.isPublic.None? ==> IsPublic(route.(controller := Public(route.controller)))
  {
  }

  /** `@Auth()` with no argument records the empty list, which is not the same as no metadata. */
  lemma AuthWithoutPermissions(target: Metadata)
    ensures Auth(target, []).permission == Some([])
    ensures RequiredPermissions(Route(Auth(target, []), NO_METADATA)) == Some([])
  {
  }

  /**
   * `@AuthUser(data)`: `data ? user && user[data] : user`. The name of a field
   * selects that field of a present user; no name (or the empty one) selects
   * the whole user; an absent user is returned as it is.
   */
  function AuthUser(data: Option<string>, user: Js.Value): (r: Js.Value)
    ensures data.None? || data == Some("") ==> r == user
    ensures data.Some? && data.value != "" && !Js.Truthy(user) ==> r == user
    ensures data.Some? && data.value != "" && Js.Truthy(user) ==> r == Js.Get(user, data.value)
  {
    if data.Some? && data.value != "" then
      (if Js.Truthy(user) then Js.Get(user, data.value) else user)
    else user
  }

  /** A projected field of a request user is one of its fields. */
  lemma AuthUserField(name: string, fields: seq<Js.Field>)
    requires name != ""
    ensures var r := AuthUser(Some(name), Js.Obj(fields));
      r == Js.Undefined || exists i :: 0 <= i < |fields| && fields[i] == Js.Field(name, r)
  {
  }
}

=== FILE: auth_guard.dfy ===
/**
 * `AuthGuard.canActivate`: the fixed-order allow/deny decision over a route's
 * policy and the user the JWT step resolved.
 */
module AuthGuard {
  import opened Common
  import opened RoleEntity
  import opened UserEntity
  import opened AuthDecorator

  const NOT_AUTHENTICATED := "Người dùng chưa được xác thực."
  const ACCOUNT_DISABLED := "Tài khoản của bạn đã bị khóa hoặc vô hiệu hóa."
  const NO_ROLE := "Người dùng chưa được gán bất kỳ vai trò (role) nào."
  const NO_PERMISSION := "Người dùng không có quyền truy cập chức năng này."

  /** `roles.flatMap(r => r.permissions || [])`. */
  function RolePermissions(roles: seq<Role>): (r: seq<string>)
    ensures forall p :: p in r <==>
      exists i :: 0 <= i < |roles| && roles[i].permissions.Some? && p in roles[i].permissions.value
  {
    if roles == [] then []
    else
      var head := if roles[0].permissions.Some? then roles[0].permissions.value else [];
      assert forall p :: p in RolePermissions(roles[1..]) <==>
        exists i :: 1 <= i < |roles| && roles[i].permissions.Some? && p in roles[i].permissions.value
      by {
        forall p ensures p in RolePermissions(roles[1..]) <==>
          exists i :: 1 <= i < |roles| && roles[i].permissions.Some? && p in roles[i].permissions.value
        {
          if p in RolePermissions(roles[1..]) {
            var k :| 0 <= k < |roles[1..]| && roles[1..][k].permissions.Some? && p in roles[1..][k].permissions.value;
            assert roles[k + 1] == roles[1..][k];
          }
          if exists i :: 1 <= i < |roles| && roles[i].permissions.Some? && p in roles[i].permissions.value {
            var k :| 1 <= k < |roles| && roles[k].permissions.Some? && p in roles[k].permissions.value;
            assert roles[1..][k - 1] == roles[k];
          }
        }
      }
      head + RolePermissions(roles[1..])
  }

  /** `current.some(p => required.includes(p))`. */
  function AnyRequired(current: seq<string>, required: seq<string>): (r: bool)
    ensures r <==> exists i :: 0 <= i < |current| && current[i] in required
  {
    if current == [] then false
    else if current[0] in required then true
    else
      assert forall i :: 1 <= i < |current| ==> current[i] == current[1..][i - 1];
      AnyRequired(current[1..], required)
  }

  /**
   * `canActivate`. `authn` is what the passport JWT step leaves behind: the
   * error it raised, or the request user (absent when none was attached).
   * The guard never answers false: it allows or it throws.
   */
  function CanActivate(route: Route, authn: Result<Option<User>, HttpError>): (r: Result<bool, HttpError>)
    ensures r.Ok? ==> r.value
  {
    if IsPublic(route) then Ok(true)
    else if authn.Err? then Err(authn.error)
    else if authn.value.None? then Err(Unauthorized(NOT_AUTHENTICATED))
    else
      var user := authn.value.value;
      var permissions := RequiredPermissions(route);
      if !user.isActive then Err(Forbidden(ACCOUNT_DISABLED))
      else if |user.roles| == 0 then Err(Forbidden(NO_ROLE))
      else if permissions.None? || |permissions.value| == 0 then Ok(true)
      else if AnyRequired(RolePermissions(user.roles), permissions.value) then Ok(true)
      else Err(Forbidden(NO_PERMISSION))
  }

  /** Some role of `roles` lists one of the `required` permissions. */
  predicate Grants(roles: seq<Role>, required: seq<string>)
  {
    exists i, p :: 0 <= i < |roles| && roles[i].permissions.Some? && p in roles[i].permissions.value && p in required
  }

  lemma {:induction false} GrantsIff(roles: seq<Role>, required: seq<string>)
    ensures AnyRequired(RolePermissions(roles), required) <==> Grants(roles, required)
  {
    var cur := RolePermissions(roles);
    if AnyRequired(cur, required) {
      var k :| 0 <= k < |cur| && cur[k] in required;
      assert cur[k] in cur;
      var i :| 0 <= i < |roles| && roles[i].permissions.Some? && cur[k] in roles[i].permissions.value;
    }
    if Grants(roles, required) {
      var i, p :| 0 <= i < |roles| && roles[i].permissions.Some? && p in roles[i].permissions.value && p in required;
      assert p in cur;
      var k :| 0 <= k < |cur| && cur[k] == p;
    }
  }

  /**
   * The whole decision table: a public route is allowed without looking at
   * the user; otherwise a JWT error is passed on, a missing user is
   * Unauthorized, an inactive one Forbidden, one without roles Forbidden; a
   * route with no (or an empty) permission list is then allowed, and any
   * other route is allowed iff some role of the user lists one of the
   * required permissions.
   */
  lemma {:induction false} CanActivateDecision(route: Route, authn: Result<Option<User>, HttpError>)
    ensures IsPublic(route) ==> CanActivate(route, authn) == Ok(true)
    ensures !IsPublic(route) && authn.Err? ==> CanActivate(route, authn) == Err(authn.error)
    ensures !IsPublic(route) && authn == Ok(None) ==> CanActivate(route, authn).Err? && CanActivate(route, authn).error.Unauthorized?
    ensures !IsPublic(route) && authn.Ok? && authn.value.Some? ==>
      var u := authn.value.value;
      var ps := RequiredPermissions(route);
      && (!u.isActive ==> CanActivate(route, authn) == Err(Forbidden(ACCOUNT_DISABLED)))
      && (u.isActive && u.roles == [] ==> CanActivate(route, authn) == Err(Forbidden(NO_ROLE)))
      && (u.isActive && u.roles != [] && (ps.None? || ps.value == []) ==> CanActivate(route, authn) == Ok(true))
      && (u.isActive && u.roles != [] && ps.Some? && ps.value != [] ==>
            (CanActivate(route, authn).Ok? <==> Grants(u.roles, ps.value)))
  {
    if authn.Ok? && authn.value.Some? {
      var u := authn.value.value;
      if RequiredPermissions(route).Some? {
        GrantsIff(u.roles, RequiredPermissions(route).value);
      }
    }
  }

  /** Permission metadata on the controller class never changes the decision. */
  lemma ClassPermissionsIgnored(route: Route, authn: Result<Option<User>, HttpError>, ps: Option<seq<string>>)
    ensures CanActivate(route.(controller := route.controller.(permission := ps)), authn) == CanActivate(route, authn)
  {
  }

  /** For an active user with roles, extra roles or extra permissions never turn an allow into a deny. */
  lemma {:induction false} Monotone(route: Route, u: User, more: seq<Role>, widened: seq<Role>)
    requires u.isActive && u.roles != []
    requires CanActivate(route, Ok(Some(u))).Ok?
    requires |widened| == |u.roles|
    requires forall i :: 0 <= i < |widened| ==>
      (widened[i].permissions.Some? &&
       (u.roles[i].permissions.Some? ==> forall p :: p in u.roles[i].permissions.value ==> p in widened[i].permissions.value))
    ensures CanActivate(route, Ok(Some(u.(roles := u.roles + more)))).Ok?
    ensures CanActivate(route, Ok(Some(u.(roles := widened)))).Ok?
  {
    CanActivateDecision(route, Ok(Some(u)));
    CanActivateDecision(route, Ok(Some(u.(roles := u.roles + more))));
    CanActivateDecision(route, Ok(Some(u.(roles := widened))));
    var ps := RequiredPermissions(route);
    if !IsPublic(route) && ps.Some? && ps.value != [] {
      var i, p :| 0 <= i < |u.roles| && u.roles[i].permissions.Some? && p in u.roles[i].permissions.value && p in ps.value;
      assert (u.roles + more)[i] == u.roles[i];
      assert Grants(u.roles + more, ps.value);
      assert Grants(widened, ps.value);
    }
  }

  /** A user holding one of the required permissions through any role passes an `@Auth(...)` route. */
  lemma {:induction false} HolderPasses(ps: seq<string>, u: User, i: int, p: string)
    requires u.isActive && 0 <= i < |u.roles|
    requires u.roles[i].permissions.Some? && p in u.roles[i].permissions.value && p in ps
    ensures CanActivate(Route(Auth(NO_METADATA, ps), NO_METADATA), Ok(Some(u))) == Ok(true)
  {
    CanActivateDecision(Route(Auth(NO_METADATA, ps), NO_METADATA), Ok(Some(u)));
  }

  /** Roles with null permissions (such as a freshly created role without a list) grant nothing. */
  lemma {:induction false} NullPermissionsGrantNothing(roles: seq<Role>, required: seq<string>)
    requires forall i :: 0 <= i < |roles| ==> roles[i].permissions.None?
    ensures !Grants(roles, required)
  {
  }
}

=== FILE: auth_service.dfy ===
/**
 * `AuthService`: the checks a login goes through and the payloads of the two
 * tokens it hands out. Password comparison and the MD5 digest are parameters;
 * signing is not modelled, so a token is represented by its payload.
 */
module AuthService {
  import opened Common
  import opened UserEntity
  import opened UserService
  import RegisterDto

  /** The one message for an unknown username and for a wrong password. */
  const BAD_CREDENTIALS := "Thông tin đăng nhập không chính xác!"
  /** The message for a disabled account. */
  const ACCOUNT_LOCKED := "Tài khoản của bạn đang bị tạm khóa!"

  /** The refresh token's lifetime when `JWT_REFRESH_EXPIRES_IN` is unset or empty. */
  const DEFAULT_REFRESH_EXPIRES_IN := "90d"

  /** What `hash.update(undefined)` throws. */
  const DIGEST_OF_UNDEFINED :=
    "The \"data\" argument must be of type string or an instance of Buffer, TypedArray, or DataView. Received undefined"

  /** `TPayloadJwt`: the access token's payload. */
  datatype AccessPayload = AccessPayload(id: int, username: string)

  /** The refresh token's payload: the access payload and a digest of the stored password. */
  datatype RefreshPayload = RefreshPayload(id: int, username: string, hash: string)

  /** The two tokens, by payload, and the lifetime the refresh token is signed with. */
  datatype Tokens = Tokens(access: AccessPayload, refresh: RefreshPayload, refreshExpiresIn: string)

  /**
   * `validUserBeforeLogin`: look the user up by username (password
   * included); an unknown username and a wrong password are refused with the
   * same message, and a disabled account is refused before the password is
   * looked at. On success the user is returned as it was found.
   */
  function ValidUserBeforeLogin(users: UserTable, username: string, password: string,
                                compare: (string, string) -> bool): (r: Result<User, HttpError>)
    reads users, users.roles
    requires users.Valid() && users.roles.Valid()
    ensures var found := users.FindOne(ByUsername(username), true);
      && (found.None? ==> r == Err(BadRequest(BAD_CREDENTIALS)))
      && (found.Some? && !found.value.isActive ==> r == Err(Forbidden(ACCOUNT_LOCKED)))
      && (found.Some? && found.value.isActive && !compare(password, found.value.password.value) ==>
            r == Err(BadRequest(BAD_CREDENTIALS)))
      && (r.Ok? ==> found.Some? && r.value == found.value)
    ensures r.Ok? ==> r.value.isActive && r.value.password.Some? && compare(password, r.value.password.value)
  {
    var user := users.FindOne(ByUsername(username), true);
    if user.None? then Err(BadRequest(BAD_CREDENTIALS))
    else if !user.value.isActive then Err(Forbidden(ACCOUNT_LOCKED))
    else if !compare(password, user.value.password.value) then Err(BadRequest(BAD_CREDENTIALS))
    else Ok(user.value)
  }

  /**
   * A live, disabled account is refused with Forbidden under any name that
   * normalises to its username, whatever password is given and however
   * passwords are compared.
   */
  lemma {:induction false} DisabledAccountRefused(users: UserTable, id: int, name: string, password: string,
                                                  compare: (string, string) -> bool)
    requires users.Valid() && users.roles.Valid()
    requires users.Live(id) && !users.rows[id].isActive
    requires users.rows[id].username == IdentTo(Some(name)).value
    ensures ValidUserBeforeLogin(users, name, password, compare) == Err(Forbidden(ACCOUNT_LOCKED))
  {
    assert users.KeyMatches(ByUsername(name), id);
    var found := users.FindOne(ByUsername(name), true);
    assert users.rows[found.value.id].username == users.rows[id].username;
  }

  /**
   * A user who has just registered is refused at login with Forbidden: the
   * account is created disabled.
   */
  lemma RegisteredUserIsLockedOut(users: UserTable, dto: RegisterDto.Dto, hash: string -> string,
                                  before: map<int, UserRow>, next: int, r: Result<User, HttpError>,
                                  password: string, compare: (string, string) -> bool)
    requires users.Valid() && users.roles.Valid()
    requires users.RegisteredAs(dto, hash, before, next, r) && r.Ok?
    ensures ValidUserBeforeLogin(users, dto.username, password, compare) == Err(Forbidden(ACCOUNT_LOCKED))
  {
    DisabledAccountRefused(users, next, dto.username, password, compare);
  }

  /**
   * `createToken`: the access payload is the user's id and username; the
   * refresh payload adds the hex MD5 of the stored password; the refresh
   * lifetime is the configured one, or 90 days when none is set. A user read
   * without its password makes the digest throw.
   */
  function CreateToken(user: User, md5: string -> string, refreshExpiresIn: Option<string>): (r: Result<Tokens, HttpError>)
    ensures user.password.None? <==> r == Err(RuntimeError(DIGEST_OF_UNDEFINED))
    ensures r.Ok? ==>
      && r.value.access.id == user.id && r.value.access.username == user.username
      && r.value.refresh.id == user.id && r.value.refresh.username == user.username
      && r.value.refresh.hash == md5(user.password.value)
    ensures r.Ok? && refreshExpiresIn.Some? && refreshExpiresIn.value != "" ==> r.value.refreshExpiresIn == refreshExpiresIn.value
    ensures r.Ok? && (refreshExpiresIn.None? || refreshExpiresIn.value == "") ==> r.value.refreshExpiresIn == DEFAULT_REFRESH_EXPIRES_IN
  {
    if user.password.None? then Err(RuntimeError(DIGEST_OF_UNDEFINED))
    else
      var access := AccessPayload(user.id, user.username);
      Ok(Tokens(access,
                RefreshPayload(access.id, access.username, md5(user.password.value)),
                if refreshExpiresIn.Some? && refreshExpiresIn.value != "" then refreshExpiresIn.value
                else DEFAULT_REFRESH_EXPIRES_IN))
  }

  /**
   * The refresh hash depends on the stored password alone: two users with the
   * same stored password get the same hash, and (for an injective digest)
   * changing the password changes it.
   */
  lemma RefreshHashTracksPassword(u: User, v: User, md5: string -> string, e: Option<string>)
    requires u.password.Some? && v.password.Some?
    ensures CreateToken(u, md5, e).Ok? && CreateToken(v, md5, e).Ok?
    ensures u.password == v.password ==> CreateToken(u, md5, e).value.refresh.hash == CreateToken(v, md5, e).value.refresh.hash
    ensures (forall a, b :: md5(a) == md5(b) ==> a == b) && u.password != v.password ==>
      CreateToken(u, md5, e).value.refresh.hash != CreateToken(v, md5, e).value.refresh.hash
  {
  }

  /** A user that passed the login checks always gets its tokens: it was read with its password. */
  lemma LoggedInUserGetsTokens(users: UserTable, username: string, password: string,
                               compare: (string, string) -> bool, md5: string -> string, e: Option<string>)
    requires users.Valid() && users.roles.Valid()
    requires ValidUserBeforeLogin(users, username, password, compare).Ok?
    ensures CreateToken(ValidUserBeforeLogin(users, username, password, compare).value, md5, e).Ok?
  {
  }
}

=== FILE: cache_service.dfy ===
/**
 * `CacheService`: cache keys built from lists of request values, and reads,
 * writes and substring-based eviction over the cache store, which is a map
 * from key to value. Time-to-live expiry is not modelled.
 */
module CacheService {
  import opened Common
  import opened Js

  /** One part of a key: objects as JSON, everything else through `String`. */
  function KeyPart(v: Value): (r: string)
    ensures IsObject(v) ==> r == Stringify(v)
    ensures !IsObject(v) ==> r == ToString(v)
  {
    if IsObject(v) then Stringify(v) else ToString(v)
  }

  function KeyParts(parts: seq<Value>): (r: seq<string>)
    ensures |r| == |parts| && forall i :: 0 <= i < |parts| ==> r[i] == KeyPart(parts[i])
  {
    seq(|parts|, i requires 0 <= i < |parts| => KeyPart(parts[i]))
  }

  /** `generateCacheKey`: the parts, each turned into text, joined with `&`. */
  function GenerateCacheKey(parts: seq<Value>): (r: string)
    ensures parts == [] ==> r == ""
    ensures |parts| == 1 ==> r == KeyPart(parts[0])
    ensures |parts| > 1 ==> r == KeyPart(parts[0]) + "&" + GenerateCacheKey(parts[1..])
  {
    assert |parts| > 1 ==> KeyParts(parts)[1..] == KeyParts(parts[1..]);
    Join(KeyParts(parts), "&")
  }

  /** Whether a stored key is evicted by `cleanBy`: some generated key occurs in it. */
  predicate Evicted(key: string, cacheKeys: seq<seq<Value>>)
  {
    exists i :: 0 <= i < |cacheKeys| && Contains(key, GenerateCacheKey(cacheKeys[i]))
  }

  /** The store after `cleanBy`: the entries whose key no generated key occurs in. */
  function Remaining(store: map<string, Value>, cacheKeys: seq<seq<Value>>): (r: map<string, Value>)
    ensures forall k :: k in r <==> k in store && !Evicted(k, cacheKeys)
    ensures forall k :: k in r ==> r[k] == store[k]
  {
    map k | k in store && !Evicted(k, cacheKeys) :: store[k]
  }

  class Cache {
    /** The cache store. */
    var store: map<string, Value>

    constructor(initial: map<string, Value>)
      ensures store == initial
    {
      store := initial;
    }

    /** `get`: the generated key and what is stored under it, `None` on a miss. */
    method Get(cacheKey: seq<Value>) returns (key: string, cache: Option<Value>)
      ensures key == GenerateCacheKey(cacheKey)
      ensures key in store <==> cache.Some?
      ensures cache.Some? ==> cache.value == store[key]
    {
      key := GenerateCacheKey(cacheKey);
      cache := if key in store then Some(store[key]) else None;
    }

    /** `set`: the data is stored under the generated key, replacing what was there. */
    method Set(cacheKey: seq<Value>, data: Value)
      modifies this
      ensures store == old(store)[GenerateCacheKey(cacheKey) := data]
    {
      var key := GenerateCacheKey(cacheKey);
      store := store[key := data];
    }

    /**
     * `cleanBy`: every stored key that contains one of the generated keys,
     * anywhere and not only at its start, is deleted, one key at a time.
     */
    method CleanBy(cacheKeys: seq<seq<Value>>)
      modifies this
      ensures store == Remaining(old(store), cacheKeys)
    {
      var keys := store.Keys;
      var listKeysToRemove := set k | k in keys && Evicted(k, cacheKeys);
      var toRemove := listKeysToRemove;
      while toRemove != {}
        invariant toRemove <= listKeysToRemove
        invariant forall k :: k in store <==> k in keys && (k !in listKeysToRemove || k in toRemove)
        invariant forall k :: k in store ==> store[k] == old(store)[k]
        decreases toRemove
      {
        var key :| key in toRemove;
        store := store - {key};
        toRemove := toRemove - {key};
      }
    }

    /** `cleanAll`: the store is emptied. */
    method CleanAll()
      modifies this
      ensures store == map[]
    {
      store := map[];
    }
  }

  /** `cleanBy([])` deletes nothing. */
  lemma {:induction false} CleanByNothing(store: map<string, Value>)
    ensures Remaining(store, []) == store
  {
  }

  /** An empty key list among the lists generates `""`, which every key contains: everything is deleted. */
  lemma {:induction false} CleanByEmptyKeyClearsAll(store: map<string, Value>, cacheKeys: seq<seq<Value>>)
    requires [] in cacheKeys
    ensures Remaining(store, cacheKeys) == map[]
  {
    var i :| 0 <= i < |cacheKeys| && cacheKeys[i] == [];
    forall k | k in store ensures Evicted(k, cacheKeys) {
      ContainsEmpty(k);
    }
  }

  /** A key is deleted when the generated key occurs anywhere in it, not only at its start. */
  lemma {:induction false} CleanByMatchesInside(store: map<string, Value>, part: string, before: string, after: string)
    requires before + part + after in store
    ensures before + part + after !in Remaining(store, [[Str(part)]])
  {
    var key := before + part + after;
    assert GenerateCacheKey([Str(part)]) == part;
    assert key[|before|..|before| + |part|] == part;
    assert OccursAt(key, part, |before|);
    assert Contains(key, GenerateCacheKey([[Str(part)]][0]));
    assert Evicted(key, [[Str(part)]]);
  }

  /** Cleaning twice with the same lists is cleaning once; cleaning never adds or changes entries. */
  lemma {:induction false} CleanByIdempotent(store: map<string, Value>, cacheKeys: seq<seq<Value>>)
    ensures Remaining(Remaining(store, cacheKeys), cacheKeys) == Remaining(store, cacheKeys)
    ensures Remaining(store, cacheKeys).Keys <= store.Keys
  {
  }

  /**
   * Keys are not tagged by type or by position: a number and its numeral,
   * and one part holding `&` and the parts around it, give the same key.
   */
  lemma {:induction false} KeysCollide()
    ensures GenerateCacheKey([Num(1)]) == GenerateCacheKey([Str("1")])
    ensures GenerateCacheKey([Str("a&b")]) == GenerateCacheKey([Str("a"), Str("b")])
  {
    assert IntToString(1) == "1";
    assert GenerateCacheKey([Str("a"), Str("b")]) == "a" + "&" + GenerateCacheKey([Str("b")]);
  }
}

=== FILE: common.dfy ===
/**
 * Shared vocabulary of the model: optional values, results, the HTTP errors the
 * services raise, and the ASCII string helpers JavaScript's `trim`,
 * `toUpperCase`, `toLowerCase`, `includes` and `join` stand for.
 */
module Common {

  datatype Option<+T> = None | Some(value: T)

  datatype Result<+T, +E> = Ok(value: T) | Err(error: E)

  /** The exceptions the services throw, with their message or i18n key. */
  datatype HttpError =
    | BadRequest(message: string)
    | Unauthorized(message: string)
    | Forbidden(message: string)
    | InternalServerError(message: string)
      /** A statement the database refuses (unique key, column length, unknown column). */
    | QueryFailed(message: string)
      /** A plain `Error` / `TypeError` thrown by the code itself. */
    | RuntimeError(message: string)

  const ALREADY_EXISTS := "general.alreadyExists"
  const FAILED := "general.failed"
  const NOT_FOUND := "general.notFound"
  const INVALID := "general.invalid"
  const VALIDATION_FAILED := "validation failed"

  // The MySQL error codes of the statements the tables refuse.
  /** A value longer than its column. */
  const ER_DATA_TOO_LONG := "ER_DATA_TOO_LONG"
  /** A second row with the value of a unique column. */
  const ER_DUP_ENTRY := "ER_DUP_ENTRY"
  /** An insert that gives no value for a NOT NULL column without a default. */
  const ER_NO_DEFAULT_FOR_FIELD := "ER_NO_DEFAULT_FOR_FIELD"
  /** An update that sets a NOT NULL column to null. */
  const ER_BAD_NULL_ERROR := "ER_BAD_NULL_ERROR"
  /** A condition that names a column the table does not have. */
  const ER_BAD_FIELD_ERROR := "ER_BAD_FIELD_ERROR"

  /** White space and line terminators as JavaScript's `trim` and `\s` know them. */
  predicate IsWhitespace(c: char)
  {
    c == ' ' || c == '\t' || c == '\n' || c == '\r' || c == '\U{000B}' || c == '\U{000C}'
    || c == '\U{00A0}' || c == '\U{1680}' || ('\U{2000}' <= c <= '\U{200A}')
    || c == '\U{2028}' || c == '\U{2029}' || c == '\U{202F}' || c == '\U{205F}'
    || c == '\U{3000}' || c == '\U{FEFF}'
  }

  predicate IsUpper(c: char) { 'A' <= c <= 'Z' }
  predicate IsLower(c: char) { 'a' <= c <= 'z' }
  predicate IsDigit(c: char) { '0' <= c <= '9' }

  function UpperChar(c: char): (r: char)
    ensures !IsLower(r)
    ensures IsLower(c) || r == c
    ensures IsWhitespace(r) <==> IsWhitespace(c)
  {
    if IsLower(c) then c - 'a' as char + 'A' as char else c
  }

  function LowerChar(c: char): (r: char)
    ensures !IsUpper(r)
    ensures IsUpper(c) || r == c
    ensures IsWhitespace(r) <==> IsWhitespace(c)
  {
    if IsUpper(c) then c - 'A' as char + 'a' as char else c
  }

  /** `toUpperCase` restricted to ASCII: every other character is kept. */
  function ToUpper(s: string): (r: string)
    ensures |r| == |s|
    ensures forall i :: 0 <= i < |s| ==> r[i] == UpperChar(s[i])
  {
    seq(|s|, i requires 0 <= i < |s| => UpperChar(s[i]))
  }

  /** `toLowerCase` restricted to ASCII: every other character is kept. */
  function ToLower(s: string): (r: string)
    ensures |r| == |s|
    ensures forall i :: 0 <= i < |s| ==> r[i] == LowerChar(s[i])
  {
    seq(|s|, i requires 0 <= i < |s| => LowerChar(s[i]))
  }

  function TrimStart(s: string): (r: string)
    ensures |r| <= |s| && r == s[|s| - |r|..]
    ensures r == [] || !IsWhitespace(r[0])
    ensures forall i :: 0 <= i < |s| - |r| ==> IsWhitespace(s[i])
  {
    if s == [] || !IsWhitespace(s[0]) then s else TrimStart(s[1..])
  }

  function TrimEnd(s: string): (r: string)
    ensures |r| <= |s| && r == s[..|r|]
    ensures r == [] || !IsWhitespace(r[|r| - 1])
    ensures forall i :: |r| <= i < |s| ==> IsWhitespace(s[i])
  {
    if s == [] || !IsWhitespace(s[|s| - 1]) then s else TrimEnd(s[..|s| - 1])
  }

  /** `String.prototype.trim`: `s` without its leading and trailing white space. */
  function Trim(s: string): (r: string)
    ensures |r| <= |s|
    ensures r == [] || (!IsWhitespace(r[0]) && !IsWhitespace(r[|r| - 1]))
  {
    TrimEnd(TrimStart(s))
  }

  /**
   * What `trim` removes: `Trim(s)` is the slice of `s` that starts at offset
   * `k`, where everything before `k` and everything after the slice is
   * white space.
   */
  lemma TrimRemovesOnlyEdges(s: string)
    ensures exists k :: SliceBetweenWhitespace(s, Trim(s), k)
  {
    var t := TrimStart(s);
    var k := |s| - |t|;
    var r := TrimEnd(t);
    assert r == s[k..k + |r|] by {
      assert t == s[k..] && r == t[..|r|];
    }
    assert forall i :: k + |r| <= i < |s| ==> IsWhitespace(s[i]) by {
      forall i | k + |r| <= i < |s| ensures IsWhitespace(s[i]) {
        assert s[i] == t[i - k];
      }
    }
    assert SliceBetweenWhitespace(s, r, k);
    assert Trim(s) == r;
  }

  /** `r` is `s[k..k + |r|]`, and `s` holds only white space before and after it. */
  predicate SliceBetweenWhitespace(s: string, r: string, k: int)
  {
    && 0 <= k && k + |r| <= |s| && r == s[k..k + |r|]
    && (forall i :: 0 <= i < k ==> IsWhitespace(s[i]))
    && (forall i :: k + |r| <= i < |s| ==> IsWhitespace(s[i]))
  }

  lemma TrimIdempotent(s: string)
    ensures Trim(Trim(s)) == Trim(s)
  {
    var t := Trim(s);
    if t != [] {
      assert TrimStart(t) == t;
      assert TrimEnd(t) == t;
    }
  }

  lemma TrimNoWhitespace(s: string)
    requires forall i :: 0 <= i < |s| ==> !IsWhitespace(s[i])
    ensures Trim(s) == s
  {
  }

  lemma ToUpperIdempotent(s: string)
    ensures ToUpper(ToUpper(s)) == ToUpper(s)
  {
  }

  lemma ToLowerIdempotent(s: string)
    ensures ToLower(ToLower(s)) == ToLower(s)
  {
  }

  /** Case mapping keeps white space where it is, so it commutes with `trim`. */
  lemma {:induction false} TrimToUpper(s: string)
    ensures Trim(ToUpper(s)) == ToUpper(Trim(s))
  {
    TrimStartUpper(s);
    TrimEndUpper(TrimStart(s));
  }

  lemma {:induction false} TrimToLower(s: string)
    ensures Trim(ToLower(s)) == ToLower(Trim(s))
  {
    TrimStartLower(s);
    TrimEndLower(TrimStart(s));
  }

  lemma {:induction false} TrimStartUpper(s: string)
    ensures TrimStart(ToUpper(s)) == ToUpper(TrimStart(s))
    decreases |s|
  {
    if s != [] {
      var u := ToUpper(s);
      assert u[0] == UpperChar(s[0]);
      if IsWhitespace(s[0]) {
        assert u[1..] == ToUpper(s[1..]);
        TrimStartUpper(s[1..]);
        calc {
          TrimStart(u);
          TrimStart(u[1..]);
          ToUpper(TrimStart(s[1..]));
          ToUpper(TrimStart(s));
        }
      }
    }
  }

  lemma {:induction false} TrimEndUpper(s: string)
    ensures TrimEnd(ToUpper(s)) == ToUpper(TrimEnd(s))
    decreases |s|
  {
    if s != [] {
      var u := ToUpper(s);
      var n := |s| - 1;
      assert u[n] == UpperChar(s[n]);
      if IsWhitespace(s[n]) {
        assert u[..n] == ToUpper(s[..n]);
        TrimEndUpper(s[..n]);
        calc {
          TrimEnd(u);
          TrimEnd(u[..n]);
          ToUpper(TrimEnd(s[..n]));
          ToUpper(TrimEnd(s));
        }
      }
    }
  }


  lemma {:induction false} TrimStartLower(s: string)
    ensures TrimStart(ToLower(s)) == ToLower(TrimStart(s))
    decreases |s|
  {
    if s != [] {
      var u := ToLower(s);
      assert u[0] == LowerChar(s[0]);
      if IsWhitespace(s[0]) {
        assert u[1..] == ToLower(s[1..]);
        TrimStartLower(s[1..]);
        calc {
          TrimStart(u);
          TrimStart(u[1..]);
          ToLower(TrimStart(s[1..]));
          ToLower(TrimStart(s));
        }
      }
    }
  }

  lemma {:induction false} TrimEndLower(s: string)
    ensures TrimEnd(ToLower(s)) == ToLower(TrimEnd(s))
    decreases |s|
  {
    if s != [] {
      var u := ToLower(s);
      var n := |s| - 1;
      assert u[n] == LowerChar(s[n]);
      if IsWhitespace(s[n]) {
        assert u[..n] == ToLower(s[..n]);
        TrimEndLower(s[..n]);
        calc {
          TrimEnd(u);
          TrimEnd(u[..n]);
          ToLower(TrimEnd(s[..n]));
          ToLower(TrimEnd(s));
        }
      }
    }
  }


  /** `haystack.includes(needle)` on strings: `needle` occurs at some offset. */
  predicate Contains(haystack: string, needle: string)
  {
    exists i | 0 <= i <= |haystack| :: OccursAt(haystack, needle, i)
  }

  predicate OccursAt(haystack: string, needle: string, i: int)
  {
    0 <= i <= |haystack| - |needle| && haystack[i..i + |needle|] == needle
  }

  lemma ContainsEmpty(haystack: string)
    ensures Contains(haystack, "")
  {
    assert OccursAt(haystack, "", 0);
  }

  /** `parts.join(sep)`. */
  function Join(parts: seq<string>, sep: string): (r: string)
    ensures parts == [] ==> r == ""
    ensures |parts| == 1 ==> r == parts[0]
  {
    if parts == [] then ""
    else if |parts| == 1 then parts[0]
    else parts[0] + sep + Join(parts[1..], sep)
  }

  /** Every element of `xs` is distinct. */
  predicate Distinct<T(==)>(xs: seq<T>)
  {
    forall i, j :: 0 <= i < j < |xs| ==> xs[i] != xs[j]
  }

  /** A sequence without repeats is no longer than the set it is drawn from. */
  lemma {:induction false} DistinctBoundedBySet<T>(xs: seq<T>, s: set<T>)
    requires Distinct(xs)
    requires forall x :: x in xs ==> x in s
    ensures |xs| <= |s|
    decreases |xs|
  {
    if xs != [] {
      var last := xs[|xs| - 1];
      var init := xs[..|xs| - 1];
      assert forall x :: x in init ==> x in s - {last} by {
        forall x | x in init ensures x in s - {last} {
          var k :| 0 <= k < |init| && init[k] == x;
          assert xs[k] == x && xs[|xs| - 1] == last;
        }
      }
      DistinctBoundedBySet(init, s - {last});
    }
  }

  /** The set of elements of a sequence is no larger than the sequence. */
  lemma {:induction false} SetOfSeqBound<T>(xs: seq<T>)
    ensures |set x | x in xs| <= |xs|
    decreases |xs|
  {
    if xs != [] {
      SetOfSeqBound(xs[1..]);
      assert (set x | x in xs) == (set x | x in xs[1..]) + {xs[0]};
    }
  }

  /** In a sequence without repeats every element occurs exactly once. */
  lemma {:induction false} DistinctMultiset<T>(xs: seq<T>)
    requires Distinct(xs)
    ensures forall x :: multiset(xs)[x] == if x in xs then 1 else 0
    decreases |xs|
  {
    if xs != [] {
      assert Distinct(xs[1..]) by {
        forall i, j | 0 <= i < j < |xs[1..]| ensures xs[1..][i] != xs[1..][j] {
          assert xs[1..][i] == xs[i + 1] && xs[1..][j] == xs[j + 1];
        }
      }
      DistinctMultiset(xs[1..]);
      assert xs == [xs[0]] + xs[1..];
      assert multiset(xs) == multiset([xs[0]]) + multiset(xs[1..]);
      assert xs[0] !in xs[1..];
    }
  }

  /**
   * Against a sequence `xs` without repeats, "`ys` contains every element of
   * `xs` and has the same length" says exactly that `ys` is a permutation
   * of `xs`.
   */
  lemma {:induction false} CoverIffPermutation<T>(xs: seq<T>, ys: seq<T>)
    requires Distinct(xs)
    ensures ((forall x :: x in xs ==> x in ys) && |ys| == |xs|) <==> multiset(ys) == multiset(xs)
  {
    if multiset(ys) == multiset(xs) {
      assert |ys| == |multiset(ys)| == |multiset(xs)| == |xs|;
      forall x | x in xs ensures x in ys {
        assert x in multiset(xs);
      }
    }
    if (forall x :: x in xs ==> x in ys) && |ys| == |xs| {
      assert Distinct(ys) by {
        forall i, j | 0 <= i < j < |ys| ensures ys[i] != ys[j] {
          if ys[i] == ys[j] {
            var zs := ys[..j] + ys[j + 1..];
            forall x | x in xs ensures x in set z | z in zs {
              var k :| 0 <= k < |ys| && ys[k] == x;
              if k == j {
                assert zs[i] == x;
              } else if k < j {
                assert zs[k] == x;
              } else {
                assert zs[k - 1] == x;
              }
            }
            DistinctBoundedBySet(xs, set z | z in zs);
            SetOfSeqBound(zs);
            assert false;
          }
        }
      }
      forall y | y in ys ensures y in xs {
        if y !in xs {
          var s := (set z | z in ys) - {y};
          DistinctBoundedBySet(xs, s);
          SetOfSeqBound(ys);
          assert false;
        }
      }
      DistinctMultiset(xs);
      DistinctMultiset(ys);
      assert forall x :: multiset(ys)[x] == multiset(xs)[x];
    }
  }

  /** A permutation of a sequence without repeats has no repeats either. */
  lemma {:induction false} PermutationOfDistinct<T>(xs: seq<T>, ys: seq<T>)
    requires Distinct(xs) && multiset(ys) == multiset(xs)
    ensures Distinct(ys)
  {
    DistinctMultiset(xs);
    forall i, j | 0 <= i < j < |ys| ensures ys[i] != ys[j] {
      if ys[i] == ys[j] {
        RepeatCountsTwice(ys, i, j);
      }
    }
  }

  /** An element at two positions occurs at least twice. */
  lemma RepeatCountsTwice<T>(ys: seq<T>, i: int, j: int)
    requires 0 <= i < j < |ys| && ys[i] == ys[j]
    ensures multiset(ys)[ys[i]] >= 2
  {
    assert ys == ys[..j] + [ys[j]] + ys[j + 1..];
    assert ys[i] in ys[..j];
  }
}

=== FILE: comparison.dfy ===
/**
 * The `@Comparison(valueOrProperty, operator)` property validator: compares
 * the validated value with a reference that is either given directly (a
 * number, a date, a list) or read from a sibling property named by a string.
 */
module Comparison {
  import opened Common
  import opened Js

  datatype Op = Eq | Gt | Gte | In | Lt | Lte | Ne | Nin

  const UNSUPPORTED_OPERATOR := "Unsupported operator."
  const UNSUPPORTED_TYPES := "Comparison between these types is not supported."

  /**
   * The reference value: a `Date` constraint is used as it is, a string
   * constraint names a property of the validated object, anything else is
   * used as it is.
   */
  function Related(constraint: Value, obj: Value): (r: Value)
    ensures constraint.Str? ==> r == Get(obj, constraint.s)
    ensures !constraint.Str? ==> r == constraint
  {
    if constraint.Date? then constraint
    else if constraint.Str? then Get(obj, constraint.s)
    else constraint
  }

  /** `typeof v === 'number'` (NaN included). */
  predicate IsNumber(v: Value)
  {
    v.Num? || v.NaN?
  }

  /** The six relational operators on JavaScript numbers: every comparison with NaN is false except `!==`. */
  function CompareNumbers(a: Value, b: Value, op: Op): (r: Result<bool, HttpError>)
    requires IsNumber(a) && IsNumber(b)
    ensures r.Err? <==> op == In || op == Nin
    ensures (a.NaN? || b.NaN?) && r.Ok? ==> (r.value <==> op == Ne)
  {
    if op == In || op == Nin then Err(RuntimeError(UNSUPPORTED_OPERATOR))
    else if a.NaN? || b.NaN? then Ok(op == Ne)
    else
      match op
      case Eq => Ok(a.n == b.n)
      case Gt => Ok(a.n > b.n)
      case Gte => Ok(a.n >= b.n)
      case Lt => Ok(a.n < b.n)
      case Lte => Ok(a.n <= b.n)
      case Ne => Ok(a.n != b.n)
  }

  /**
   * `validate(value, args)`. An `Err` is the `Error` the validator throws
   * for an operator its types do not support.
   */
  function Validate(value: Value, obj: Value, constraint: Value, op: Op): (r: Result<bool, HttpError>)
  {
    var rel := Related(constraint, obj);
    if IsNullish(rel) then Ok(true)
    else if rel.Arr? then
      (if op == In then Ok(Includes(rel.items, value))
       else if op == Nin then Ok(!Includes(rel.items, value))
       else Err(RuntimeError(UNSUPPORTED_OPERATOR)))
    else if value.Date? && rel.Date? then
      (if op == In || op == Nin then Err(RuntimeError(UNSUPPORTED_OPERATOR))
       else CompareNumbers(Num(value.time), Num(rel.time), op))
    else if value.Str? && rel.Str? then
      (if op == Eq then Ok(value.s == rel.s)
       else if op == Ne then Ok(value.s != rel.s)
       else Err(RuntimeError(UNSUPPORTED_OPERATOR)))
    else if IsNumber(value) && IsNumber(rel) then CompareNumbers(value, rel, op)
    else Err(RuntimeError(UNSUPPORTED_TYPES))
  }

  /** The operators each pairing of value and reference supports. */
  predicate Supported(value: Value, rel: Value, op: Op)
  {
    if rel.Arr? then op in {In, Nin}
    else if value.Date? && rel.Date? then op !in {In, Nin}
    else if value.Str? && rel.Str? then op in {Eq, Ne}
    else if IsNumber(value) && IsNumber(rel) then op !in {In, Nin}
    else false
  }

  /** The validator passes on an absent reference, and otherwise throws exactly on unsupported pairings. */
  lemma ValidateThrowsIffUnsupported(value: Value, obj: Value, constraint: Value, op: Op)
    ensures var rel := Related(constraint, obj);
      && (IsNullish(rel) ==> Validate(value, obj, constraint, op) == Ok(true))
      && (!IsNullish(rel) ==> (Validate(value, obj, constraint, op).Err? <==> !Supported(value, rel, op)))
  {
  }

  /** `nin` is the negation of `in`. */
  lemma NinNegatesIn(value: Value, obj: Value, items: seq<Value>)
    ensures Validate(value, obj, Arr(items), In).Ok? && Validate(value, obj, Arr(items), Nin).Ok?
    ensures Validate(value, obj, Arr(items), Nin).value == !Validate(value, obj, Arr(items), In).value
    ensures Validate(value, obj, Arr(items), In).value == Includes(items, value)
  {
  }

  /** With two numbers (or two dates), `ne` negates `eq`; away from NaN `lt` negates `gte` and `gt` negates `lte`. */
  lemma NumberOperatorDuals(value: Value, obj: Value, constraint: Value)
    requires var rel := Related(constraint, obj);
      (IsNumber(value) && IsNumber(rel)) || (value.Date? && rel.Date?)
    ensures Validate(value, obj, constraint, Ne).value == !Validate(value, obj, constraint, Eq).value
    ensures !value.NaN? && !Related(constraint, obj).NaN? ==>
      && Validate(value, obj, constraint, Lt).value == !Validate(value, obj, constraint, Gte).value
      && Validate(value, obj, constraint, Gt).value == !Validate(value, obj, constraint, Lte).value
  {
  }

  /** Two strings (the reference read from a sibling property) support only equality and inequality. */
  lemma StringsOnlyEquality(a: string, fields: seq<Field>, name: string, b: string, op: Op)
    requires Lookup(fields, name) == Str(b)
    requires !(op == Eq || op == Ne)
    ensures Validate(Str(a), Obj(fields), Str(name), op).Err?
    ensures Validate(Str(a), Obj(fields), Str(name), Eq) == Ok(a == b)
    ensures Validate(Str(a), Obj(fields), Str(name), Ne) == Ok(a != b)
  {
  }

  /** Dates compare by timestamp. */
  lemma DatesByTimestamp(t: int, obj: Value, u: int)
    ensures Validate(Date(t), obj, Date(u), Lt) == Ok(t < u)
    ensures Validate(Date(t), obj, Date(u), Eq) == Ok(t == u)
    ensures Validate(Date(t), obj, Date(u), In).Err?
  {
  }
}

=== FILE: create_role_dto.dfy ===
/**
 * `CreateRoleDto`: a required code of A-Z letters, an optional description of
 * at most 400 characters and an optional list of catalogue permissions.
 */
module CreateRoleDto {
  import opened Common
  import opened Js
  import opened DtoRules
  import RegexUtils
  import RoleConfig
  import RoleEntity

  const DESCRIPTION_MAX_LENGTH := 400

  datatype Dto = Dto(code: string, description: Option<string>, permissions: Option<seq<string>>)

  /** `@IsNotEmpty() @IsString() @Matches(/^[A-Z]*$/)`. */
  predicate CodeOk(v: Value)
  {
    IsNotEmpty(v) && v.Str? && RegexUtils.IsAllUppercase(v.s)
  }

  /** `@IsOptional() @IsString() @MaxLength(400)`. */
  predicate DescriptionOk(v: Value)
  {
    IsNullish(v) || StringOfLength(v, 0, DESCRIPTION_MAX_LENGTH)
  }

  /** `@IsOptional() @IsArray() @IsEnum(ACCESS, { each: true })`. */
  predicate PermissionsOk(v: Value)
  {
    IsNullish(v) || (v.Arr? && forall i :: 0 <= i < |v.items| ==> v.items[i].Str? && RoleConfig.IsAccessValue(v.items[i].s))
  }

  function Validate(body: Value): (r: Result<Dto, HttpError>)
    ensures r.Ok? <==> CodeOk(Get(body, "code")) && DescriptionOk(Get(body, "description")) && PermissionsOk(Get(body, "permissions"))
    ensures r.Err? ==> r.error == BadRequest(VALIDATION_FAILED)
    ensures r.Ok? ==> Get(body, "code") == Str(r.value.code) && r.value.code != ""
    ensures r.Ok? ==> RoleEntity.CodeTo(r.value.code) == r.value.code
    ensures r.Ok? && r.value.description.Some? ==>
      Get(body, "description") == Str(r.value.description.value) && |r.value.description.value| <= DESCRIPTION_MAX_LENGTH
    ensures r.Ok? && r.value.description.None? ==> IsNullish(Get(body, "description"))
    ensures r.Ok? && r.value.permissions.Some? ==>
      forall p :: p in r.value.permissions.value ==> RoleConfig.IsAccessValue(p)
    ensures r.Ok? && r.value.permissions.None? ==> IsNullish(Get(body, "permissions"))
  {
    var code := Get(body, "code");
    var description := Get(body, "description");
    var permissions := Get(body, "permissions");
    if CodeOk(code) && DescriptionOk(description) && PermissionsOk(permissions) then
      RoleEntity.CodeToKeepsUppercase(code.s);
      Ok(Dto(
        code.s,
        if description.Str? then Some(description.s) else None,
        if permissions.Arr? then Some(Strings(permissions.items)) else None))
    else Err(BadRequest(VALIDATION_FAILED))
  }

  function Strings(items: seq<Value>): (r: seq<string>)
    requires forall i :: 0 <= i < |items| ==> items[i].Str?
    ensures |r| == |items| && forall i :: 0 <= i < |r| ==> items[i] == Str(r[i])
  {
    seq(|items|, i requires 0 <= i < |items| => items[i].s)
  }

  /** A lower-case code such as "editor" is refused, not normalised. */
  lemma LowerCaseCodeRefused(body: Value)
    requires Get(body, "code") == Str("editor")
    ensures Validate(body).Err?
  {
    assert !RegexUtils.IsAllUppercase("editor") by {
      assert !IsUpper("editor"[0]);
    }
  }
}

=== FILE: create_user_dto.dfy ===
/**
 * `CreateUserDto`: username, e-mail and password are required, `roleIds` is a
 * non-empty list of integers, `isActive` an optional boolean. `isEmail`
 * stands for class-validator's e-mail syntax check.
 */
module CreateUserDto {
  import opened Common
  import opened Js
  import opened DtoRules
  import RegexUtils
  import UserEntity

  const IDENT_MAX_LENGTH := UserEntity.IDENT_MAX_LENGTH

  datatype Dto = Dto(username: string, email: string, password: string, roleIds: seq<int>, isActive: Option<bool>)

  /** `@IsNotEmpty() @MaxLength(191) @IsString()`. */
  predicate UsernameOk(v: Value)
  {
    IsNotEmpty(v) && StringOfLength(v, 0, IDENT_MAX_LENGTH)
  }

  /** `@IsNotEmpty() @IsEmail() @MaxLength(191)`. */
  predicate EmailOk(v: Value, isEmail: string -> bool)
  {
    IsNotEmpty(v) && StringOfLength(v, 0, IDENT_MAX_LENGTH) && isEmail(v.s)
  }

  /** `@IsArray() @IsInt({ each: true }) @ArrayNotEmpty()`. */
  predicate RoleIdsOk(v: Value)
  {
    v.Arr? && AllInts(v.items) && v.items != []
  }

  /** `@IsOptional() @IsBoolean()`. */
  predicate IsActiveOk(v: Value)
  {
    IsNullish(v) || v.Bool?
  }

  function Validate(body: Value, isEmail: string -> bool): (r: Result<Dto, HttpError>)
    ensures r.Ok? <==>
      && UsernameOk(Get(body, "username")) && EmailOk(Get(body, "email"), isEmail)
      && IsPassword(Get(body, "password")) && RoleIdsOk(Get(body, "roleIds")) && IsActiveOk(Get(body, "isActive"))
    ensures r.Err? ==> r.error == BadRequest(VALIDATION_FAILED)
    ensures r.Ok? ==> Get(body, "username") == Str(r.value.username) && r.value.username != "" && |r.value.username| <= IDENT_MAX_LENGTH
    ensures r.Ok? ==> Get(body, "email") == Str(r.value.email) && isEmail(r.value.email) && |r.value.email| <= IDENT_MAX_LENGTH
    ensures r.Ok? ==> Get(body, "password") == Str(r.value.password)
    ensures r.Ok? ==> PASSWORD_MIN_LENGTH <= |r.value.password| <= PASSWORD_MAX_LENGTH
    ensures r.Ok? ==> RegexUtils.ContainsNoWhitespace(r.value.password)
    ensures r.Ok? ==> r.value.roleIds != [] && Get(body, "roleIds") == Arr(Nums(r.value.roleIds))
    ensures r.Ok? ==> (r.value.isActive.None? <==> IsNullish(Get(body, "isActive")))
    ensures r.Ok? && r.value.isActive.Some? ==> Get(body, "isActive") == Bool(r.value.isActive.value)
  {
    var username := Get(body, "username");
    var email := Get(body, "email");
    var password := Get(body, "password");
    var roleIds := Get(body, "roleIds");
    var isActive := Get(body, "isActive");
    if UsernameOk(username) && EmailOk(email, isEmail) && IsPassword(password) && RoleIdsOk(roleIds) && IsActiveOk(isActive) then
      var ids := IntsOf(roleIds.items);
      Ok(Dto(username.s, email.s, password.s, ids, if isActive.Bool? then Some(isActive.b) else None))
    else Err(BadRequest(VALIDATION_FAILED))
  }
}

=== FILE: date_utils.dfy ===
/**
 * Day-range helpers over schedules. A date is a whole day number: the
 * time-of-day and time-zone handling of the date library are not modelled,
 * and "the next day" is the next number.
 */
module DateUtils {
  import opened Common

  /** `ISchedule`: a range of days, both ends included. */
  datatype Schedule = Schedule(start: int, end: int)

  /** `IDayWithIndex`: a generated day and its position in generation order, from 1. */
  datatype DayWithIndex = DayWithIndex(dayNumber: int, date: int)

  /** The elements are in ascending order of `key`. */
  ghost predicate SortedBy<T>(s: seq<T>, key: T -> int)
  {
    forall i, j :: 0 <= i < j < |s| ==> key(s[i]) <= key(s[j])
  }

  /**
   * `array.sort` with a comparator that puts the smaller key first: the array
   * ends up ordered by key and holds the same elements. The comparator
   * answers "after" for equal keys, so their order is left unspecified.
   */
  method SortBy<T>(a: array<T>, key: T -> int)
    modifies a
    ensures SortedBy(a[..], key)
    ensures multiset(a[..]) == multiset(old(a[..]))
  {
    var i := 0;
    while i < a.Length
      invariant 0 <= i <= a.Length
      invariant SortedBy(a[..i], key)
      invariant multiset(a[..]) == multiset(old(a[..]))
    {
      InsertInto(a, i, key);
      i := i + 1;
    }
  }

  /** Moves `a[i]` down into the sorted prefix `a[..i]`, so that `a[..i + 1]` is sorted. */
  method InsertInto<T>(a: array<T>, i: int, key: T -> int)
    requires 0 <= i < a.Length
    requires SortedBy(a[..i], key)
    modifies a
    ensures SortedBy(a[..i + 1], key)
    ensures multiset(a[..]) == multiset(old(a[..]))
  {
    var j := i;
    while j > 0 && key(a[j - 1]) > key(a[j])
      invariant 0 <= j <= i
      invariant forall k, l :: 0 <= k < l <= i && l != j ==> key(a[k]) <= key(a[l])
      invariant forall l :: j < l <= i ==> key(a[j]) < key(a[l])
      invariant multiset(a[..]) == multiset(old(a[..]))
    {
      Swap(a, j - 1, j);
      j := j - 1;
    }
  }

  /** Exchanges two elements; the array keeps the same elements. */
  method Swap<T>(a: array<T>, i: int, j: int)
    requires 0 <= i < a.Length && 0 <= j < a.Length
    modifies a
    ensures a[..] == old(a[..])[i := old(a[j])][j := old(a[i])]
    ensures multiset(a[..]) == multiset(old(a[..]))
  {
    a[i], a[j] := a[j], a[i];
  }

  function StartOf(s: Schedule): int { s.start }

  function DateOf(d: DayWithIndex): int { d.date }

  /** The smallest start of a list of schedules, `None` for no schedule. */
  function MinStart(ss: seq<Schedule>): (r: Option<int>)
    ensures r.None? <==> ss == []
    ensures r.Some? ==> (exists k :: 0 <= k < |ss| && ss[k].start == r.value)
    ensures r.Some? ==> forall k :: 0 <= k < |ss| ==> r.value <= ss[k].start
    decreases |ss|
  {
    if ss == [] then None
    else
      var rest := MinStart(ss[1..]);
      if rest.None? || ss[0].start <= rest.value then Some(ss[0].start)
      else
        assert forall k :: 1 <= k < |ss| ==> ss[k] == ss[1..][k - 1];
        rest
  }

  /** The first element of a list sorted by start has the smallest start. */
  lemma {:induction false} SortedHeadIsMin(ss: seq<Schedule>, before: seq<Schedule>)
    requires ss != [] && SortedBy(ss, StartOf) && multiset(ss) == multiset(before)
    ensures MinStart(before) == Some(ss[0].start)
  {
    var m := MinStart(before);
    assert before != [] by { assert |multiset(before)| == |multiset(ss)|; }
    var k :| 0 <= k < |before| && before[k].start == m.value;
    assert before[k] in multiset(ss);
    assert ss[0] in multiset(before);
    assert StartOf(ss[0]) <= ss[0].start;
    forall l | 0 <= l < |ss| ensures ss[0].start <= ss[l].start { assert StartOf(ss[0]) <= StartOf(ss[l]) || l == 0; }
  }

  /**
   * `getEarliestStartDate`: `None` for an empty list; otherwise the list is
   * sorted by start in place and the first start, the smallest one, is
   * returned.
   */
  method GetEarliestStartDate(dates: array<Schedule>) returns (r: Option<int>)
    modifies dates
    ensures r == MinStart(old(dates[..]))
    ensures dates.Length == 0 ==> dates[..] == old(dates[..])
    ensures dates.Length > 0 ==> SortedBy(dates[..], StartOf) && multiset(dates[..]) == multiset(old(dates[..]))
  {
    if dates.Length == 0 {
      return None;
    }
    SortBy(dates, StartOf);
    SortedHeadIsMin(dates[..], old(dates[..]));
    r := Some(dates[0].start);
  }

  /** The days of a schedule, from start to end; none when it starts after it ends. */
  function Days(s: Schedule): (r: seq<int>)
    ensures |r| == if s.start <= s.end then s.end - s.start + 1 else 0
    ensures forall k :: 0 <= k < |r| ==> r[k] == s.start + k
  {
    if s.start <= s.end then seq(s.end - s.start + 1, k => s.start + k) else []
  }

  /** The days of every schedule, schedule after schedule, in generation order. */
  function AllDays(ss: seq<Schedule>): (r: seq<int>)
    decreases |ss|
  {
    if ss == [] then [] else AllDays(ss[..|ss| - 1]) + Days(ss[|ss| - 1])
  }

  /** The number of days a list of schedules generates. */
  function TotalDays(ss: seq<Schedule>): (n: nat)
    decreases |ss|
  {
    if ss == [] then 0
    else TotalDays(ss[..|ss| - 1]) + (if ss[|ss| - 1].start <= ss[|ss| - 1].end then ss[|ss| - 1].end - ss[|ss| - 1].start + 1 else 0)
  }

  lemma {:induction false} AllDaysLength(ss: seq<Schedule>)
    ensures |AllDays(ss)| == TotalDays(ss)
    decreases |ss|
  {
    if ss != [] {
      AllDaysLength(ss[..|ss| - 1]);
    }
  }

  /** The number of schedules whose range covers day `d`. */
  function Coverage(ss: seq<Schedule>, d: int): (n: nat)
    ensures n <= |ss|
    decreases |ss|
  {
    if ss == [] then 0
    else Coverage(ss[..|ss| - 1], d) + (if ss[|ss| - 1].start <= d <= ss[|ss| - 1].end then 1 else 0)
  }

  /** A day is generated once for every schedule that covers it. */
  lemma {:induction false} AllDaysCount(ss: seq<Schedule>, d: int)
    ensures multiset(AllDays(ss))[d] == Coverage(ss, d)
    decreases |ss|
  {
    if ss != [] {
      var n := |ss| - 1;
      AllDaysCount(ss[..n], d);
      var s := ss[n];
      if s.start <= d <= s.end {
        DaysOnce(s, d);
      } else {
        assert d !in Days(s);
      }
      assert multiset(AllDays(ss)) == multiset(AllDays(ss[..n])) + multiset(Days(s));
    }
  }

  lemma DaysOnce(s: Schedule, d: int)
    requires s.start <= d <= s.end
    ensures multiset(Days(s))[d] == 1
  {
    var ds := Days(s);
    var k := d - s.start;
    assert ds == ds[..k] + [d] + ds[k + 1..];
    assert d !in ds[..k];
    assert d !in ds[k + 1..];
  }

  /** The generated days numbered from 1 in generation order. */
  function Numbered(dates: seq<int>): (r: seq<DayWithIndex>)
    ensures |r| == |dates|
    ensures forall k :: 0 <= k < |r| ==> r[k] == DayWithIndex(k + 1, dates[k])
  {
    seq(|dates|, k requires 0 <= k < |dates| => DayWithIndex(k + 1, dates[k]))
  }

  /**
   * `generateDaysWithIndex`: one entry per day of every schedule, numbered
   * 1, 2, … in generation order, then sorted by date. An empty list gives
   * an empty result.
   */
  method GenerateDaysWithIndex(schedules: seq<Schedule>) returns (r: seq<DayWithIndex>)
    ensures schedules == [] ==> r == []
    ensures SortedBy(r, DateOf)
    ensures multiset(r) == multiset(Numbered(AllDays(schedules)))
  {
    var allDays: seq<DayWithIndex> := [];
    var dayCounter := 1;
    if |schedules| <= 0 {
      return [];
    }
    var i := 0;
    while i < |schedules|
      invariant 0 <= i <= |schedules|
      invariant allDays == Numbered(AllDays(schedules[..i]))
      invariant dayCounter == |allDays| + 1
    {
      var schedule := schedules[i];
      var currentDate := schedule.start;
      ghost var before := AllDays(schedules[..i]);
      while currentDate <= schedule.end
        invariant schedule.start <= currentDate || schedule.start > schedule.end
        invariant schedule.start <= schedule.end ==> currentDate <= schedule.end + 1
        invariant schedule.start > schedule.end ==> currentDate == schedule.start
        invariant allDays == Numbered(before + Days(schedule)[..currentDate - schedule.start])
        invariant dayCounter == |allDays| + 1
        decreases schedule.end - currentDate
      {
        ghost var prefix := before + Days(schedule)[..currentDate - schedule.start];
        allDays := allDays + [DayWithIndex(dayCounter, currentDate)];
        assert before + Days(schedule)[..currentDate + 1 - schedule.start] == prefix + [currentDate];
        currentDate := currentDate + 1;
        dayCounter := dayCounter + 1;
      }
      assert Days(schedule)[..currentDate - schedule.start] == Days(schedule);
      assert schedules[..i + 1][..i] == schedules[..i];
      i := i + 1;
    }
    assert schedules[..i] == schedules;
    var a := new DayWithIndex[|allDays|](k requires 0 <= k < |allDays| => allDays[k]);
    assert a[..] == allDays;
    SortBy(a, DateOf);
    r := a[..];
  }

  /** The dates of a list of generated days. */
  function Dates(r: seq<DayWithIndex>): (ds: seq<int>)
    ensures ds == Project(r, DateOf)
  {
    Project(r, DateOf)
  }

  function NumberOf(d: DayWithIndex): int { d.dayNumber }

  /** The day numbers of a list of generated days. */
  function DayNumbers(r: seq<DayWithIndex>): (ns: seq<int>)
    ensures ns == Project(r, NumberOf)
  {
    Project(r, NumberOf)
  }

  /** `f` applied to every element. */
  function Project<T>(r: seq<T>, f: T -> int): (ps: seq<int>)
    ensures |ps| == |r| && forall k :: 0 <= k < |r| ==> ps[k] == f(r[k])
  {
    seq(|r|, k requires 0 <= k < |r| => f(r[k]))
  }

  /** Reordering the elements reorders what a projection gives alike. */
  lemma {:induction false} ProjectionPermutes<T>(r: seq<T>, q: seq<T>, f: T -> int)
    requires multiset(r) == multiset(q)
    ensures multiset(Project(r, f)) == multiset(Project(q, f))
    decreases |r|
  {
    if r == [] {
      assert |q| == |multiset(q)| == 0;
    } else {
      var x := r[0];
      assert x in multiset(q);
      var j :| 0 <= j < |q| && q[j] == x;
      var q' := q[..j] + q[j + 1..];
      RemoveAt(q, j);
      assert r == [x] + r[1..];
      assert multiset(r[1..]) == multiset(r) - multiset([x]);
      ProjectionPermutes(r[1..], q', f);
      ProjectConcat([x], r[1..], f);
      ProjectConcat(q[..j], q[j + 1..], f);
      ProjectConcat(q[..j] + [x], q[j + 1..], f);
      ProjectConcat(q[..j], [x], f);
    }
  }

  lemma RemoveAt<T>(q: seq<T>, j: int)
    requires 0 <= j < |q|
    ensures q == q[..j] + [q[j]] + q[j + 1..]
    ensures multiset(q[..j] + q[j + 1..]) == multiset(q) - multiset([q[j]])
  {
    assert q == q[..j] + [q[j]] + q[j + 1..];
  }

  lemma ProjectConcat<T>(a: seq<T>, b: seq<T>, f: T -> int)
    ensures Project(a + b, f) == Project(a, f) + Project(b, f)
  {
  }

  /**
   * What `generateDaysWithIndex` returns, whatever order the sort leaves equal
   * dates in: as many entries as the schedules have days, day numbers that
   * are exactly 1 … N, and every day once per schedule that covers it.
   */
  lemma {:induction false} GeneratedDays(schedules: seq<Schedule>, r: seq<DayWithIndex>, d: int)
    requires multiset(r) == multiset(Numbered(AllDays(schedules)))
    ensures |r| == TotalDays(schedules)
    ensures multiset(DayNumbers(r)) == multiset(seq(|r|, k => k + 1))
    ensures multiset(Dates(r))[d] == Coverage(schedules, d)
  {
    var all := AllDays(schedules);
    var numbered := Numbered(all);
    AllDaysLength(schedules);
    assert |r| == |multiset(r)| == |multiset(numbered)| == |numbered|;
    ProjectionPermutes(r, numbered, DateOf);
    ProjectionPermutes(r, numbered, NumberOf);
    assert DayNumbers(numbered) == seq(|r|, k => k + 1);
    assert Dates(numbered) == all;
    AllDaysCount(schedules, d);
  }

  /** Whether a leave day falls within the schedule, both ends included. */
  predicate InRange(s: Schedule, day: int)
  {
    s.start <= day <= s.end
  }

  /**
   * `countLeaveDaysInRange`: how many of the leave days fall within the
   * schedule; a day listed twice is counted twice.
   */
  function CountLeaveDaysInRange(s: Schedule, leaveDays: seq<int>): (n: nat)
    ensures n <= |leaveDays|
    ensures n == |leaveDays| <==> forall k :: 0 <= k < |leaveDays| ==> InRange(s, leaveDays[k])
    ensures n == 0 <==> forall k :: 0 <= k < |leaveDays| ==> !InRange(s, leaveDays[k])
    decreases |leaveDays|
  {
    if leaveDays == [] then 0
    else
      var rest := CountLeaveDaysInRange(s, leaveDays[1..]);
      assert forall k :: 1 <= k < |leaveDays| ==> leaveDays[k] == leaveDays[1..][k - 1];
      (if InRange(s, leaveDays[0]) then 1 else 0) + rest
  }

  /** A leave day is in range exactly when it is one of the schedule's days. */
  lemma InRangeIffScheduled(s: Schedule, day: int)
    ensures InRange(s, day) <==> day in Days(s)
  {
    if InRange(s, day) {
      assert Days(s)[day - s.start] == day;
    }
  }

  /** Counting over two lists of leave days adds up; a day listed twice is counted twice. */
  lemma {:induction false} CountAdditive(s: Schedule, a: seq<int>, b: seq<int>)
    ensures CountLeaveDaysInRange(s, a + b) == CountLeaveDaysInRange(s, a) + CountLeaveDaysInRange(s, b)
    decreases |a|
  {
    if a == [] {
      assert a + b == b;
    } else {
      assert (a + b)[1..] == a[1..] + b;
      CountAdditive(s, a[1..], b);
    }
  }

  /** Widening the schedule never lowers the count. */
  lemma {:induction false} CountMonotone(s: Schedule, wider: Schedule, leaveDays: seq<int>)
    requires wider.start <= s.start && s.end <= wider.end
    ensures CountLeaveDaysInRange(s, leaveDays) <= CountLeaveDaysInRange(wider, leaveDays)
    decreases |leaveDays|
  {
    if leaveDays != [] {
      CountMonotone(s, wider, leaveDays[1..]);
    }
  }
}

=== FILE: dto_rules.dfy ===
/**
 * The class-validator constraints the request DTOs are built from, read as
 * predicates over one converted field value, and the cross-field
 * `@Comparison(other, 'eq')` check the password confirmations use.
 */
module DtoRules {
  import opened Common
  import opened Js
  import RegexUtils
  import Comparison

  /** `@IsNotEmpty()`: not `''`, not `null`, not `undefined`. */
  predicate IsNotEmpty(v: Value)
  {
    v != Str("") && !IsNullish(v)
  }

  /** `@IsString()` together with `@MinLength(lo)` and `@MaxLength(hi)` (each of which also demands a string). */
  predicate StringOfLength(v: Value, lo: int, hi: int)
  {
    v.Str? && lo <= |v.s| <= hi
  }

  /** The password rule every DTO taking a password repeats: not empty, a string of 3 to 32 characters, `^\S*$`. */
  predicate IsPassword(v: Value)
  {
    IsNotEmpty(v) && StringOfLength(v, 3, 32) && RegexUtils.ContainsNoWhitespace(v.s)
  }

  const PASSWORD_MIN_LENGTH := 3
  const PASSWORD_MAX_LENGTH := 32

  /** `@IsInt({ each: true })` on a list: every element is an integer. */
  predicate AllInts(items: seq<Value>)
  {
    forall i :: 0 <= i < |items| ==> items[i].Num?
  }

  function IntsOf(items: seq<Value>): (r: seq<int>)
    requires AllInts(items)
    ensures |r| == |items| && forall i :: 0 <= i < |r| ==> items[i] == Num(r[i])
    ensures Nums(r) == items
  {
    seq(|items|, i requires 0 <= i < |items| => items[i].n)
  }

  /** The list of numbers holding the given integers. */
  function Nums(ids: seq<int>): (r: seq<Value>)
    ensures |r| == |ids| && forall i :: 0 <= i < |ids| ==> r[i] == Num(ids[i])
  {
    seq(|ids|, i requires 0 <= i < |ids| => Num(ids[i]))
  }

  /**
   * `@Comparison(other, 'eq')` on `field` of `obj`, as written: the validator's
   * own result, where an `Err` is the `Error` it throws for a pair of types it
   * does not compare. class-validator does not catch that error, so it
   * escapes the whole validation instead of failing one field.
   */
  function ConfirmAsWritten(obj: Value, field: string, other: string): (r: Result<bool, HttpError>)
    ensures IsNullish(Get(obj, other)) ==> r == Ok(true)
    ensures Get(obj, field).Str? && Get(obj, other).Str? ==> r == Ok(Get(obj, field).s == Get(obj, other).s)
  {
    Comparison.Validate(Get(obj, field), obj, Str(other), Comparison.Eq)
  }

  /** A request without the confirmation (or with a non-string one) makes the check throw. */
  lemma {:induction false} MissingConfirmThrows(obj: Value, field: string, other: string)
    requires Get(obj, other).Str?
    requires !Get(obj, field).Str?
    ensures ConfirmAsWritten(obj, field, other).Err?
  {
    var v := Get(obj, field);
    assert !(v.Date? && Get(obj, other).Date?);
    assert !Comparison.IsNumber(Get(obj, other));
  }

  /** The check as it is evidently meant: an unsupported pair of types fails the field like any other constraint. */
  predicate Confirm(obj: Value, field: string, other: string)
  {
    ConfirmAsWritten(obj, field, other) == Ok(true)
  }

  /** With the correction, a confirmation passes iff it is absent-safe equal: both strings and the same text, or no reference. */
  lemma {:induction false} ConfirmIff(obj: Value, field: string, other: string)
    requires Get(obj, other).Str?
    ensures Confirm(obj, field, other) <==> Get(obj, field) == Get(obj, other)
  {
    var v := Get(obj, field);
    var w := Get(obj, other);
    if !v.Str? {
      MissingConfirmThrows(obj, field, other);
      assert v != w;
    }
  }
}

=== FILE: js.dfy ===
/**
 * The dynamic values a request body, a query string or a cache-key part can
 * hold, and the few JavaScript conversions the core applies to them:
 * truthiness, `===`, `Array.prototype.includes`, `String(v)`, `Number(v)`
 * and `JSON.stringify(v)`. Numbers are integers; any text that is not an
 * integer numeral reads as `NaN`.
 */
module Js {
  import opened Common

  datatype Value =
    | Undefined
    | Null
    | Bool(b: bool)
    | Num(n: int)
    | NaN
    | Str(s: string)
      /** A `Date`, by its timestamp. */
    | Date(time: int)
    | Arr(items: seq<Value>)
    | Obj(fields: seq<Field>)

  datatype Field = Field(key: string, val: Value)

  /** JavaScript's `!!v`. */
  predicate Truthy(v: Value)
  {
    match v
    case Undefined => false
    case Null => false
    case NaN => false
    case Bool(b) => b
    case Num(n) => n != 0
    case Str(s) => s != ""
    case _ => true
  }

  /** `v == null`. */
  predicate IsNullish(v: Value)
  {
    v.Undefined? || v.Null?
  }

  /** `typeof v === 'object' && v !== null`. */
  predicate IsObject(v: Value)
  {
    v.Date? || v.Arr? || v.Obj?
  }

  /**
   * `a === b`. Objects are compared by identity in JavaScript; every object
   * here comes from a freshly parsed request, so two of them are never the
   * same object.
   */
  predicate StrictEquals(a: Value, b: Value)
  {
    match (a, b)
    case (Undefined, Undefined) => true
    case (Null, Null) => true
    case (Bool(x), Bool(y)) => x == y
    case (Num(x), Num(y)) => x == y
    case (Str(x), Str(y)) => x == y
    case _ => false
  }

  /** `items.includes(v)` (SameValueZero; without floating point it agrees with `===` except on NaN). */
  predicate Includes(items: seq<Value>, v: Value)
  {
    (v.NaN? && NaN in items) || exists i | 0 <= i < |items| :: StrictEquals(items[i], v)
  }

  /** `obj[key]`: the first field with that key, `undefined` when there is none. */
  function Get(v: Value, key: string): (r: Value)
    ensures !v.Obj? ==> r == Undefined
    ensures v.Obj? && r != Undefined ==> exists i :: 0 <= i < |v.fields| && v.fields[i] == Field(key, r)
  {
    if v.Obj? then Lookup(v.fields, key) else Undefined
  }

  function Lookup(fields: seq<Field>, key: string): (r: Value)
    ensures r != Undefined ==> exists i :: 0 <= i < |fields| && fields[i] == Field(key, r)
    ensures (forall i :: 0 <= i < |fields| ==> fields[i].key != key) ==> r == Undefined
  {
    if fields == [] then Undefined
    else if fields[0].key == key then fields[0].val
    else Lookup(fields[1..], key)
  }

  // ----- decimal numerals -----

  function DigitChar(d: int): (c: char)
    requires 0 <= d < 10
    ensures IsDigit(c)
  {
    '0' + d as char
  }

  function NatToString(n: nat): (r: string)
    ensures r != [] && forall i :: 0 <= i < |r| ==> IsDigit(r[i])
    decreases n
  {
    if n < 10 then [DigitChar(n)] else NatToString(n / 10) + [DigitChar(n % 10)]
  }

  /** The numeral JavaScript prints for an integer. */
  function IntToString(n: int): (r: string)
    ensures r != []
  {
    if n < 0 then "-" + NatToString(-n) else NatToString(n)
  }

  function DigitsValue(s: string): (n: nat)
    requires AllDigits(s)
  {
    if s == [] then 0 else DigitsValue(s[..|s| - 1]) * 10 + (s[|s| - 1] as int - '0' as int)
  }

  predicate AllDigits(s: string)
  {
    forall i :: 0 <= i < |s| ==> IsDigit(s[i])
  }

  /** `Number(s)` for text: blank is 0, an optionally signed run of digits is its value, the rest NaN. */
  function ParseNumber(s: string): (r: Value)
    ensures r.Num? || r.NaN?
  {
    var t := Trim(s);
    if t == [] then Num(0)
    else if AllDigits(t) then Num(DigitsValue(t))
    else if (t[0] == '-' || t[0] == '+') && |t| > 1 && AllDigits(t[1..]) then
      Num(if t[0] == '-' then 0 - DigitsValue(t[1..]) else DigitsValue(t[1..]))
    else NaN
  }

  lemma {:induction false} DigitsOfNat(n: nat)
    ensures AllDigits(NatToString(n)) && DigitsValue(NatToString(n)) == n
    decreases n
  {
    var r := NatToString(n);
    if n >= 10 {
      DigitsOfNat(n / 10);
      assert r[..|r| - 1] == NatToString(n / 10);
    }
  }

  /** Printing an integer and reading it back gives the integer. */
  lemma {:induction false} ParseIntToString(n: int)
    ensures ParseNumber(IntToString(n)) == Num(n)
  {
    if n < 0 {
      ParseNegative(n);
    } else {
      ParseNatural(n);
    }
  }

  lemma {:induction false} ParseNatural(n: nat)
    ensures ParseNumber(IntToString(n)) == Num(n)
  {
    var r := NatToString(n);
    assert IntToString(n) == r;
    DigitsOfNat(n);
    DigitsAreNotBlank(r);
    TrimNoWhitespace(r);
  }

  lemma {:induction false} ParseNegative(n: int)
    requires n < 0
    ensures ParseNumber(IntToString(n)) == Num(n)
  {
    var d := NatToString(-n);
    var r := "-" + d;
    assert IntToString(n) == r;
    DigitsOfNat(-n);
    DigitsAreNotBlank(d);
    assert r[1..] == d;
    assert forall i :: 0 <= i < |r| ==> !IsWhitespace(r[i]) by {
      forall i | 0 <= i < |r| ensures !IsWhitespace(r[i]) {
        if i > 0 { assert r[i] == d[i - 1]; }
      }
    }
    ParseMinus(r);
  }

  /** A minus sign before digits, with nothing to trim, reads as the negated digits. */
  lemma ParseMinus(t: string)
    requires |t| > 1 && t[0] == '-' && AllDigits(t[1..])
    requires forall i :: 0 <= i < |t| ==> !IsWhitespace(t[i])
    ensures ParseNumber(t) == Num(0 - DigitsValue(t[1..]))
  {
    TrimNoWhitespace(t);
    assert !IsDigit(t[0]);
    assert !AllDigits(t);
  }

  lemma DigitsAreNotBlank(s: string)
    requires AllDigits(s)
    ensures forall i :: 0 <= i < |s| ==> !IsWhitespace(s[i])
  {
    forall i | 0 <= i < |s| ensures !IsWhitespace(s[i]) {
      assert IsDigit(s[i]);
    }
  }

  /** The numeral "1" reads as one. */
  lemma ParseOne()
    ensures ParseNumber("1") == Num(1)
  {
    ParseIntToString(1);
    assert IntToString(1) == "1";
  }

  /** `Number(v)`. */
  function ToNumber(v: Value): (r: Value)
    ensures r.Num? || r.NaN?
  {
    match v
    case Undefined => NaN
    case Null => Num(0)
    case Bool(b) => Num(if b then 1 else 0)
    case Num(n) => v
    case NaN => NaN
    case Str(s) => ParseNumber(s)
    case Date(t) => Num(t)
    case Arr(items) => ParseNumber(ToString(v))
    case Obj(_) => NaN
  }

  /** `String(v)`. */
  function ToString(v: Value): string
  {
    match v
    case Undefined => "undefined"
    case Null => "null"
    case Bool(b) => if b then "true" else "false"
    case Num(n) => IntToString(n)
    case NaN => "NaN"
    case Str(s) => s
    case Date(t) => IntToString(t)
    case Arr(items) => Join(ElementStrings(items), ",")
    case Obj(_) => "[object Object]"
  }

  function ElementStrings(items: seq<Value>): (r: seq<string>)
    ensures |r| == |items|
    decreases items
  {
    if items == [] then []
    else [if IsNullish(items[0]) then "" else ToString(items[0])] + ElementStrings(items[1..])
  }

  /** A JSON string literal (quotes and backslashes escaped). */
  function Quote(s: string): (r: string)
    ensures |r| >= 2 && r[0] == '"' && r[|r| - 1] == '"'
  {
    "\"" + Escape(s) + "\""
  }

  function Escape(s: string): string
  {
    if s == [] then ""
    else (if s[0] == '"' || s[0] == '\\' then ['\\', s[0]] else [s[0]]) + Escape(s[1..])
  }

  /** `JSON.stringify(v)` for a value that is not `undefined`. */
  function Stringify(v: Value): string
  {
    match v
    case Undefined => "null"
    case Null => "null"
    case Bool(b) => if b then "true" else "false"
    case Num(n) => IntToString(n)
    case NaN => "null"
    case Str(s) => Quote(s)
    case Date(t) => Quote(IntToString(t))
    case Arr(items) => "[" + Join(StringifyItems(items), ",") + "]"
    case Obj(fields) => "{" + Join(StringifyFields(fields), ",") + "}"
  }

  function StringifyItems(items: seq<Value>): (r: seq<string>)
    ensures |r| == |items|
    decreases items
  {
    if items == [] then [] else [Stringify(items[0])] + StringifyItems(items[1..])
  }

  /** Members whose value is `undefined` are skipped, as JSON.stringify does. */
  function StringifyFields(fields: seq<Field>): seq<string>
    decreases fields
  {
    if fields == [] then []
    else if fields[0].val.Undefined? then StringifyFields(fields[1..])
    else [Quote(fields[0].key) + ":" + Stringify(fields[0].val)] + StringifyFields(fields[1..])
  }
}

=== FILE: jwt_strategy.dfy ===
/**
 * `JwtStrategy.validate`: the payload of a verified access token is resolved
 * to the user it names, password included; any failure becomes a plain
 * Unauthorized. Token verification itself (signature, expiry) is not
 * modelled.
 */
module JwtStrategy {
  import opened Common
  import opened UserEntity
  import opened UserService
  import opened AuthService
  import AuthDecorator
  import AuthGuard

  const UNAUTHORIZED := "Unauthorized"

  /** The user a payload stands for: a live user with that id, or Unauthorized. */
  function Validate(users: UserTable, payload: AccessPayload): (r: Result<User, HttpError>)
    reads users, users.roles
    requires users.Valid() && users.roles.Valid()
    ensures r.Ok? <==> users.Live(payload.id)
    ensures r.Ok? ==> r.value.id == payload.id && r.value == users.Resolve(payload.id, true)
    ensures r.Err? ==> r == Err(Unauthorized(UNAUTHORIZED))
  {
    var user := users.FindOne(ById(payload.id), true);
    assert users.Live(payload.id) ==> users.KeyMatches(ById(payload.id), payload.id);
    if user.None? then Err(Unauthorized(UNAUTHORIZED)) else Ok(user.value)
  }

  /** What the guard sees after the JWT step: the user, or the error the strategy raised. */
  function Authenticated(r: Result<User, HttpError>): (a: Result<Option<User>, HttpError>)
    ensures r.Ok? ==> a == Ok(Some(r.value))
    ensures r.Err? ==> a == Err(r.error)
  {
    if r.Ok? then Ok(Some(r.value)) else Err(r.error)
  }

  /**
   * Login, token and strategy fit together: the access token issued to a
   * user that passed the login checks resolves to that very user, as long as
   * the table has not changed.
   */
  lemma {:induction false} TokenResolvesToLoggedInUser(users: UserTable, username: string, password: string,
                                                      compare: (string, string) -> bool, md5: string -> string,
                                                      e: Option<string>)
    requires users.Valid() && users.roles.Valid()
    requires ValidUserBeforeLogin(users, username, password, compare).Ok?
    ensures var u := ValidUserBeforeLogin(users, username, password, compare).value;
      CreateToken(u, md5, e).Ok? && Validate(users, CreateToken(u, md5, e).value.access) == Ok(u)
  {
    var found := users.FindOne(ByUsername(username), true);
    assert found.value == users.Resolve(found.value.id, true);
  }

  /** A token whose user was soft-deleted or deleted since it was issued is refused on every protected route. */
  lemma {:induction false} GoneUserRefused(users: UserTable, payload: AccessPayload, route: AuthDecorator.Route)
    requires users.Valid() && users.roles.Valid()
    requires !users.Live(payload.id) && !AuthDecorator.IsPublic(route)
    ensures AuthGuard.CanActivate(route, Authenticated(Validate(users, payload))) == Err(Unauthorized(UNAUTHORIZED))
  {
    AuthGuard.CanActivateDecision(route, Authenticated(Validate(users, payload)));
  }

  /** The token of a disabled account still resolves, and the guard then refuses it as Forbidden. */
  lemma {:induction false} DisabledUserForbidden(users: UserTable, payload: AccessPayload, route: AuthDecorator.Route)
    requires users.Valid() && users.roles.Valid()
    requires users.Live(payload.id) && !users.rows[payload.id].isActive && !AuthDecorator.IsPublic(route)
    ensures AuthGuard.CanActivate(route, Authenticated(Validate(users, payload))) == Err(Forbidden(AuthGuard.ACCOUNT_DISABLED))
  {
    AuthGuard.CanActivateDecision(route, Authenticated(Validate(users, payload)));
  }
}

=== FILE: listing.dfy ===
/**
 * What the listing queries share: the rows in primary-key order, the order
 * flag, the `LIKE '%s%'` substring filter and the `skip`/`take` window of a
 * page, together with the total count of matches.
 */
module Listing {
  import opened Common
  import QueryDto

  /** `getManyAndCount()`: one page of rows and the number of all matching rows. */
  datatype Page<T> = Page(data: seq<T>, total: int)

  predicate Ascending(xs: seq<int>)
  {
    forall i, j :: 0 <= i < j < |xs| ==> xs[i] < xs[j]
  }

  /** The keys of `rows` in `[1, bound)`, ascending. */
  function IdsBelow<T>(rows: map<int, T>, bound: int): (r: seq<int>)
    ensures forall k :: k in r <==> k in rows && 1 <= k < bound
    ensures Ascending(r)
    decreases bound
  {
    if bound <= 1 then []
    else
      var init := IdsBelow(rows, bound - 1);
      assert forall i :: 0 <= i < |init| ==> init[i] < bound - 1 by {
        forall i | 0 <= i < |init| ensures init[i] < bound - 1 {
          assert init[i] in init;
        }
      }
      init + (if bound - 1 in rows then [bound - 1] else [])
  }

  /** The elements of `xs` that satisfy `p`, in their order. */
  function Filter<T>(xs: seq<T>, p: T -> bool): (r: seq<T>)
    ensures |r| <= |xs|
    ensures forall i :: 0 <= i < |r| ==> r[i] in xs && p(r[i])
    ensures forall i :: 0 <= i < |xs| && p(xs[i]) ==> xs[i] in r
  {
    if xs == [] then []
    else (if p(xs[0]) then [xs[0]] else []) + Filter(xs[1..], p)
  }

  /** Filtering keeps the order, so an ascending list stays ascending. */
  lemma {:induction false} FilterAscending(xs: seq<int>, p: int -> bool)
    requires Ascending(xs)
    ensures Ascending(Filter(xs, p))
    decreases |xs|
  {
    if xs != [] {
      FilterAscending(xs[1..], p);
      var rest := Filter(xs[1..], p);
      forall i | 0 <= i < |rest| ensures xs[0] < rest[i] {
        assert rest[i] in xs[1..];
      }
    }
  }

  /** Two tests that agree on every element select the same elements. */
  lemma {:induction false} FilterCongruent<T>(xs: seq<T>, p: T -> bool, q: T -> bool)
    requires forall i :: 0 <= i < |xs| ==> p(xs[i]) == q(xs[i])
    ensures Filter(xs, p) == Filter(xs, q)
    decreases |xs|
  {
    if xs != [] {
      FilterCongruent(xs[1..], p, q);
    }
  }

  function Reverse<T>(xs: seq<T>): (r: seq<T>)
    ensures |r| == |xs| && forall i :: 0 <= i < |xs| ==> r[i] == xs[|xs| - 1 - i]
  {
    if xs == [] then [] else Reverse(xs[1..]) + [xs[0]]
  }

  /** `orderBy(id, order)` on rows listed by ascending id. */
  function Arrange<T>(ascending: seq<T>, order: QueryDto.Order): (r: seq<T>)
    ensures order == QueryDto.ASC ==> r == ascending
    ensures order == QueryDto.DESC ==> r == Reverse(ascending)
  {
    if order == QueryDto.ASC then ascending else Reverse(ascending)
  }

  /**
   * `skip(skip).take(take)`: the rows from offset `skip` on, at most `take`
   * of them. Both are applied only when truthy, so a `take` of 0 means no
   * limit at all.
   */
  function Window<T>(xs: seq<T>, skip: int, take: int): (r: seq<T>)
    requires skip >= 0 && take >= 0
    ensures take > 0 ==> |r| == Min(take, Max(0, |xs| - skip))
    ensures take == 0 ==> |r| == Max(0, |xs| - skip)
    ensures forall i :: 0 <= i < |r| ==> skip + i < |xs| && r[i] == xs[skip + i]
  {
    if skip >= |xs| then []
    else if take == 0 || |xs| - skip <= take then xs[skip..]
    else xs[skip..skip + take]
  }

  function Min(a: int, b: int): int { if a <= b then a else b }
  function Max(a: int, b: int): int { if a >= b then a else b }

  /**
   * The page `page` of size `limit` over the matches (`skip((page - 1) *
   * limit).take(limit)`), with the count of all matches.
   */
  function Paginate<T>(matches: seq<T>, order: QueryDto.Order, page: int, limit: int): (r: Page<T>)
    requires page >= 1 && limit >= 0
    ensures r.total == |matches|
    ensures limit > 0 ==> |r.data| == Min(limit, Max(0, |matches| - (page - 1) * limit))
    ensures limit == 0 ==> |r.data| == Max(0, |matches| - (page - 1) * limit)
    ensures forall i :: 0 <= i < |r.data| ==>
      (page - 1) * limit + i < |matches| && r.data[i] == Arrange(matches, order)[(page - 1) * limit + i]
    ensures forall i :: 0 <= i < |r.data| ==> r.data[i] in matches
  {
    var arranged := Arrange(matches, order);
    var w := Window(arranged, (page - 1) * limit, limit);
    assert forall i :: 0 <= i < |arranged| ==> arranged[i] in matches;
    Page(w, |matches|)
  }

  /** Successive pages tile the arranged matches: the row at position `i` is on page `i / limit + 1`, at `i % limit`. */
  lemma {:induction false} PagesTile<T>(xs: seq<T>, limit: int, i: int)
    requires limit > 0 && 0 <= i < |xs|
    ensures var page := i / limit + 1;
      var w := Window(xs, (page - 1) * limit, limit);
      i % limit < |w| && w[i % limit] == xs[i]
  {
    var page := i / limit + 1;
    assert (page - 1) * limit + i % limit == i;
    assert (page - 1) * limit <= i;
  }

  /** `LIKE '%s%'` under the case-insensitive collation: `s` occurs in the value, ignoring ASCII case. */
  predicate Like(value: string, s: string)
  {
    Contains(ToLower(value), ToLower(s))
  }

  /** The `inIds[]` / `notInIds[]` filters; an empty list adds no condition. */
  predicate IdFilters(id: int, inIds: seq<int>, notInIds: seq<int>)
  {
    (inIds != [] ==> id in inIds) && (notInIds != [] ==> id !in notInIds)
  }
}

=== FILE: media_service.dfy ===
/**
 * `MediaService`: the unique name an uploaded file is stored under. The
 * UUID and the clock reading are parameters.
 */
module MediaService {
  import opened Common
  import Js
  import StringUtils

  const INVALID_FILE := "Invalid file: originalname is required."

  /** How many characters of the UUID the suffix keeps. */
  const UUID_PREFIX_LENGTH := 8

  /** `s.slice(0, n)`. */
  function Prefix(s: string, n: nat): (r: string)
    ensures |r| == if |s| < n then |s| else n
    ensures r == s[..|r|]
  {
    if |s| < n then s else s[..n]
  }

  /** `uniqueSuffix`: the first eight characters of the UUID, a hyphen, and the time in milliseconds. */
  function UniqueSuffix(uuid: string, now: int): (r: string)
    ensures |r| == |Prefix(uuid, UUID_PREFIX_LENGTH)| + 1 + |Js.IntToString(now)|
    ensures |uuid| >= UUID_PREFIX_LENGTH ==>
      && r[..UUID_PREFIX_LENGTH] == uuid[..UUID_PREFIX_LENGTH]
      && r[UUID_PREFIX_LENGTH] == '-'
      && r[UUID_PREFIX_LENGTH + 1..] == Js.IntToString(now)
  {
    Prefix(uuid, UUID_PREFIX_LENGTH) + "-" + Js.IntToString(now)
  }

  /** The name and extension `path.parse` finds in a path. */
  datatype ParsedPath = ParsedPath(name: string, ext: string)

  /** The path without its trailing slashes. */
  function StripTrailingSlashes(p: string): (r: string)
    ensures |r| <= |p| && r == p[..|r|]
    ensures r == [] || r[|r| - 1] != '/'
    decreases |p|
  {
    if p != [] && p[|p| - 1] == '/' then StripTrailingSlashes(p[..|p| - 1]) else p
  }

  /** What follows the last slash. */
  function AfterLastSlash(p: string): (r: string)
    ensures |r| <= |p| && r == p[|p| - |r|..]
    ensures '/' !in r
    decreases |p|
  {
    if p == [] then []
    else if p[|p| - 1] == '/' then []
    else AfterLastSlash(p[..|p| - 1]) + [p[|p| - 1]]
  }

  /** The index of the last `.`, or -1. */
  function LastDot(s: string): (r: int)
    ensures -1 <= r < |s|
    ensures r >= 0 ==> s[r] == '.'
    ensures forall i :: r < i < |s| ==> s[i] != '.'
    decreases |s|
  {
    if s == [] then -1
    else if s[|s| - 1] == '.' then |s| - 1
    else LastDot(s[..|s| - 1])
  }

  /** The last path segment, trailing slashes ignored. */
  function Base(p: string): (r: string)
    ensures '/' !in r
  {
    AfterLastSlash(StripTrailingSlashes(p))
  }

  /**
   * POSIX `path.parse`, name and extension: the extension runs from the last
   * dot of the last segment, unless that dot opens the segment or the
   * segment is `..`.
   */
  function ParsePath(p: string): (r: ParsedPath)
    ensures r.name + r.ext == Base(p)
    ensures r.ext == [] || (r.ext[0] == '.' && '.' !in r.ext[1..])
    ensures r.ext != [] ==> r.name != []
    ensures '.' in Base(p) && Base(p)[0] != '.' ==> r.ext != []
  {
    var base := Base(p);
    var d := LastDot(base);
    if d <= 0 || base == ".." then ParsedPath(base, [])
    else
      assert base == base[..d] + base[d..];
      ParsedPath(base[..d], base[d..])
  }

  /**
   * `uniqueFileName`: a missing or empty original name is refused;
   * otherwise the slug of its name, a hyphen, the unique suffix and its
   * extension, all lower-cased.
   */
  function UniqueFileName(originalname: Option<string>, uuid: string, now: int): (r: Result<string, HttpError>)
    ensures originalname.None? || originalname.value == "" <==> r == Err(RuntimeError(INVALID_FILE))
    ensures r.Ok? ==> forall i :: 0 <= i < |r.value| ==> !IsUpper(r.value[i])
    ensures r.Ok? ==> var parsed := ParsePath(originalname.value);
      r.value == StringUtils.ConvertToSlug(parsed.name) + "-" + ToLower(UniqueSuffix(uuid, now)) + ToLower(parsed.ext)
  {
    if originalname.None? || originalname.value == "" then Err(RuntimeError(INVALID_FILE))
    else
      var parsed := ParsePath(originalname.value);
      var slugName := StringUtils.ConvertToSlug(parsed.name);
      var suffix := UniqueSuffix(uuid, now);
      FileNameShape(slugName, suffix, parsed.ext);
      Ok(LowerJoined(slugName, suffix, parsed.ext))
  }

  /** The slug, a hyphen, the suffix and the extension, lower-cased. */
  function LowerJoined(slug: string, suffix: string, ext: string): string
  {
    ToLower(slug + "-" + suffix + ext)
  }

  /** Lower-casing the joined name leaves the slug and the hyphen alone and has no upper-case letter left. */
  lemma FileNameShape(slug: string, suffix: string, ext: string)
    requires forall i :: 0 <= i < |slug| ==> StringUtils.IsSlugChar(slug[i])
    ensures LowerJoined(slug, suffix, ext) == slug + "-" + ToLower(suffix) + ToLower(ext)
    ensures forall i :: 0 <= i < |LowerJoined(slug, suffix, ext)| ==> !IsUpper(LowerJoined(slug, suffix, ext)[i])
  {
    var head := slug + "-";
    LowerConcat(head + suffix, ext);
    LowerConcat(head, suffix);
    LowerOfSlug(head);
  }

  lemma LowerConcat(a: string, b: string)
    ensures ToLower(a + b) == ToLower(a) + ToLower(b)
  {
  }

  /** A slug has nothing to lower-case. */
  lemma LowerOfSlug(s: string)
    requires forall i :: 0 <= i < |s| ==> StringUtils.IsSlugChar(s[i])
    ensures ToLower(s) == s
  {
  }

  /** The numeral of an integer has nothing to lower-case. */
  lemma LowerOfNumeral(n: int)
    ensures ToLower(Js.IntToString(n)) == Js.IntToString(n)
  {
    var t := Js.IntToString(n);
    if n < 0 {
      assert t == "-" + Js.NatToString(-n);
      assert forall i :: 1 <= i < |t| ==> t[i] == Js.NatToString(-n)[i - 1];
    }
  }

  /**
   * Two uploads of the same file with the same UUID at different times get
   * different names: the timestamp is recoverable from its place in the name.
   */
  lemma {:induction false} DifferentTimesDifferentNames(name: string, uuid: string, t1: int, t2: int)
    requires name != "" && t1 != t2
    ensures UniqueFileName(Some(name), uuid, t1) != UniqueFileName(Some(name), uuid, t2)
  {
    var slug := StringUtils.ConvertToSlug(ParsePath(name).name);
    var lead := ToLower(Prefix(uuid, UUID_PREFIX_LENGTH) + "-");
    var ext := ToLower(ParsePath(name).ext);
    NameParts(name, uuid, t1);
    NameParts(name, uuid, t2);
    if UniqueFileName(Some(name), uuid, t1) == UniqueFileName(Some(name), uuid, t2) {
      MiddleDetermined(slug + "-", lead, Js.IntToString(t1), Js.IntToString(t2), ext);
      Js.ParseIntToString(t1);
      Js.ParseIntToString(t2);
      assert false;
    }
  }

  /** The name of a file, cut at the timestamp. */
  lemma NameParts(name: string, uuid: string, now: int)
    requires name != ""
    ensures UniqueFileName(Some(name), uuid, now) ==
      Ok(StringUtils.ConvertToSlug(ParsePath(name).name) + "-"
         + (ToLower(Prefix(uuid, UUID_PREFIX_LENGTH) + "-") + Js.IntToString(now))
         + ToLower(ParsePath(name).ext))
  {
    SuffixLowered(uuid, now);
  }

  /** Lower-casing the suffix leaves its timestamp alone. */
  lemma SuffixLowered(uuid: string, now: int)
    ensures ToLower(UniqueSuffix(uuid, now)) == ToLower(Prefix(uuid, UUID_PREFIX_LENGTH) + "-") + Js.IntToString(now)
  {
    LowerOfNumeral(now);
    LowerConcat(Prefix(uuid, UUID_PREFIX_LENGTH) + "-", Js.IntToString(now));
  }

  /** Text between the same head and tail is determined by the whole. */
  lemma MiddleDetermined(head: string, lead: string, m1: string, m2: string, tail: string)
    requires head + (lead + m1) + tail == head + (lead + m2) + tail
    ensures m1 == m2
  {
    var w1 := head + (lead + m1) + tail;
    var w2 := head + (lead + m2) + tail;
    assert |m1| == |m2|;
    assert m1 == w1[|head| + |lead|..|head| + |lead| + |m1|];
    assert m2 == w2[|head| + |lead|..|head| + |lead| + |m2|];
  }
}

=== FILE: query_dto.dfy ===
/**
 * The listing query parameters (`QuerySortDto`, `QueryPaginateDto`,
 * `QueryDto`, `QueryWithDeleteDto`): how each raw query-string value is
 * converted (`@Type(() => Number)` first, then the `@Transform`) and which
 * converted values pass validation. A query that fails any rule is refused
 * as a whole with BadRequest.
 */
module QueryDto {
  import opened Common
  import opened Js
  import Comparison

  datatype Order = ASC | DESC

  /** A query that passed validation, field by field (`None` is undefined). */
  datatype QueryParams = QueryParams(
    order: Option<Order>,
    orderBy: string,
    s: Option<string>,
    page: Option<int>,
    limit: Option<int>,
    isPagination: Option<int>,
    inIds: seq<int>,
    notInIds: seq<int>,
    isDeleted: Option<int>,
    withDeleted: Option<int>)

  const DEFAULT_PAGE := 1
  const DEFAULT_LIMIT := 10
  const MAX_LIMIT := 100

  /** `@Type(() => Number)`: `Number(v)`, element-wise on a list, nullish values kept. */
  function TypeNumber(v: Value): (r: Value)
    ensures IsNullish(v) ==> r == v
    ensures !IsNullish(v) && !v.Arr? ==> r == ToNumber(v) && (r.Num? || r.NaN?)
    ensures v.Arr? ==>
      r.Arr? && |r.items| == |v.items| && forall i :: 0 <= i < |v.items| ==> r.items[i] == ToNumber(v.items[i])
  {
    match v
    case Undefined => v
    case Null => v
    case Arr(items) => Arr(seq(|items|, i requires 0 <= i < |items| => ToNumber(items[i])))
    case _ => ToNumber(v)
  }

  /** The `page` / `limit` transform: `value ? Number(value) : undefined`, applied after the type conversion. */
  function PageLimitTransform(v: Value): (r: Value)
    ensures r.Undefined? || r.Num? || r.NaN?
    ensures !Truthy(TypeNumber(v)) ==> r.Undefined?
    ensures Truthy(TypeNumber(v)) ==> r == ToNumber(TypeNumber(v))
    ensures !v.Arr? && Truthy(TypeNumber(v)) ==> r == ToNumber(v) && r.Num? && r.n != 0
  {
    var c := TypeNumber(v);
    if Truthy(c) then ToNumber(c) else Undefined
  }

  /** The `inIds[]` / `notInIds[]` transform: falsy gives `[]`, a scalar a one-element list, each element `+str`. */
  function IdsTransform(v: Value): (r: seq<Value>)
    ensures !Truthy(v) ==> r == []
    ensures Truthy(v) && !v.Arr? ==> r == [ToNumber(v)]
    ensures v.Arr? ==> |r| == |v.items| && forall i :: 0 <= i < |r| ==> r[i] == ToNumber(v.items[i])
  {
    if !Truthy(v) then []
    else if v.Arr? then seq(|v.items|, i requires 0 <= i < |v.items| => ToNumber(v.items[i]))
    else [ToNumber(v)]
  }

  /** `@IsInt({ each: true })` over the transformed list, and the integers it holds. */
  function Ints(xs: seq<Value>): (r: Option<seq<int>>)
    ensures r.Some? <==> forall i :: 0 <= i < |xs| ==> xs[i].Num?
    ensures r.Some? ==> |r.value| == |xs| && forall i :: 0 <= i < |xs| ==> xs[i] == Num(r.value[i])
  {
    if forall i :: 0 <= i < |xs| ==> xs[i].Num? then
      Some(seq(|xs|, i requires 0 <= i < |xs| => xs[i].n))
    else None
  }

  /** A `0 | 1` flag: optional, `@IsNumber` and `@Comparison([0, 1], 'in')`. */
  function Flag(v: Value): (r: Result<Option<int>, HttpError>)
    ensures IsNullish(v) ==> r == Ok(None)
    ensures !IsNullish(v) ==>
      (r.Ok? <==> TypeNumber(v).Num? && (TypeNumber(v).n == 0 || TypeNumber(v).n == 1))
    ensures !IsNullish(v) && r.Ok? ==> r.value == Some(TypeNumber(v).n)
    ensures r.Err? ==> r.error == BadRequest(VALIDATION_FAILED)
  {
    var c := TypeNumber(v);
    if IsNullish(c) then Ok(None)
    else if c.Num? && Comparison.Validate(c, Obj([]), Arr([Num(0), Num(1)]), Comparison.In) == Ok(true) then
      Ok(Some(c.n))
    else
      (if c.Num? then InZeroOne(c.n); Err(BadRequest(VALIDATION_FAILED))
       else Err(BadRequest(VALIDATION_FAILED)))
  }

  /** `@Comparison([0, 1], 'in')` on a number admits exactly 0 and 1. */
  lemma InZeroOne(n: int)
    ensures Comparison.Validate(Num(n), Obj([]), Arr([Num(0), Num(1)]), Comparison.In) == Ok(n == 0 || n == 1)
  {
    var items := [Num(0), Num(1)];
    if n == 0 {
      assert StrictEquals(items[0], Num(n));
    } else if n == 1 {
      assert StrictEquals(items[1], Num(n));
    }
  }

  function ParseOrder(v: Value): (r: Result<Option<Order>, HttpError>)
    ensures IsNullish(v) ==> r == Ok(None)
    ensures v == Str("ASC") ==> r == Ok(Some(ASC))
    ensures v == Str("DESC") ==> r == Ok(Some(DESC))
    ensures !IsNullish(v) && v != Str("ASC") && v != Str("DESC") ==> r == Err(BadRequest(VALIDATION_FAILED))
  {
    if IsNullish(v) then Ok(None)
    else if v == Str("ASC") then Ok(Some(ASC))
    else if v == Str("DESC") then Ok(Some(DESC))
    else Err(BadRequest(VALIDATION_FAILED))
  }

  /** `page`: after the transform, absent or a number of at least 1 (`@IsOptional`, `@Min(1)`). */
  function PageField(v: Value): (r: Result<Option<int>, HttpError>)
    ensures var t := PageLimitTransform(v);
      r.Ok? <==> t.Undefined? || (t.Num? && t.n >= 1)
    ensures var t := PageLimitTransform(v);
      r.Ok? ==> r.value == (if t.Num? then Some(t.n) else None)
    ensures r.Ok? && r.value.Some? ==> r.value.value >= 1
    ensures r.Err? ==> r.error == BadRequest(VALIDATION_FAILED)
  {
    var page := PageLimitTransform(v);
    if page.NaN? || (page.Num? && page.n < 1) then Err(BadRequest(VALIDATION_FAILED))
    else Ok(if page.Num? then Some(page.n) else None)
  }

  /** `limit`: after the transform, absent or a number from 0 to 100 (`@Min(0)`, `@Max(100)`). */
  function LimitField(v: Value): (r: Result<Option<int>, HttpError>)
    ensures var t := PageLimitTransform(v);
      r.Ok? <==> t.Undefined? || (t.Num? && 0 <= t.n <= MAX_LIMIT)
    ensures var t := PageLimitTransform(v);
      r.Ok? ==> r.value == (if t.Num? then Some(t.n) else None)
    ensures r.Ok? && r.value.Some? ==> 0 <= r.value.value <= MAX_LIMIT
    ensures r.Ok? && r.value.Some? && !v.Arr? ==> r.value.value != 0
    ensures r.Err? ==> r.error == BadRequest(VALIDATION_FAILED)
  {
    var limit := PageLimitTransform(v);
    if limit.NaN? || (limit.Num? && (limit.n < 0 || limit.n > MAX_LIMIT)) then Err(BadRequest(VALIDATION_FAILED))
    else Ok(if limit.Num? then Some(limit.n) else None)
  }

  /**
   * Converts and validates a raw query object; `withDelete` adds the
   * `QueryWithDeleteDto` fields (the user listing has them, the role listing
   * does not). Keys outside the DTO are dropped.
   */
  function Parse(raw: Value, withDelete: bool): (r: Result<QueryParams, HttpError>)
    ensures r.Ok? ==> r.value.orderBy == "id"
    ensures r.Ok? && r.value.page.Some? ==> r.value.page.value >= 1
    ensures r.Ok? && r.value.limit.Some? ==> 0 <= r.value.limit.value <= MAX_LIMIT
    ensures r.Ok? && r.value.limit.Some? && !Get(raw, "limit").Arr? ==> r.value.limit.value != 0
    ensures r.Ok? && !withDelete ==> r.value.isDeleted.None? && r.value.withDeleted.None?
    ensures r.Ok? && r.value.isPagination.Some? ==> r.value.isPagination.value in {0, 1}
    ensures r.Ok? && r.value.isDeleted.Some? ==> r.value.isDeleted.value in {0, 1}
    ensures r.Ok? && r.value.withDeleted.Some? ==> r.value.withDeleted.value in {0, 1}
    ensures r.Err? ==> r.error == BadRequest(VALIDATION_FAILED)
    ensures r.Ok? <==> FieldsValid(raw, withDelete)
    ensures r.Ok? ==>
      && ParseOrder(Get(raw, "order")) == Ok(r.value.order)
      && r.value.s == (if Get(raw, "s").Str? then Some(Get(raw, "s").s) else None)
      && PageField(Get(raw, "page")) == Ok(r.value.page)
      && LimitField(Get(raw, "limit")) == Ok(r.value.limit)
      && Flag(Get(raw, "isPagination")) == Ok(r.value.isPagination)
      && Ints(IdsTransform(Get(raw, "inIds[]"))) == Some(r.value.inIds)
      && Ints(IdsTransform(Get(raw, "notInIds[]"))) == Some(r.value.notInIds)
      && (withDelete ==> Flag(Get(raw, "isDeleted")) == Ok(r.value.isDeleted))
      && (withDelete ==> Flag(Get(raw, "withDeleted")) == Ok(r.value.withDeleted))
  {
    if !FieldsValid(raw, withDelete) then Err(BadRequest(VALIDATION_FAILED))
    else
      var sv := Get(raw, "s");
      Ok(QueryParams(
        ParseOrder(Get(raw, "order")).value,
        "id",
        if sv.Str? then Some(sv.s) else None,
        PageField(Get(raw, "page")).value,
        LimitField(Get(raw, "limit")).value,
        Flag(Get(raw, "isPagination")).value,
        Ints(IdsTransform(Get(raw, "inIds[]"))).value,
        Ints(IdsTransform(Get(raw, "notInIds[]"))).value,
        if withDelete then Flag(Get(raw, "isDeleted")).value else None,
        if withDelete then Flag(Get(raw, "withDeleted")).value else None))
  }

  /** Every field of the query passes its own rules; the delete flags count only when `withDelete`. */
  predicate FieldsValid(raw: Value, withDelete: bool)
  {
    && ParseOrder(Get(raw, "order")).Ok?
    && (IsNullish(Get(raw, "s")) || Get(raw, "s").Str?)
    && PageField(Get(raw, "page")).Ok?
    && LimitField(Get(raw, "limit")).Ok?
    && Flag(Get(raw, "isPagination")).Ok?
    && Ints(IdsTransform(Get(raw, "inIds[]"))).Some?
    && Ints(IdsTransform(Get(raw, "notInIds[]"))).Some?
    && (withDelete ==> Flag(Get(raw, "isDeleted")).Ok? && Flag(Get(raw, "withDeleted")).Ok?)
  }

  /** The page after defaults: 1 when absent. */
  function Page(q: QueryParams): (r: int)
    ensures q.page.None? ==> r == DEFAULT_PAGE
    ensures q.page.Some? ==> r == q.page.value
  {
    if q.page.Some? then q.page.value else DEFAULT_PAGE
  }

  /** The page size after defaults: 10 when absent. */
  function Limit(q: QueryParams): (r: int)
    ensures q.limit.None? ==> r == DEFAULT_LIMIT
    ensures q.limit.Some? ==> r == q.limit.value
  {
    if q.limit.Some? then q.limit.value else DEFAULT_LIMIT
  }

  /** A falsy `page` or `limit` (`0`, `""`, `"0"`, absent) means "use the default". */
  lemma ZeroMeansDefault()
    ensures PageLimitTransform(Str("0")) == Undefined
    ensures PageLimitTransform(Str("")) == Undefined
    ensures PageLimitTransform(Undefined) == Undefined
  {
    ZeroIsFalsy();
    EmptyIsFalsy();
  }

  lemma ZeroIsFalsy()
    ensures PageLimitTransform(Str("0")) == Undefined
  {
    ParseZero();
  }

  lemma EmptyIsFalsy()
    ensures PageLimitTransform(Str("")) == Undefined
  {
    assert Trim("") == "";
  }

  lemma ParseZero()
    ensures ParseNumber("0") == Num(0)
  {
    TrimNoWhitespace("0");
    assert AllDigits("0");
    assert DigitsValue("0") == 0 by {
      assert "0"[..0] == [];
    }
  }

  /** A query holding only the two soft-delete flags parses to those flags and every default. */
  lemma ParseDeleteFlagsOnly(raw: Value, isDeleted: int, withDeleted: int)
    requires Get(raw, "order") == Undefined && Get(raw, "s") == Undefined
    requires Get(raw, "page") == Undefined && Get(raw, "limit") == Undefined
    requires Get(raw, "isPagination") == Undefined
    requires Get(raw, "inIds[]") == Undefined && Get(raw, "notInIds[]") == Undefined
    requires Flag(Get(raw, "isDeleted")) == Ok(Some(isDeleted)) && Flag(Get(raw, "withDeleted")) == Ok(Some(withDeleted))
    ensures Parse(raw, true) == Ok(QueryParams(None, "id", None, None, None, None, [], [], Some(isDeleted), Some(withDeleted)))
  {
    assert Ints(IdsTransform(Undefined)) == Some([]);
  }

  /** The query-string flag `"1"` reads as the number 1, which the `[0, 1]` constraint admits. */
  lemma FlagOfOne()
    ensures Flag(Str("1")) == Ok(Some(1))
  {
    Js.ParseOne();
    assert TypeNumber(Str("1")) == Num(1);
    assert Comparison.Validate(Num(1), Obj([]), Arr([Num(0), Num(1)]), Comparison.In) == Ok(true) by {
      assert StrictEquals([Num(0), Num(1)][1], Num(1));
    }
  }

  /** A single id becomes a one-element list; a non-numeric one is refused. */
  lemma IdsScalar(v: Value)
    requires Truthy(v) && !v.Arr?
    ensures ToNumber(v).Num? ==> Ints(IdsTransform(v)) == Some([ToNumber(v).n])
    ensures ToNumber(v).NaN? ==> Ints(IdsTransform(v)).None?
  {
    assert IdsTransform(v) == [ToNumber(v)];
    if ToNumber(v).Num? {
      var r := Ints([ToNumber(v)]);
      assert r.Some? && |r.value| == 1 && [ToNumber(v)][0] == Num(r.value[0]);
      assert r.value == [ToNumber(v).n];
    } else if ToNumber(v).NaN? {
      assert !IdsTransform(v)[0].Num?;
    }
  }
}

=== FILE: regex_utils.dfy ===
/**
 * The regular-expression predicates of the utilities module. Each pattern is
 * a character class repeated between length bounds (plus, for the strong
 * password, two look-aheads and, for the slug, a hyphen grammar), so each is
 * written as a per-character predicate with its length bounds.
 */
module RegexUtils {
  import opened Common

  predicate IsAlnumLower(c: char) { IsLower(c) || IsDigit(c) }
  predicate IsLetter(c: char) { IsLower(c) || IsUpper(c) }
  predicate IsSpecial(c: char) { c in "!@#$%^&*" }

  predicate All(s: string, p: char -> bool)
  {
    forall i :: 0 <= i < |s| ==> p(s[i])
  }

  /** `^[a-z0-9]+(?:-[a-z0-9]+)*$`: non-empty, made of `[a-z0-9-]`, no hyphen first, last or next to another. */
  predicate IsValidSlug(s: string)
  {
    && s != []
    && (forall i :: 0 <= i < |s| ==> IsAlnumLower(s[i]) || s[i] == '-')
    && s[0] != '-' && s[|s| - 1] != '-'
    && (forall i :: 0 <= i < |s| - 1 ==> !(s[i] == '-' && s[i + 1] == '-'))
  }

  /** The slug grammar read literally: one or more `[a-z0-9]+` runs joined by single hyphens. */
  predicate IsRun(r: string)
  {
    r != [] && forall i :: 0 <= i < |r| ==> IsAlnumLower(r[i])
  }

  function Hyphenate(runs: seq<string>): (s: string)
    requires runs != []
  {
    if |runs| == 1 then runs[0] else runs[0] + "-" + Hyphenate(runs[1..])
  }

  /** Every string the grammar derives passes the predicate. */
  lemma {:induction false} HyphenatedRunsAreSlugs(runs: seq<string>)
    requires runs != [] && forall k :: 0 <= k < |runs| ==> IsRun(runs[k])
    ensures IsValidSlug(Hyphenate(runs))
    ensures Hyphenate(runs)[0] != '-'
    decreases |runs|
  {
    if |runs| > 1 {
      HyphenatedRunsAreSlugs(runs[1..]);
      var a := runs[0];
      var t := Hyphenate(runs[1..]);
      var s := a + "-" + t;
      assert s == Hyphenate(runs);
      forall i | 0 <= i < |s| - 1 ensures !(s[i] == '-' && s[i + 1] == '-') {
        if i < |a| - 1 {
          assert s[i] == a[i];
        } else if i == |a| - 1 {
          assert s[i] == a[i];
        } else if i == |a| {
          assert s[i + 1] == t[0];
        } else {
          assert s[i] == t[i - |a| - 1] && s[i + 1] == t[i - |a|];
        }
      }
      forall i | 0 <= i < |s| ensures IsAlnumLower(s[i]) || s[i] == '-' {
        if i < |a| { assert s[i] == a[i]; }
        else if i > |a| { assert s[i] == t[i - |a| - 1]; }
      }
      assert s[0] == a[0];
      assert s[|s| - 1] == t[|t| - 1];
    }
  }

  /** And every string passing the predicate is derived by the grammar: it splits at its hyphens into runs. */
  lemma {:induction false} SlugsAreHyphenatedRuns(s: string) returns (runs: seq<string>)
    requires IsValidSlug(s)
    ensures runs != [] && (forall k :: 0 <= k < |runs| ==> IsRun(runs[k]))
    ensures Hyphenate(runs) == s
    decreases |s|
  {
    if forall i :: 0 <= i < |s| ==> s[i] != '-' {
      runs := [s];
    } else {
      var j :| 0 <= j < |s| && s[j] == '-';
      var first := FirstHyphen(s, j);
      var a := s[..first];
      var t := s[first + 1..];
      assert a != [] by { assert s[0] != '-'; }
      assert t != [] && t[0] != '-' by {
        assert first < |s| - 1;
        assert !(s[first] == '-' && s[first + 1] == '-');
      }
      assert IsValidSlug(t) by {
        forall i | 0 <= i < |t| - 1 ensures !(t[i] == '-' && t[i + 1] == '-') {
          assert t[i] == s[first + 1 + i] && t[i + 1] == s[first + 2 + i];
        }
        forall i | 0 <= i < |t| ensures IsAlnumLower(t[i]) || t[i] == '-' {
          assert t[i] == s[first + 1 + i];
        }
        assert t[|t| - 1] == s[|s| - 1];
      }
      var rest := SlugsAreHyphenatedRuns(t);
      runs := [a] + rest;
      assert IsRun(a) by {
        forall i | 0 <= i < |a| ensures IsAlnumLower(a[i]) {
          assert a[i] == s[i];
        }
      }
      assert runs[1..] == rest;
      assert s == a + "-" + t;
    }
  }

  /** The position of the first hyphen, given that there is one at `j`. */
  function FirstHyphen(s: string, j: int): (k: int)
    requires 0 <= j < |s| && s[j] == '-'
    ensures 0 <= k <= j && s[k] == '-'
    ensures forall i :: 0 <= i < k ==> s[i] != '-'
  {
    if exists i :: 0 <= i < j && s[i] == '-' then
      var i :| 0 <= i < j && s[i] == '-';
      FirstHyphen(s, i)
    else j
  }

  /** `^(?=.*[0-9])(?=.*[!@#$%^&*])[a-zA-Z0-9!@#$%^&*]{6,15}$`. */
  predicate IsStrongPassword(s: string)
  {
    && 6 <= |s| <= 15
    && (forall i :: 0 <= i < |s| ==> IsLetter(s[i]) || IsDigit(s[i]) || IsSpecial(s[i]))
    && (exists i :: 0 <= i < |s| && IsDigit(s[i]))
    && (exists i :: 0 <= i < |s| && IsSpecial(s[i]))
  }

  /** `^[A-Z]*$` (the empty string passes). */
  predicate IsAllUppercase(s: string)
  {
    forall i :: 0 <= i < |s| ==> IsUpper(s[i])
  }

  /** `^[a-zA-Z0-9_.]{3,30}$`. */
  predicate IsValidUsername(s: string)
  {
    3 <= |s| <= 30 && forall i :: 0 <= i < |s| ==> IsLetter(s[i]) || IsDigit(s[i]) || s[i] == '_' || s[i] == '.'
  }

  /** `^[a-zA-Z]*$` (the empty string passes). */
  predicate IsAlphabetOnly(s: string)
  {
    forall i :: 0 <= i < |s| ==> IsLetter(s[i])
  }

  /** `^[a-z-]+$`. */
  predicate IsValidPostType(s: string)
  {
    s != [] && forall i :: 0 <= i < |s| ==> IsLower(s[i]) || s[i] == '-'
  }

  /** `^[A-Z_]+$`. */
  predicate IsValidCapitalLettersOrUnderscores(s: string)
  {
    s != [] && forall i :: 0 <= i < |s| ==> IsUpper(s[i]) || s[i] == '_'
  }

  /** `^\S*$` (the empty string passes). */
  predicate ContainsNoWhitespace(s: string)
  {
    forall i :: 0 <= i < |s| ==> !IsWhitespace(s[i])
  }

  /** The punctuation `regexAlphaNumSpecial` admits besides letters and digits. */
  predicate IsAlphaNumSpecialChar(c: char)
  {
    IsLetter(c) || IsDigit(c) || c in "!@#$%^&*()_+-=[]{}|;:,.<>?"
  }

  /** `^[a-zA-Z0-9!@#$%^&*()_+\-=\[\]{}|;:,.<>?]+$`. */
  predicate IsAlphaNumSpecial(s: string)
  {
    s != [] && forall i :: 0 <= i < |s| ==> IsAlphaNumSpecialChar(s[i])
  }

  /** How the predicates nest: each character class lies inside the next one. */
  lemma {:induction false} PredicateInclusions(s: string)
    ensures IsAllUppercase(s) ==> IsAlphabetOnly(s)
    ensures IsAllUppercase(s) && s != [] ==> IsValidCapitalLettersOrUnderscores(s)
    ensures IsStrongPassword(s) ==> ContainsNoWhitespace(s) && IsAlphaNumSpecial(s)
    ensures IsValidUsername(s) ==> ContainsNoWhitespace(s) && IsAlphaNumSpecial(s)
    ensures IsValidSlug(s) ==> ContainsNoWhitespace(s) && IsAlphaNumSpecial(s)
    ensures IsAlphabetOnly(s) ==> ContainsNoWhitespace(s)
  {
    if IsStrongPassword(s) {
      forall i | 0 <= i < |s| ensures !IsWhitespace(s[i]) && IsAlphaNumSpecialChar(s[i]) {
        assert IsLetter(s[i]) || IsDigit(s[i]) || IsSpecial(s[i]);
      }
    }
    if IsValidUsername(s) {
      forall i | 0 <= i < |s| ensures !IsWhitespace(s[i]) && IsAlphaNumSpecialChar(s[i]) {
        assert IsLetter(s[i]) || IsDigit(s[i]) || s[i] == '_' || s[i] == '.';
      }
    }
    if IsValidSlug(s) {
      forall i | 0 <= i < |s| ensures !IsWhitespace(s[i]) && IsAlphaNumSpecialChar(s[i]) {
        assert IsAlnumLower(s[i]) || s[i] == '-';
      }
    }
    if IsAlphabetOnly(s) {
      forall i | 0 <= i < |s| ensures !IsWhitespace(s[i]) {
        assert IsLetter(s[i]);
      }
    }
  }

  /** A string of A-Z letters is already trimmed and upper-case. */
  lemma {:induction false} UppercaseIsNormalised(s: string)
    requires IsAllUppercase(s)
    ensures Trim(s) == s && ToUpper(s) == s
  {
    forall i | 0 <= i < |s| ensures !IsWhitespace(s[i]) {
      assert IsUpper(s[i]);
    }
    TrimNoWhitespace(s);
  }
}

=== FILE: register_dto.dfy ===
/**
 * `RegisterDto`: a non-empty username, an e-mail address, a password and its
 * confirmation. Unlike `CreateUserDto` there is no length bound on username
 * or e-mail. `isEmail` stands for class-validator's e-mail syntax check.
 */
module RegisterDto {
  import opened Common
  import opened Js
  import opened DtoRules
  import RegexUtils

  datatype Dto = Dto(username: string, email: string, password: string)

  function Validate(body: Value, isEmail: string -> bool): (r: Result<Dto, HttpError>)
    ensures r.Ok? <==>
      && IsNotEmpty(Get(body, "username")) && Get(body, "username").Str?
      && IsNotEmpty(Get(body, "email")) && Get(body, "email").Str? && isEmail(Get(body, "email").s)
      && IsPassword(Get(body, "password"))
      && IsPassword(Get(body, "confirmPassword"))
      && Confirm(body, "confirmPassword", "password")
    ensures r.Err? ==> r.error == BadRequest(VALIDATION_FAILED)
    ensures r.Ok? ==> Get(body, "username") == Str(r.value.username) && r.value.username != ""
    ensures r.Ok? ==> Get(body, "email") == Str(r.value.email) && isEmail(r.value.email)
    ensures r.Ok? ==> Get(body, "password") == Str(r.value.password)
    ensures r.Ok? ==> Get(body, "confirmPassword") == Str(r.value.password)
    ensures r.Ok? ==> PASSWORD_MIN_LENGTH <= |r.value.password| <= PASSWORD_MAX_LENGTH
    ensures r.Ok? ==> RegexUtils.ContainsNoWhitespace(r.value.password)
  {
    var username := Get(body, "username");
    var email := Get(body, "email");
    var password := Get(body, "password");
    var confirm := Get(body, "confirmPassword");
    if && IsNotEmpty(username) && username.Str?
       && IsNotEmpty(email) && email.Str? && isEmail(email.s)
       && IsPassword(password) && IsPassword(confirm) && Confirm(body, "confirmPassword", "password")
    then
      ConfirmIff(body, "confirmPassword", "password");
      Ok(Dto(username.s, email.s, password.s))
    else Err(BadRequest(VALIDATION_FAILED))
  }

  /** A registration without a confirmation is refused as invalid input. */
  lemma {:induction false} MissingConfirmRefused(fields: seq<Field>, isEmail: string -> bool)
    requires Lookup(fields, "password").Str?
    requires Lookup(fields, "confirmPassword") == Undefined
    ensures Validate(Obj(fields), isEmail) == Err(BadRequest(VALIDATION_FAILED))
    ensures ConfirmAsWritten(Obj(fields), "confirmPassword", "password").Err?
  {
    MissingConfirmThrows(Obj(fields), "confirmPassword", "password");
  }
}

=== FILE: role_config.dfy ===
/**
 * The closed catalogue of roles and permissions: the `ERole` and `ACCESS`
 * enumerations, the `ROLES` list and the `PERMISSIONS` grouping. Each
 * enumeration member's string value is its own name.
 */
module RoleConfig {
  import opened Common

  datatype ERole = ADMINISTRATOR | GUEST

  function RoleValue(r: ERole): (s: string)
    ensures s != []
  {
    match r
    case ADMINISTRATOR => "ADMINISTRATOR"
    case GUEST => "GUEST"
  }

  const ROLES: seq<ERole> := [ADMINISTRATOR, GUEST]

  /** `ERole.ADMINISTRATOR` and `ERole.GUEST` as the codes the services look up. */
  const ADMIN_CODE := "ADMINISTRATOR"
  const GUEST_CODE := "GUEST"

  lemma RolesAreBothRoles()
    ensures |ROLES| == 2 && ADMINISTRATOR in ROLES && GUEST in ROLES
    ensures RoleValue(ADMINISTRATOR) != RoleValue(GUEST)
    ensures RoleValue(ADMINISTRATOR) == ADMIN_CODE && RoleValue(GUEST) == GUEST_CODE
  {
  }

  datatype Access =
    | SEND_MAIL_TEST
    | CREATE_USER | LIST_USER | VIEW_USER | UPDATE_USER | DELETE_USER | SOFT_DELETE_USER | RESTORE_USER
    | LIST_ROLE | LIST_PERMISSION | CREATE_ROLE | UPDATE_ROLE | DELETE_ROLE
    | UPLOAD_FILE
    | CREATE_PRODUCT | LIST_PRODUCT | VIEW_PRODUCT | UPDATE_PRODUCT | DELETE_PRODUCT
    | SOFT_DELETE_PRODUCT | RESTORE_PRODUCT | PUBLISH_PRODUCT | UNPUBLISH_PRODUCT

  /** The string value of an `ACCESS` member (which is its name). */
  function Value(a: Access): string
  {
    match a
    case SEND_MAIL_TEST => "SEND_MAIL_TEST"
    case CREATE_USER => "CREATE_USER"
    case LIST_USER => "LIST_USER"
    case VIEW_USER => "VIEW_USER"
    case UPDATE_USER => "UPDATE_USER"
    case DELETE_USER => "DELETE_USER"
    case SOFT_DELETE_USER => "SOFT_DELETE_USER"
    case RESTORE_USER => "RESTORE_USER"
    case LIST_ROLE => "LIST_ROLE"
    case LIST_PERMISSION => "LIST_PERMISSION"
    case CREATE_ROLE => "CREATE_ROLE"
    case UPDATE_ROLE => "UPDATE_ROLE"
    case DELETE_ROLE => "DELETE_ROLE"
    case UPLOAD_FILE => "UPLOAD_FILE"
    case CREATE_PRODUCT => "CREATE_PRODUCT"
    case LIST_PRODUCT => "LIST_PRODUCT"
    case VIEW_PRODUCT => "VIEW_PRODUCT"
    case UPDATE_PRODUCT => "UPDATE_PRODUCT"
    case DELETE_PRODUCT => "DELETE_PRODUCT"
    case SOFT_DELETE_PRODUCT => "SOFT_DELETE_PRODUCT"
    case RESTORE_PRODUCT => "RESTORE_PRODUCT"
    case PUBLISH_PRODUCT => "PUBLISH_PRODUCT"
    case UNPUBLISH_PRODUCT => "UNPUBLISH_PRODUCT"
  }

  /** `Object.values(ACCESS)`, in declaration order. */
  const ALL: seq<Access> := [
    SEND_MAIL_TEST,
    CREATE_USER, LIST_USER, VIEW_USER, UPDATE_USER, DELETE_USER, SOFT_DELETE_USER, RESTORE_USER,
    LIST_ROLE, LIST_PERMISSION, CREATE_ROLE, UPDATE_ROLE, DELETE_ROLE,
    UPLOAD_FILE,
    CREATE_PRODUCT, LIST_PRODUCT, VIEW_PRODUCT, UPDATE_PRODUCT, DELETE_PRODUCT,
    SOFT_DELETE_PRODUCT, RESTORE_PRODUCT, PUBLISH_PRODUCT, UNPUBLISH_PRODUCT
  ]

  function Values(xs: seq<Access>): (r: seq<string>)
    ensures |r| == |xs|
    ensures forall i :: 0 <= i < |xs| ==> r[i] == Value(xs[i])
  {
    seq(|xs|, i requires 0 <= i < |xs| => Value(xs[i]))
  }

  /** The permission strings of every `ACCESS` member. */
  function AllValues(): seq<string>
  {
    Values(ALL)
  }

  /** Reads a permission string back into the enumeration (the inverse of `Value`). */
  function Parse(s: string): (r: Option<Access>)
    ensures r.Some? ==> Value(r.value) == s
  {
    if s == [] then None
    else if s[0] == 'S' then ParseS(s)
    else if s[0] == 'C' then ParseC(s)
    else if s[0] == 'L' then ParseL(s)
    else if s[0] == 'V' then ParseV(s)
    else if s[0] == 'U' then ParseU(s)
    else if s[0] == 'D' then ParseD(s)
    else if s[0] == 'R' then ParseR(s)
    else if s[0] == 'P' then ParseP(s)
    else None
  }

  function ParseS(s: string): (r: Option<Access>)
    ensures r.Some? ==> Value(r.value) == s
  {
    if s == "SEND_MAIL_TEST" then Some(SEND_MAIL_TEST)
    else if s == "SOFT_DELETE_USER" then Some(SOFT_DELETE_USER)
    else if s == "SOFT_DELETE_PRODUCT" then Some(SOFT_DELETE_PRODUCT)
    else None
  }

  function ParseC(s: string): (r: Option<Access>)
    ensures r.Some? ==> Value(r.value) == s
  {
    if s == "CREATE_USER" then Some(CREATE_USER)
    else if s == "CREATE_ROLE" then Some(CREATE_ROLE)
    else if s == "CREATE_PRODUCT" then Some(CREATE_PRODUCT)
    else None
  }

  function ParseL(s: string): (r: Option<Access>)
    ensures r.Some? ==> Value(r.value) == s
  {
    if s == "LIST_USER" then Some(LIST_USER)
    else if s == "LIST_ROLE" then Some(LIST_ROLE)
    else if s == "LIST_PERMISSION" then Some(LIST_PERMISSION)
    else if s == "LIST_PRODUCT" then Some(LIST_PRODUCT)
    else None
  }

  function ParseV(s: string): (r: Option<Access>)
    ensures r.Some? ==> Value(r.value) == s
  {
    if s == "VIEW_USER" then Some(VIEW_USER)
    else if s == "VIEW_PRODUCT" then Some(VIEW_PRODUCT)
    else None
  }

  function ParseU(s: string): (r: Option<Access>)
    ensures r.Some? ==> Value(r.value) == s
  {
    if s == "UPDATE_USER" then Some(UPDATE_USER)
    else if s == "UPDATE_ROLE" then Some(UPDATE_ROLE)
    else if s == "UPLOAD_FILE" then Some(UPLOAD_FILE)
    else if s == "UPDATE_PRODUCT" then Some(UPDATE_PRODUCT)
    else if s == "UNPUBLISH_PRODUCT" then Some(UNPUBLISH_PRODUCT)
    else None
  }

  function ParseD(s: string): (r: Option<Access>)
    ensures r.Some? ==> Value(r.value) == s
  {
    if s == "DELETE_USER" then Some(DELETE_USER)
    else if s == "DELETE_ROLE" then Some(DELETE_ROLE)
    else if s == "DELETE_PRODUCT" then Some(DELETE_PRODUCT)
    else None
  }

  function ParseR(s: string): (r: Option<Access>)
    ensures r.Some? ==> Value(r.value) == s
  {
    if s == "RESTORE_USER" then Some(RESTORE_USER)
    else if s == "RESTORE_PRODUCT" then Some(RESTORE_PRODUCT)
    else None
  }

  function ParseP(s: string): (r: Option<Access>)
    ensures r.Some? ==> Value(r.value) == s
  {
    if s == "PUBLISH_PRODUCT" then Some(PUBLISH_PRODUCT)
    else None
  }

  /** Every member's value reads back as that member. */
  lemma ParseValue(a: Access)
    ensures Parse(Value(a)) == Some(a)
  {
  }

  /** Distinct members have distinct string values. */
  lemma ValueInjective(a: Access, b: Access)
    requires Value(a) == Value(b)
    ensures a == b
  {
    ParseValue(a);
    ParseValue(b);
  }

  /** `IsEnum(ACCESS)` on a string: it is one of the catalogue's values. */
  predicate IsAccessValue(s: string)
  {
    Parse(s).Some?
  }

  lemma IsAccessValueIffListed(s: string)
    ensures IsAccessValue(s) <==> s in AllValues()
  {
    if IsAccessValue(s) {
      var a := Parse(s).value;
      CatalogueComplete(a);
      var k :| 0 <= k < |ALL| && ALL[k] == a;
      assert AllValues()[k] == s;
    }
    if s in AllValues() {
      var k :| 0 <= k < |ALL| && AllValues()[k] == s;
      ParseValue(ALL[k]);
    }
  }

  /** `ACCESS` has 23 members, each listed once in `Object.values(ACCESS)`. */
  lemma CatalogueComplete(a: Access)
    ensures |ALL| == 23 && a in ALL
  {
  }

  lemma {:induction false} CatalogueDistinct()
    ensures Distinct(ALL)
    ensures Distinct(AllValues())
  {
    forall i, j | 0 <= i < j < |ALL| ensures AllValues()[i] != AllValues()[j] {
      if AllValues()[i] == AllValues()[j] {
        ValueInjective(ALL[i], ALL[j]);
        assert false;
      }
    }
  }

  datatype PermissionGroup = PermissionGroup(group: string, permissions: seq<Access>)

  const PERMISSIONS: seq<PermissionGroup> := [
    PermissionGroup("SYSTEM", [SEND_MAIL_TEST]),
    PermissionGroup("USER", [CREATE_USER, LIST_USER, VIEW_USER, UPDATE_USER, DELETE_USER,
                             SOFT_DELETE_USER, RESTORE_USER]),
    PermissionGroup("ROLE", [LIST_ROLE, LIST_PERMISSION, CREATE_ROLE, UPDATE_ROLE, DELETE_ROLE]),
    PermissionGroup("MEDIA", [UPLOAD_FILE]),
    PermissionGroup("PRODUCT", [CREATE_PRODUCT, LIST_PRODUCT, VIEW_PRODUCT, UPDATE_PRODUCT,
                                DELETE_PRODUCT, SOFT_DELETE_PRODUCT, RESTORE_PRODUCT,
                                PUBLISH_PRODUCT, UNPUBLISH_PRODUCT])
  ]

  function Flatten(groups: seq<PermissionGroup>): (r: seq<Access>)
    ensures forall a :: a in r <==> exists g :: g in groups && a in g.permissions
  {
    if groups == [] then [] else groups[0].permissions + Flatten(groups[1..])
  }

  /** The groups, read in order, list the whole catalogue in declaration order: every value exactly once. */
  lemma GroupsPartitionCatalogue()
    ensures Flatten(PERMISSIONS) == ALL
    ensures Distinct(Flatten(PERMISSIONS))
  {
    CatalogueDistinct();
  }

  lemma GroupNamesDistinct()
    ensures |PERMISSIONS| == 5
    ensures forall i, j :: 0 <= i < j < |PERMISSIONS| ==> PERMISSIONS[i].group != PERMISSIONS[j].group
  {
  }
}

=== FILE: role_entity.dfy ===
/**
 * The `role` table's record: a code that is stored trimmed and upper-cased,
 * an optional description and a nullable list of permission strings.
 */
module RoleEntity {
  import opened Common
  import RoleConfig

  const CODE_MAX_LENGTH := 32
  const DESCRIPTION_MAX_LENGTH := 400

  datatype Role = Role(
    id: int,
    code: string,
    description: Option<string>,
    permissions: Option<seq<string>>)

  /** The code column's write transformer: trim, then upper-case. */
  function CodeTo(value: string): (r: string)
    ensures |r| <= |value|
    ensures forall i :: 0 <= i < |r| ==> !IsLower(r[i])
    ensures r == [] || (!IsWhitespace(r[0]) && !IsWhitespace(r[|r| - 1]))
  {
    var t := Trim(value);
    UpperKeepsEdges(t);
    ToUpper(t)
  }

  /** Upper-casing keeps a string free of white space at its two ends. */
  lemma UpperKeepsEdges(t: string)
    requires t == [] || (!IsWhitespace(t[0]) && !IsWhitespace(t[|t| - 1]))
    ensures var r := ToUpper(t);
      r == [] || (!IsWhitespace(r[0]) && !IsWhitespace(r[|r| - 1]))
  {
    if t != [] {
      assert ToUpper(t)[0] == UpperChar(t[0]);
      assert ToUpper(t)[|t| - 1] == UpperChar(t[|t| - 1]);
    }
  }

  /** The code column's read transformer leaves the stored text as it is. */
  function CodeFrom(value: string): (r: string)
    ensures |r| == |value| && forall i :: 0 <= i < |r| ==> r[i] == value[i]
  {
    value
  }

  /** Normalising a code a second time changes nothing. */
  lemma {:induction false} CodeToIdempotent(value: string)
    ensures CodeTo(CodeTo(value)) == CodeTo(value)
  {
    var t := Trim(value);
    TrimToUpper(t);
    TrimIdempotent(value);
    ToUpperIdempotent(t);
  }

  /** A code already made of A-Z letters is stored exactly as given. */
  lemma CodeToKeepsUppercase(value: string)
    requires forall i :: 0 <= i < |value| ==> IsUpper(value[i])
    ensures CodeTo(value) == value
  {
    forall i | 0 <= i < |value| ensures !IsWhitespace(value[i]) {
      UpperIsNotWhitespace(value[i]);
    }
    TrimNoWhitespace(value);
    assert Trim(value) == value;
    assert ToUpper(value) == value;
  }

  /**
   * What the write transformer stores: the input with the white space at its
   * two ends removed, each remaining character upper-cased.
   */
  lemma CodeToUpperCasesTrimmed(value: string)
    ensures exists k ::
      && SliceBetweenWhitespace(value, Trim(value), k)
      && |CodeTo(value)| == |Trim(value)|
      && (forall i :: 0 <= i < |CodeTo(value)| ==> CodeTo(value)[i] == UpperChar(value[k + i]))
  {
    var t := Trim(value);
    TrimRemovesOnlyEdges(value);
    var k :| SliceBetweenWhitespace(value, t, k);
    assert CodeTo(value) == ToUpper(t);
    UpperOfSlice(value, t, k);
  }

  lemma UpperOfSlice(value: string, t: string, k: int)
    requires 0 <= k && k + |t| <= |value| && t == value[k..k + |t|]
    ensures forall i :: 0 <= i < |t| ==> ToUpper(t)[i] == UpperChar(value[k + i])
  {
    forall i | 0 <= i < |t| ensures ToUpper(t)[i] == UpperChar(value[k + i]) {
      assert t[i] == value[k + i];
    }
  }

  lemma UpperIsNotWhitespace(c: char)
    requires IsUpper(c)
    ensures !IsWhitespace(c)
  {
  }

  /** The two codes of the role enumeration are stored as they are written. */
  lemma RoleCodesAreNormal()
    ensures CodeTo(RoleConfig.ADMIN_CODE) == RoleConfig.ADMIN_CODE
    ensures CodeTo(RoleConfig.GUEST_CODE) == RoleConfig.GUEST_CODE
  {
    CodeToKeepsUppercase(RoleConfig.ADMIN_CODE);
    CodeToKeepsUppercase(RoleConfig.GUEST_CODE);
  }

  /** A code the write transformer leaves as it is: no lower-case letter, no white space at either end. */
  predicate IsNormalCode(code: string)
  {
    && (forall i :: 0 <= i < |code| ==> !IsLower(code[i]))
    && (code == [] || (!IsWhitespace(code[0]) && !IsWhitespace(code[|code| - 1])))
  }

  /** The transformer's fixed points are exactly the normal codes. */
  lemma {:induction false} NormalCodeIff(code: string)
    ensures CodeTo(code) == code <==> IsNormalCode(code)
  {
    if IsNormalCode(code) {
      assert TrimStart(code) == code;
      assert TrimEnd(code) == code;
      assert Trim(code) == code;
      assert ToUpper(code) == code;
    }
  }

  /** What the column definitions guarantee of a stored row. */
  predicate WellFormed(r: Role)
  {
    && IsNormalCode(r.code)
    && |r.code| <= CODE_MAX_LENGTH
    && (r.description.Some? ==> |r.description.value| <= DESCRIPTION_MAX_LENGTH)
  }

  /** The fields `Object.assign` copies onto a role; absent ones stay as they are. */
  datatype RolePatch = RolePatch(
    code: Option<string>,
    description: Option<Option<string>>,
    permissions: Option<Option<seq<string>>>)

  /** `Role.load`: every field present in the patch overwrites the role's, nothing else changes. */
  function Load(r: Role, u: RolePatch): (r': Role)
    ensures r'.id == r.id
    ensures r'.code == (if u.code.Some? then u.code.value else r.code)
    ensures r'.description == (if u.description.Some? then u.description.value else r.description)
    ensures r'.permissions == (if u.permissions.Some? then u.permissions.value else r.permissions)
  {
    Role(r.id,
         if u.code.Some? then u.code.value else r.code,
         if u.description.Some? then u.description.value else r.description,
         if u.permissions.Some? then u.permissions.value else r.permissions)
  }

  lemma LoadEmptyPatch(r: Role)
    ensures Load(r, RolePatch(None, None, None)) == r
  {
  }
}

=== FILE: role_seeder.dfy ===
/**
 * `RoleSeeder`: at application start it makes sure the ADMINISTRATOR role
 * exists and holds every permission of the catalogue, then that the GUEST
 * role exists. It keeps no state of its own; it works on the role table.
 */
module RoleSeeder {
  import opened Common
  import opened RoleEntity
  import opened RoleConfig
  import opened RoleService

  const ADMIN_DESCRIPTION := "Administrator role with full permissions"
  const GUEST_DESCRIPTION := "Guest role with limited permissions"

  /** `adminRole.permissions.includes(...)` on a null column throws. */
  const NULL_PERMISSIONS := "Cannot read properties of null (reading 'includes')"

  /**
   * The seeder's test for leaving the administrator alone: no catalogue
   * value is missing and the list is exactly as long as the catalogue.
   */
  predicate UpToDate(permissions: seq<string>)
  {
    (forall v :: v in AllValues() ==> v in permissions) && |permissions| == |AllValues()|
  }

  /** The seeder's test holds exactly when the list is a permutation of the catalogue. */
  lemma {:induction false} UpToDateIff(permissions: seq<string>)
    ensures UpToDate(permissions) <==> multiset(permissions) == multiset(AllValues())
  {
    CatalogueDistinct();
    CoverIffPermutation(AllValues(), permissions);
  }

  /** A list with a repeated entry is never up to date, even when it names every permission. */
  lemma {:induction false} RepeatIsNotUpToDate(permissions: seq<string>, i: int, j: int)
    requires 0 <= i < j < |permissions| && permissions[i] == permissions[j]
    ensures !UpToDate(permissions)
  {
    UpToDateIff(permissions);
    CatalogueDistinct();
    if multiset(permissions) == multiset(AllValues()) {
      PermutationOfDistinct(AllValues(), permissions);
    }
  }

  /** The administrator exists and holds exactly the catalogue's permissions, each once. */
  predicate FullAdmin(admin: Option<Role>)
  {
    admin.Some? && admin.value.permissions.Some? && multiset(admin.value.permissions.value) == multiset(AllValues())
  }

  /**
   * `syncAdminRole`: create the administrator with the whole catalogue when
   * it is missing; otherwise rewrite its permissions with the catalogue
   * unless they are already up to date. When it succeeds the administrator
   * holds exactly the catalogue's permissions, each once.
   */
  method SyncAdmin(roles: RoleTable) returns (r: Result<(), HttpError>)
    requires roles.Valid()
    modifies roles
    ensures roles.Valid()
    ensures var admin := old(roles.FindByCode(ADMIN_CODE));
      && (admin.None? ==>
            && r == Ok(())
            && roles.rows == old(roles.rows)[old(roles.nextId) :=
                 Role(old(roles.nextId), ADMIN_CODE, Some(ADMIN_DESCRIPTION), Some(AllValues()))]
            && roles.nextId == old(roles.nextId) + 1)
      && (admin.Some? && admin.value.permissions.None? ==>
            r == Err(RuntimeError(NULL_PERMISSIONS)) && roles.rows == old(roles.rows) && roles.nextId == old(roles.nextId))
      && (admin.Some? && admin.value.permissions.Some? && UpToDate(admin.value.permissions.value) ==>
            r == Ok(()) && roles.rows == old(roles.rows) && roles.nextId == old(roles.nextId))
      && (admin.Some? && admin.value.permissions.Some? && !UpToDate(admin.value.permissions.value) ==>
            && r == Ok(())
            && roles.rows == old(roles.rows)[admin.value.id := admin.value.(permissions := Some(AllValues()))]
            && roles.nextId == old(roles.nextId))
    ensures r.Ok? ==> FullAdmin(roles.FindByCode(ADMIN_CODE))
  {
    RoleCodesAreNormal();
    var admin := roles.FindByCode(ADMIN_CODE);
    if admin.None? {
      var created := roles.Insert(ADMIN_CODE, Some(ADMIN_DESCRIPTION), Some(AllValues()));
      assert roles.rows[created.value.id].code == ADMIN_CODE;
      r := Ok(());
    } else if admin.value.permissions.None? {
      r := Err(RuntimeError(NULL_PERMISSIONS));
    } else if UpToDate(admin.value.permissions.value) {
      UpToDateIff(admin.value.permissions.value);
      r := Ok(());
    } else {
      roles.Put(admin.value.(permissions := Some(AllValues())));
      assert roles.rows[admin.value.id].code == ADMIN_CODE;
      r := Ok(());
    }
  }

  /**
   * `syncGuestRole`: create the guest role, with no permission, when it is
   * missing; an existing guest role is left exactly as it is.
   */
  method SyncGuest(roles: RoleTable)
    requires roles.Valid()
    modifies roles
    ensures roles.Valid()
    ensures old(roles.FindByCode(GUEST_CODE)).Some? ==> roles.rows == old(roles.rows) && roles.nextId == old(roles.nextId)
    ensures old(roles.FindByCode(GUEST_CODE)).None? ==>
      && roles.rows == old(roles.rows)[old(roles.nextId) := Role(old(roles.nextId), GUEST_CODE, Some(GUEST_DESCRIPTION), Some([]))]
      && roles.nextId == old(roles.nextId) + 1
    ensures roles.FindByCode(GUEST_CODE).Some?
    ensures roles.FindByCode(ADMIN_CODE) == old(roles.FindByCode(ADMIN_CODE))
  {
    RoleCodesAreNormal();
    var guest := roles.FindByCode(GUEST_CODE);
    ghost var admin := roles.FindByCode(ADMIN_CODE);
    if guest.None? {
      var created := roles.Insert(GUEST_CODE, Some(GUEST_DESCRIPTION), Some([]));
      assert roles.rows[created.value.id].code == GUEST_CODE;
      if admin.Some? {
        assert admin.value.id in roles.rows && roles.rows[admin.value.id] == admin.value;
        roles.FindsTheRow(ADMIN_CODE, admin.value.id);
      } else {
        assert !roles.CodeTaken(ADMIN_CODE);
      }
    }
  }

  /**
   * `onApplicationBootstrap`: the administrator first, then the guest; a
   * failure of the first step stops the bootstrap. Afterwards both roles
   * exist, the administrator with exactly the catalogue's permissions; so a
   * second run, which starts from that state, writes nothing.
   */
  method Bootstrap(roles: RoleTable) returns (r: Result<(), HttpError>)
    requires roles.Valid()
    modifies roles
    ensures roles.Valid()
    ensures r.Err? ==> roles.rows == old(roles.rows) && roles.nextId == old(roles.nextId)
    ensures r.Ok? ==> roles.FindByCode(GUEST_CODE).Some?
    ensures r.Ok? ==> FullAdmin(roles.FindByCode(ADMIN_CODE))
    ensures old(FullAdmin(roles.FindByCode(ADMIN_CODE))) && old(roles.FindByCode(GUEST_CODE)).Some? ==>
      r == Ok(()) && roles.rows == old(roles.rows) && roles.nextId == old(roles.nextId)
  {
    ghost var admin := roles.FindByCode(ADMIN_CODE);
    if FullAdmin(admin) {
      UpToDateIff(admin.value.permissions.value);
    }
    r := SyncAdmin(roles);
    if r.Err? {
      return;
    }
    SyncGuest(roles);
  }
}

=== FILE: role_service.dfy ===
/**
 * `RoleService` over the `role` table. The table is a map from id to row with
 * the next auto-increment id; the column rules the database enforces (unique
 * code, code and description lengths) are checked where a statement writes,
 * and a statement that breaks one fails with `QueryFailed`.
 */
module RoleService {
  import opened Common
  import opened Js
  import opened RoleEntity
  import opened Listing
  import CreateRoleDto
  import QueryDto

  /**
   * The fields an update writes, already validated. `None` leaves a column
   * alone, `Some(None)` sets it to null.
   */
  datatype RoleUpdate = RoleUpdate(
    code: string,
    description: Option<Option<string>>,
    permissions: Option<Option<seq<string>>>)

  /** One `andWhere` of the listing query. */
  datatype Condition = CodeLike(s: string) | IdIn(ids: seq<int>) | IdNotIn(ids: seq<int>)

  predicate Holds(c: Condition, r: Role)
  {
    match c
    case CodeLike(s) => Like(r.code, s)
    case IdIn(ids) => r.id in ids
    case IdNotIn(ids) => r.id !in ids
  }

  predicate HoldsAll(cs: seq<Condition>, r: Role)
  {
    forall i :: 0 <= i < |cs| ==> Holds(cs[i], r)
  }

  /** The rows a role listing selects: the code contains `s` (when given) and the id lists admit the id. */
  predicate Matches(r: Role, q: QueryDto.QueryParams)
  {
    && (q.s.Some? && q.s.value != "" ==> Like(r.code, q.s.value))
    && IdFilters(r.id, q.inIds, q.notInIds)
  }

  /** The defaults of the listing: page 1, 10 rows, newest (highest id) first. */
  function OrderOf(q: QueryDto.QueryParams): QueryDto.Order
  {
    if q.order.Some? then q.order.value else QueryDto.DESC
  }

  /** Ids are the keys and below the next one; every row is as the columns allow; codes are unique. */
  ghost predicate RowsValid(rows: map<int, Role>, nextId: int)
  {
    && nextId >= 1
    && (forall id :: id in rows ==> 1 <= id < nextId && rows[id].id == id && WellFormed(rows[id]))
    && (forall a, b :: a in rows && b in rows && rows[a].code == rows[b].code ==> a == b)
  }

  /** Adding a well-formed row under the next id, with a code no row has, keeps the table valid. */
  lemma AddRowValid(rows: map<int, Role>, nextId: int, row: Role)
    requires RowsValid(rows, nextId)
    requires row.id == nextId && WellFormed(row)
    requires forall k :: k in rows ==> rows[k].code != row.code
    ensures RowsValid(rows[nextId := row], nextId + 1)
  {
  }

  class RoleTable {
    var rows: map<int, Role>
    var nextId: int

    ghost predicate Valid()
      reads this
    {
      RowsValid(rows, nextId)
    }

    constructor ()
      ensures Valid() && rows == map[] && nextId == 1
    {
      rows := map[];
      nextId := 1;
    }

    predicate CodeTaken(code: string)
      reads this
    {
      exists id :: id in rows && rows[id].code == code
    }

    /** A role other than `id` already has this code. */
    predicate CodeTakenByOther(code: string, id: int)
      reads this
    {
      exists k :: k in rows && k != id && rows[k].code == code
    }

    /** The rows in primary-key order. */
    function AllRows(): (r: seq<Role>)
      reads this
      requires Valid()
      ensures forall i :: 0 <= i < |r| ==> r[i].id in rows && rows[r[i].id] == r[i]
      ensures forall id :: id in rows ==> rows[id] in r
    {
      RowsOf(IdsBelow(rows, nextId))
    }

    function RowsOf(ids: seq<int>): (r: seq<Role>)
      reads this
      requires forall i :: 0 <= i < |ids| ==> ids[i] in rows
      ensures |r| == |ids| && forall i :: 0 <= i < |ids| ==> r[i] == rows[ids[i]]
    {
      if ids == [] then [] else [rows[ids[0]]] + RowsOf(ids[1..])
    }

    /** `findOneBy({ code })`: the code goes through the column's write transformer before it is compared. */
    function FindByCode(code: string): (r: Option<Role>)
      reads this
      requires Valid()
      ensures r.Some? <==> CodeTaken(CodeTo(code))
      ensures r.Some? ==> r.value.id in rows && rows[r.value.id] == r.value && r.value.code == CodeTo(code)
    {
      var id := FirstWithCode(IdsBelow(rows, nextId), CodeTo(code));
      if id.Some? then Some(rows[id.value]) else None
    }

    /** Codes are unique, so the role holding a code is the one `findOneBy` finds. */
    lemma FindsTheRow(code: string, id: int)
      requires Valid()
      requires id in rows && rows[id].code == CodeTo(code)
      ensures FindByCode(code) == Some(rows[id])
    {
      assert CodeTaken(CodeTo(code));
    }

    function FirstWithCode(ids: seq<int>, code: string): (r: Option<int>)
      reads this
      requires forall i :: 0 <= i < |ids| ==> ids[i] in rows
      ensures r.Some? ==> r.value in rows && rows[r.value].code == code
      ensures r.None? ==> forall i :: 0 <= i < |ids| ==> rows[ids[i]].code != code
    {
      if ids == [] then None
      else if rows[ids[0]].code == code then Some(ids[0])
      else FirstWithCode(ids[1..], code)
    }

    /** `findBy({ id: In(ids) })`: exactly the listed roles that exist, each once, by ascending id. */
    function FindAllInIds(ids: seq<int>): (r: seq<Role>)
      reads this
      requires Valid()
      ensures forall i :: 0 <= i < |r| ==> r[i].id in ids && r[i].id in rows && rows[r[i].id] == r[i]
      ensures forall id :: id in ids && id in rows ==> rows[id] in r
      ensures forall i, j :: 0 <= i < j < |r| ==> r[i].id < r[j].id
      ensures |r| <= |ids|
    {
      var all := IdsBelow(rows, nextId);
      var listed := Filter(all, id => id in ids);
      ListedIds(all, ids);
      RowsOf(listed)
    }

    /**
     * `save` of a new role: the code is stored normalised; a value longer
     * than its column or a code already present makes the insert fail and
     * nothing is written. The entity object is returned as it was given,
     * with its new id.
     */
    method Insert(code: string, description: Option<string>, permissions: Option<seq<string>>)
      returns (r: Result<Role, HttpError>)
      requires Valid()
      modifies this
      ensures Valid()
      ensures var c := CodeTo(code);
        if |c| > CODE_MAX_LENGTH || (description.Some? && |description.value| > DESCRIPTION_MAX_LENGTH) then
          r == Err(QueryFailed(ER_DATA_TOO_LONG)) && rows == old(rows) && nextId == old(nextId)
        else if old(CodeTaken(c)) then
          r == Err(QueryFailed(ER_DUP_ENTRY)) && rows == old(rows) && nextId == old(nextId)
        else
          && r == Ok(Role(old(nextId), code, description, permissions))
          && rows == old(rows)[old(nextId) := Role(old(nextId), c, description, permissions)]
          && nextId == old(nextId) + 1
    {
      var c := CodeTo(code);
      if |c| > CODE_MAX_LENGTH || (description.Some? && |description.value| > DESCRIPTION_MAX_LENGTH) {
        return Err(QueryFailed(ER_DATA_TOO_LONG));
      }
      if CodeTaken(c) {
        return Err(QueryFailed(ER_DUP_ENTRY));
      }
      var id := nextId;
      var row := Role(id, c, description, permissions);
      AddRowValid(rows, nextId, row);
      rows := rows[id := row];
      nextId := nextId + 1;
      r := Ok(Role(id, code, description, permissions));
    }

    /**
     * `create`: validate the body, refuse a code that is already in use,
     * otherwise insert exactly one role carrying the given code, description
     * and permissions; a role created this way is the one `findOne` then
     * finds by that code.
     */
    method Create(body: Value) returns (r: Result<Role, HttpError>)
      requires Valid()
      modifies this
      ensures Valid()
      ensures var dto := CreateRoleDto.Validate(body);
        && (dto.Err? ==> r == Err(dto.error) && rows == old(rows) && nextId == old(nextId))
        && (dto.Ok? && old(CodeTaken(dto.value.code)) ==>
              r == Err(BadRequest(ALREADY_EXISTS)) && rows == old(rows) && nextId == old(nextId))
        && (dto.Ok? && !old(CodeTaken(dto.value.code)) && |dto.value.code| > CODE_MAX_LENGTH ==>
              r == Err(QueryFailed(ER_DATA_TOO_LONG)) && rows == old(rows) && nextId == old(nextId))
        && (dto.Ok? && !old(CodeTaken(dto.value.code)) && |dto.value.code| <= CODE_MAX_LENGTH ==>
              && r == Ok(Role(old(nextId), dto.value.code, dto.value.description, dto.value.permissions))
              && rows == old(rows)[old(nextId) := r.value]
              && nextId == old(nextId) + 1
              && FindByCode(dto.value.code) == Some(r.value))
    {
      var dto := CreateRoleDto.Validate(body);
      if dto.Err? {
        return Err(dto.error);
      }
      var existing := FindByCode(dto.value.code);
      if existing.Some? {
        return Err(BadRequest(ALREADY_EXISTS));
      }
      r := Insert(dto.value.code, dto.value.description, dto.value.permissions);
      if r.Ok? {
        assert rows[r.value.id] == r.value;
        assert FindByCode(dto.value.code).Some?;
      }
    }

    /**
     * `findAll`: the conditions are added one `andWhere` at a time, then the
     * matching rows are ordered by id and cut to the requested page; `total`
     * counts every match.
     */
    method FindAll(raw: Value) returns (r: Result<Page<Role>, HttpError>)
      requires Valid()
      ensures var q := QueryDto.Parse(raw, false);
        && (q.Err? ==> r == Err(q.error))
        && (q.Ok? ==> r == Ok(Paginate(Filter(AllRows(), row => Matches(row, q.value)),
                                       OrderOf(q.value), QueryDto.Page(q.value), QueryDto.Limit(q.value))))
    {
      var parsed := QueryDto.Parse(raw, false);
      if parsed.Err? {
        return Err(parsed.error);
      }
      var q := parsed.value;
      var conditions := Conditions(q);
      var all := AllRows();
      FilterCongruent(all, row => HoldsAll(conditions, row), row => Matches(row, q));
      var selected := Filter(all, row => HoldsAll(conditions, row));
      r := Ok(Paginate(selected, OrderOf(q), QueryDto.Page(q), QueryDto.Limit(q)));
    }

    /**
     * `update`: refuse a code another role already has; otherwise write the
     * given columns of the role with that id, answering whether a row matched.
     */
    method Update(id: int, u: RoleUpdate) returns (r: Result<bool, HttpError>)
      requires Valid()
      modifies this
      ensures Valid()
      ensures nextId == old(nextId)
      ensures var c := CodeTo(u.code);
        if old(CodeTakenByOther(c, id)) then
          r == Err(BadRequest(ALREADY_EXISTS)) && rows == old(rows)
        else if id !in old(rows) then
          r == Ok(false) && rows == old(rows)
        else if |c| > CODE_MAX_LENGTH
             || (u.description.Some? && u.description.value.Some? && |u.description.value.value| > DESCRIPTION_MAX_LENGTH) then
          r == Err(QueryFailed(ER_DATA_TOO_LONG)) && rows == old(rows)
        else
          && r == Ok(true)
          && rows == old(rows)[id := Load(old(rows[id]), RolePatch(Some(c), u.description, u.permissions))]
    {
      var c := CodeTo(u.code);
      if CodeTakenByOther(c, id) {
        return Err(BadRequest(ALREADY_EXISTS));
      }
      if id !in rows {
        return Ok(false);
      }
      if |c| > CODE_MAX_LENGTH
         || (u.description.Some? && u.description.value.Some? && |u.description.value.value| > DESCRIPTION_MAX_LENGTH) {
        return Err(QueryFailed(ER_DATA_TOO_LONG));
      }
      var row := Load(rows[id], RolePatch(Some(c), u.description, u.permissions));
      assert row.code == c;
      assert row.id == id;
      assert IsNormalCode(c);
      assert WellFormed(row);
      assert !CodeTakenByOther(row.code, row.id);
      Put(row);
      r := Ok(true);
    }

    /** Writes one well-formed row over the row with its id, keeping the codes unique. */
    method Put(row: Role)
      requires Valid()
      requires row.id in rows && WellFormed(row) && !CodeTakenByOther(row.code, row.id)
      modifies this
      ensures Valid()
      ensures rows == old(rows)[row.id := row] && nextId == old(nextId)
    {
      ghost var before := rows;
      rows := rows[row.id := row];
      forall k | k in rows ensures 1 <= k < nextId && rows[k].id == k && WellFormed(rows[k]) {
        if k != row.id {
          assert rows[k] == before[k];
        }
      }
      forall a, b | a in rows && b in rows && rows[a].code == rows[b].code ensures a == b {
        if a != row.id && b != row.id {
          assert before[a].code == before[b].code;
        }
      }
    }

    /** `remove`: delete the role with that id, answering whether there was one; every other role stays as it was. */
    method Remove(id: int) returns (r: bool)
      requires Valid()
      modifies this
      ensures Valid()
      ensures r == (id in old(rows))
      ensures rows == old(rows) - {id} && nextId == old(nextId)
    {
      r := id in rows;
      rows := rows - {id};
    }
  }

  /**
   * The `andWhere` conditions `findAll` adds, one per filter the query
   * carries; together they select exactly the rows `Matches` describes.
   */
  method Conditions(q: QueryDto.QueryParams) returns (cs: seq<Condition>)
    ensures forall row :: HoldsAll(cs, row) <==> Matches(row, q)
  {
    cs := [];
    if q.s.Some? && q.s.value != "" {
      cs := cs + [CodeLike(q.s.value)];
    }
    ghost var a := cs;
    if |q.inIds| > 0 {
      cs := cs + [IdIn(q.inIds)];
    }
    ghost var ab := cs;
    if |q.notInIds| > 0 {
      cs := cs + [IdNotIn(q.notInIds)];
    }
    forall row: Role ensures HoldsAll(cs, row) <==> Matches(row, q) {
      if a != [] { HoldsAllSingle(a[0], row); }
      if ab != a {
        HoldsAllConcat(a, [IdIn(q.inIds)], row);
        HoldsAllSingle(IdIn(q.inIds), row);
      }
      if cs != ab {
        HoldsAllConcat(ab, [IdNotIn(q.notInIds)], row);
        HoldsAllSingle(IdNotIn(q.notInIds), row);
      }
    }
  }

  /** Keeping the ascending ids that are listed yields each listed id once, in order. */
  lemma {:induction false} ListedIds(all: seq<int>, ids: seq<int>)
    requires Ascending(all)
    ensures var listed := Filter(all, id => id in ids);
      && Ascending(listed)
      && |listed| <= |ids|
      && (forall id :: id in ids && id in all ==> id in listed)
  {
    var listed := Filter(all, id => id in ids);
    FilterAscending(all, id => id in ids);
    DistinctBoundedBySet(listed, set id | id in ids);
    SetOfSeqBound(ids);
    forall id | id in ids && id in all ensures id in listed {
      var k :| 0 <= k < |all| && all[k] == id;
    }
  }

  lemma HoldsAllConcat(a: seq<Condition>, b: seq<Condition>, row: Role)
    ensures HoldsAll(a + b, row) <==> HoldsAll(a, row) && HoldsAll(b, row)
  {
    if HoldsAll(a, row) && HoldsAll(b, row) {
      forall i | 0 <= i < |a + b| ensures Holds((a + b)[i], row) {
        if i >= |a| {
          assert (a + b)[i] == b[i - |a|];
        }
      }
    }
    if HoldsAll(a + b, row) {
      forall i | 0 <= i < |a| ensures Holds(a[i], row) {
        assert (a + b)[i] == a[i];
      }
      forall i | 0 <= i < |b| ensures Holds(b[i], row) {
        assert (a + b)[|a| + i] == b[i];
      }
    }
  }

  lemma HoldsAllSingle(c: Condition, row: Role)
    ensures HoldsAll([c], row) <==> Holds(c, row)
  {
    assert [c][0] == c;
  }
}

=== FILE: string_utils.dfy ===
/**
 * String helpers: stripping Vietnamese accents, turning a title into a URL
 * slug, and capitalising a word. Case mapping is ASCII only.
 */
module StringUtils {
  import opened Common

  const LOWER_A: set<char> := {'à', 'á', 'ạ', 'ả', 'ã', 'â', 'ầ', 'ấ', 'ậ', 'ẩ', 'ẫ', 'ă', 'ằ', 'ắ', 'ặ', 'ẳ', 'ẵ'}
  const LOWER_E: set<char> := {'è', 'é', 'ẹ', 'ẻ', 'ẽ', 'ê', 'ề', 'ế', 'ệ', 'ể', 'ễ'}
  const LOWER_I: set<char> := {'ì', 'í', 'ị', 'ỉ', 'ĩ'}
  const LOWER_O: set<char> := {'ò', 'ó', 'ọ', 'ỏ', 'õ', 'ô', 'ồ', 'ố', 'ộ', 'ổ', 'ỗ', 'ơ', 'ờ', 'ớ', 'ợ', 'ở', 'ỡ'}
  const LOWER_U: set<char> := {'ù', 'ú', 'ụ', 'ủ', 'ũ', 'ư', 'ừ', 'ứ', 'ự', 'ử', 'ữ'}
  const LOWER_Y: set<char> := {'ỳ', 'ý', 'ỵ', 'ỷ', 'ỹ'}
  const LOWER_D: set<char> := {'đ'}
  const UPPER_A: set<char> := {'À', 'Á', 'Ạ', 'Ả', 'Ã', 'Â', 'Ầ', 'Ấ', 'Ậ', 'Ẩ', 'Ẫ', 'Ă', 'Ằ', 'Ắ', 'Ặ', 'Ẳ', 'Ẵ'}
  const UPPER_E: set<char> := {'È', 'É', 'Ẹ', 'Ẻ', 'Ẽ', 'Ê', 'Ề', 'Ế', 'Ệ', 'Ể', 'Ễ'}
  const UPPER_I: set<char> := {'Ì', 'Í', 'Ị', 'Ỉ', 'Ĩ'}
  const UPPER_O: set<char> := {'Ò', 'Ó', 'Ọ', 'Ỏ', 'Õ', 'Ô', 'Ồ', 'Ố', 'Ộ', 'Ổ', 'Ỗ', 'Ơ', 'Ờ', 'Ớ', 'Ợ', 'Ở', 'Ỡ'}
  const UPPER_U: set<char> := {'Ù', 'Ú', 'Ụ', 'Ủ', 'Ũ', 'Ư', 'Ừ', 'Ứ', 'Ự', 'Ử', 'Ữ'}
  const UPPER_Y: set<char> := {'Ỳ', 'Ý', 'Ỵ', 'Ỷ', 'Ỹ'}
  const UPPER_D: set<char> := {'Đ'}

  predicate IsAscii(c: char) { c <= '\U{007F}' }

  /** A listed lower-case letter: a lower-case Vietnamese vowel with a mark, or đ. */
  predicate IsAccentedLower(c: char)
  {
    c in LOWER_A || c in LOWER_E || c in LOWER_I || c in LOWER_O || c in LOWER_U || c in LOWER_Y || c in LOWER_D
  }

  /** A listed upper-case letter: an upper-case Vietnamese vowel with a mark, or Đ. */
  predicate IsAccentedUpper(c: char)
  {
    c in UPPER_A || c in UPPER_E || c in UPPER_I || c in UPPER_O || c in UPPER_U || c in UPPER_Y || c in UPPER_D
  }

  /**
   * The character `removeAccents` leaves in place of `c`, one character at a
   * time: the base letter of the table that lists it, or `c` itself.
   */
  function BaseLetter(c: char): char
  {
    if c in LOWER_A then 'a' else if c in LOWER_E then 'e' else if c in LOWER_I then 'i'
    else if c in LOWER_O then 'o' else if c in LOWER_U then 'u' else if c in LOWER_Y then 'y'
    else if c in LOWER_D then 'd'
    else if c in UPPER_A then 'A' else if c in UPPER_E then 'E' else if c in UPPER_I then 'I'
    else if c in UPPER_O then 'O' else if c in UPPER_U then 'U' else if c in UPPER_Y then 'Y'
    else if c in UPPER_D then 'D'
    else c
  }

  /** No table lists an ASCII character. */
  lemma AsciiUnlisted(c: char)
    requires IsAscii(c)
    ensures !IsAccentedLower(c) && !IsAccentedUpper(c)
  {
    LowerNotAscii(c);
    UpperNotAscii(c);
  }

  lemma LowerNotAscii(c: char)
    ensures IsAccentedLower(c) ==> !IsAscii(c)
  {
  }

  lemma UpperNotAscii(c: char)
    ensures IsAccentedUpper(c) ==> !IsAscii(c)
  {
  }

  /** No letter is listed both in a lower-case and in an upper-case table. */
  lemma CasesDisjoint(c: char)
    ensures !(IsAccentedLower(c) && IsAccentedUpper(c))
  {
    if c in UPPER_A { UpperANotLower(c); }
    else if c in UPPER_O { UpperONotLower(c); }
    else if c in UPPER_E || c in UPPER_U { UpperEUNotLower(c); }
    else if c in UPPER_I || c in UPPER_Y { UpperIYNotLower(c); }
  }

  lemma UpperANotLower(c: char)
    requires c in UPPER_A
    ensures !IsAccentedLower(c)
  {
  }

  lemma UpperONotLower(c: char)
    requires c in UPPER_O
    ensures !IsAccentedLower(c)
  {
  }

  lemma UpperEUNotLower(c: char)
    requires c in UPPER_E || c in UPPER_U
    ensures !IsAccentedLower(c)
  {
  }

  lemma UpperIYNotLower(c: char)
    requires c in UPPER_I || c in UPPER_Y
    ensures !IsAccentedLower(c)
  {
  }

  /**
   * Accents are stripped keeping the case: a listed lower-case letter becomes
   * one of a, e, i, o, u, y, d, a listed upper-case letter one of A, E, I, O,
   * U, Y, D, and every other character is kept.
   */
  lemma {:induction false} BaseLetterKeepsCase(c: char)
    ensures IsAccentedLower(c) ==> BaseLetter(c) in "aeiouyd"
    ensures IsAccentedUpper(c) ==> BaseLetter(c) in "AEIOUYD"
    ensures !IsAccentedLower(c) && !IsAccentedUpper(c) ==> BaseLetter(c) == c
  {
    CasesDisjoint(c);
  }

  /** What `BaseLetter` returns is left alone by a second pass. */
  lemma {:induction false} BaseLetterFixed(c: char)
    ensures BaseLetter(BaseLetter(c)) == BaseLetter(c)
  {
    if IsAccentedLower(c) || IsAccentedUpper(c) {
      AsciiUnlisted(BaseLetter(c));
    }
  }

  /** `s.replace(/x|y|…/g, base)` with the table's letters as the alternatives. */
  function ReplaceEach(s: string, letters: set<char>, base: char): (r: string)
    ensures |r| == |s|
    ensures forall i :: 0 <= i < |s| ==> r[i] == if s[i] in letters then base else s[i]
  {
    seq(|s|, i requires 0 <= i < |s| => if s[i] in letters then base else s[i])
  }

  /** One character through the seven lower-case replacements, in the order they run. */
  function LowerChain(c: char): char
  {
    var c := if c in LOWER_A then 'a' else c;
    var c := if c in LOWER_E then 'e' else c;
    var c := if c in LOWER_I then 'i' else c;
    var c := if c in LOWER_O then 'o' else c;
    var c := if c in LOWER_U then 'u' else c;
    var c := if c in LOWER_Y then 'y' else c;
    if c in LOWER_D then 'd' else c
  }

  /** One character through the seven upper-case replacements, in the order they run. */
  function UpperChain(c: char): char
  {
    var c := if c in UPPER_A then 'A' else c;
    var c := if c in UPPER_E then 'E' else c;
    var c := if c in UPPER_I then 'I' else c;
    var c := if c in UPPER_O then 'O' else c;
    var c := if c in UPPER_U then 'U' else c;
    var c := if c in UPPER_Y then 'Y' else c;
    if c in UPPER_D then 'D' else c
  }

  /** Every replacement writes an ASCII letter no later table lists, so the chain is `BaseLetter`. */
  lemma {:induction false} ChainIsBaseLetter(c: char)
    ensures UpperChain(LowerChain(c)) == BaseLetter(c)
  {
    if IsAccentedLower(c) || IsAccentedUpper(c) {
      AsciiUnlisted('a'); AsciiUnlisted('e'); AsciiUnlisted('i'); AsciiUnlisted('o');
      AsciiUnlisted('u'); AsciiUnlisted('y'); AsciiUnlisted('d');
      AsciiUnlisted('A'); AsciiUnlisted('E'); AsciiUnlisted('I'); AsciiUnlisted('O');
      AsciiUnlisted('U'); AsciiUnlisted('Y');
    }
  }

  /** Lines 9-15 of the replacement chain: the lower-case tables. */
  function RemoveLowerAccents(s: string): (r: string)
    ensures |r| == |s|
    ensures forall i :: 0 <= i < |s| ==> r[i] == LowerChain(s[i])
  {
    var s1 := ReplaceEach(s, LOWER_A, 'a');
    var s2 := ReplaceEach(s1, LOWER_E, 'e');
    var s3 := ReplaceEach(s2, LOWER_I, 'i');
    var s4 := ReplaceEach(s3, LOWER_O, 'o');
    var s5 := ReplaceEach(s4, LOWER_U, 'u');
    var s6 := ReplaceEach(s5, LOWER_Y, 'y');
    ReplaceEach(s6, LOWER_D, 'd')
  }

  /** Lines 16-22 of the replacement chain: the upper-case tables. */
  function RemoveUpperAccents(s: string): (r: string)
    ensures |r| == |s|
    ensures forall i :: 0 <= i < |s| ==> r[i] == UpperChain(s[i])
  {
    var s1 := ReplaceEach(s, UPPER_A, 'A');
    var s2 := ReplaceEach(s1, UPPER_E, 'E');
    var s3 := ReplaceEach(s2, UPPER_I, 'I');
    var s4 := ReplaceEach(s3, UPPER_O, 'O');
    var s5 := ReplaceEach(s4, UPPER_U, 'U');
    var s6 := ReplaceEach(s5, UPPER_Y, 'Y');
    ReplaceEach(s6, UPPER_D, 'D')
  }

  /**
   * `removeAccents`: the chain of fourteen replacements. Its effect is
   * `BaseLetter` on every character, so the length never changes.
   */
  function RemoveAccents(s: string): (r: string)
    ensures |r| == |s|
    ensures forall i :: 0 <= i < |s| ==> r[i] == BaseLetter(s[i])
  {
    var r := RemoveUpperAccents(RemoveLowerAccents(s));
    forall i | 0 <= i < |s| ensures r[i] == BaseLetter(s[i]) {
      ChainIsBaseLetter(s[i]);
    }
    r
  }

  /** Stripping accents twice is stripping them once. */
  lemma {:induction false} RemoveAccentsIdempotent(s: string)
    ensures RemoveAccents(RemoveAccents(s)) == RemoveAccents(s)
  {
    forall i | 0 <= i < |s|
      ensures RemoveAccents(RemoveAccents(s))[i] == RemoveAccents(s)[i]
    {
      BaseLetterFixed(s[i]);
    }
  }

  /** `\w`: an ASCII letter, digit or underscore. */
  predicate IsWordChar(c: char)
  {
    IsUpper(c) || IsLower(c) || IsDigit(c) || c == '_'
  }

  /** What a slug is made of: lower-case letters, digits, `_` and `-`. */
  predicate IsSlugChar(c: char)
  {
    IsLower(c) || IsDigit(c) || c == '_' || c == '-'
  }

  /** The characters of `s` other than `c`, in order. */
  function Without(s: string, c: char): (r: string)
    ensures c !in r
    decreases |s|
  {
    if s == [] then [] else (if s[0] == c then [] else [s[0]]) + Without(s[1..], c)
  }

  /**
   * `.replace(/[^\w ]+/g, '')`: every character that is neither a word
   * character nor a space is dropped, the others are kept in order.
   */
  function KeepWordsAndSpaces(s: string): (r: string)
    ensures |r| <= |s|
    ensures forall i :: 0 <= i < |r| ==> IsWordChar(r[i]) || r[i] == ' '
    ensures (forall i :: 0 <= i < |s| ==> IsWordChar(s[i]) || s[i] == ' ') ==> r == s
    ensures (forall i :: 0 <= i < |s| ==> !IsUpper(s[i])) ==> forall i :: 0 <= i < |r| ==> !IsUpper(r[i])
    decreases |s|
  {
    if s == [] then []
    else (if IsWordChar(s[0]) || s[0] == ' ' then [s[0]] else []) + KeepWordsAndSpaces(s[1..])
  }

  /** `s` with its leading spaces removed. */
  function SkipSpaces(s: string): (r: string)
    ensures |r| <= |s| && r == s[|s| - |r|..]
    ensures r == [] || r[0] != ' '
    ensures s != [] && s[0] == ' ' ==> |r| < |s|
    decreases |s|
  {
    if s != [] && s[0] == ' ' then SkipSpaces(s[1..]) else s
  }

  /** `.replace(/ +/g, '-')`: each run of spaces becomes a single hyphen. */
  function HyphenateSpaces(s: string): (r: string)
    decreases |s|
  {
    if s == [] then []
    else if s[0] == ' ' then "-" + HyphenateSpaces(SkipSpaces(s))
    else [s[0]] + HyphenateSpaces(s[1..])
  }

  /** No hyphen directly follows another. */
  predicate NoDoubleHyphen(s: string)
  {
    forall i :: 0 <= i < |s| - 1 ==> !(s[i] == '-' && s[i + 1] == '-')
  }

  lemma {:induction false} WithoutConcat(a: string, b: string, c: char)
    ensures Without(a + b, c) == Without(a, c) + Without(b, c)
    decreases |a|
  {
    if a != [] {
      assert (a + b)[1..] == a[1..] + b;
      WithoutConcat(a[1..], b, c);
    } else {
      assert a + b == b;
    }
  }

  /** Every character hyphenation puts out is a hyphen or a non-space character of its input. */
  lemma {:induction false} HyphenateChars(s: string)
    ensures forall c :: c in HyphenateSpaces(s) ==> c == '-' || (c != ' ' && c in s)
    decreases |s|
  {
    if s != [] {
      var t := if s[0] == ' ' then SkipSpaces(s) else s[1..];
      HyphenateChars(t);
      assert forall c :: c in t ==> c in s;
    }
  }

  /** On text without hyphens, no hyphen follows another in the result. */
  lemma {:induction false} HyphenateNoDouble(s: string)
    requires '-' !in s
    ensures NoDoubleHyphen(HyphenateSpaces(s))
    ensures s != [] && s[0] != ' ' ==> HyphenateSpaces(s)[0] == s[0]
    decreases |s|
  {
    if s != [] {
      var t := if s[0] == ' ' then SkipSpaces(s) else s[1..];
      assert '-' !in t by { assert forall c :: c in t ==> c in s; }
      HyphenateNoDouble(t);
      if s[0] == ' ' && t != [] {
        assert t[0] in s;
      }
    }
  }

  /** On text without hyphens, the result has a hyphen exactly when the text has a space. */
  lemma {:induction false} HyphenateHasHyphen(s: string)
    requires '-' !in s
    ensures '-' in HyphenateSpaces(s) <==> ' ' in s
    decreases |s|
  {
    if s != [] && s[0] != ' ' {
      assert '-' !in s[1..] by { assert forall c :: c in s[1..] ==> c in s; }
      HyphenateHasHyphen(s[1..]);
      assert ' ' in s <==> ' ' in s[1..];
    }
  }

  /** On text without hyphens, dropping the hyphens of the result gives the non-space characters of the text. */
  lemma {:induction false} HyphenateKeepsWords(s: string)
    requires '-' !in s
    ensures Without(HyphenateSpaces(s), '-') == Without(s, ' ')
    decreases |s|
  {
    if s != [] {
      var t := if s[0] == ' ' then SkipSpaces(s) else s[1..];
      assert '-' !in t by { assert forall c :: c in t ==> c in s; }
      HyphenateKeepsWords(t);
      if s[0] == ' ' {
        WithoutConcat("-", HyphenateSpaces(t), '-');
        WithoutLeadingSpaces(s);
      } else {
        WithoutConcat([s[0]], HyphenateSpaces(t), '-');
      }
    }
  }

  /** Leading spaces make no difference to the non-space characters. */
  lemma {:induction false} WithoutLeadingSpaces(s: string)
    ensures Without(SkipSpaces(s), ' ') == Without(s, ' ')
    decreases |s|
  {
    if s != [] && s[0] == ' ' {
      WithoutLeadingSpaces(s[1..]);
    }
  }

  /**
   * `w` with every space that follows a space dropped, so that each run of
   * spaces is cut down to its first space; `afterSpace` says whether the
   * character before `w` was a space.
   */
  function SqueezeAfter(w: string, afterSpace: bool): (r: string)
    ensures |r| <= |w|
    ensures afterSpace && r != [] ==> r[0] != ' '
    ensures forall i :: 0 <= i < |r| - 1 ==> !(r[i] == ' ' && r[i + 1] == ' ')
    decreases |w|
  {
    if w == [] then []
    else if w[0] == ' ' && afterSpace then SqueezeAfter(w[1..], true)
    else [w[0]] + SqueezeAfter(w[1..], w[0] == ' ')
  }

  function Squeeze(w: string): (r: string)
  {
    SqueezeAfter(w, false)
  }

  /** Every space replaced by a hyphen, every other character kept. */
  function SpacesToHyphens(c: string): (r: string)
    ensures |r| == |c| && forall i :: 0 <= i < |c| ==> r[i] == (if c[i] == ' ' then '-' else c[i])
  {
    seq(|c|, i requires 0 <= i < |c| => if c[i] == ' ' then '-' else c[i])
  }

  lemma SpacesToHyphensConcat(a: string, b: string)
    ensures SpacesToHyphens(a + b) == SpacesToHyphens(a) + SpacesToHyphens(b)
  {
  }

  /** After a space, the squeezed rest is the squeezed text from its first non-space on. */
  lemma {:induction false} SqueezeAfterSpace(s: string)
    ensures SqueezeAfter(s, true) == Squeeze(SkipSpaces(s))
    decreases |s|
  {
    if s != [] && s[0] == ' ' {
      SqueezeAfterSpace(s[1..]);
    }
  }

  /** Squeezing a text that starts with a space keeps that one space and skips the rest of its run. */
  lemma SqueezeLeadingSpace(w: string)
    requires w != [] && w[0] == ' '
    ensures Squeeze(w) == [' '] + Squeeze(SkipSpaces(w))
  {
    assert SkipSpaces(w[1..]) == SkipSpaces(w);
    SqueezeAfterSpace(w[1..]);
  }

  lemma SpacesToHyphensCons(c: char, x: string)
    ensures SpacesToHyphens([c] + x) == [if c == ' ' then '-' else c] + SpacesToHyphens(x)
  {
    SpacesToHyphensConcat([c], x);
  }

  /** Inductive step of `HyphenateIsSqueezedRuns` for a leading run of spaces. */
  lemma HyphenateSqueezeSpaceStep(w: string)
    requires w != [] && w[0] == ' '
    requires HyphenateSpaces(SkipSpaces(w)) == SpacesToHyphens(Squeeze(SkipSpaces(w)))
    ensures HyphenateSpaces(w) == SpacesToHyphens(Squeeze(w))
  {
    var t := SkipSpaces(w);
    SqueezeLeadingSpace(w);
    SpacesToHyphensCons(' ', Squeeze(t));
  }

  /** Inductive step of `HyphenateIsSqueezedRuns` for a leading non-space. */
  lemma HyphenateSqueezeCharStep(w: string)
    requires w != [] && w[0] != ' '
    requires HyphenateSpaces(w[1..]) == SpacesToHyphens(Squeeze(w[1..]))
    ensures HyphenateSpaces(w) == SpacesToHyphens(Squeeze(w))
  {
    assert Squeeze(w) == [w[0]] + Squeeze(w[1..]);
    SpacesToHyphensCons(w[0], Squeeze(w[1..]));
  }

  /**
   * `.replace(/ +/g, '-')` is the same as squeezing each run of spaces to one
   * space and then turning every space into a hyphen: each run of spaces
   * becomes exactly one hyphen, in its place, and nothing else changes.
   */
  lemma {:induction false} HyphenateIsSqueezedRuns(w: string)
    ensures HyphenateSpaces(w) == SpacesToHyphens(Squeeze(w))
    decreases |w|
  {
    if w == [] {
    } else if w[0] == ' ' {
      HyphenateIsSqueezedRuns(SkipSpaces(w));
      HyphenateSqueezeSpaceStep(w);
    } else {
      HyphenateIsSqueezedRuns(w[1..]);
      HyphenateSqueezeCharStep(w);
    }
  }

  /** The text `convertToSlug` hyphenates: accents stripped, lower-cased, filtered. */
  function SlugWords(text: string): (r: string)
    ensures IsCleaned(r)
  {
    KeepWordsAndSpaces(ToLower(RemoveAccents(text)))
  }

  /** What a cleaned text is made of: lower-case letters, digits, `_` and spaces. */
  predicate IsCleaned(w: string)
  {
    forall i :: 0 <= i < |w| ==> IsLower(w[i]) || IsDigit(w[i]) || w[i] == '_' || w[i] == ' '
  }

  /** The final `trim` finds no white space at either end of a hyphenated cleaned text. */
  lemma {:induction false} SlugTrimIsNoOp(w: string)
    requires IsCleaned(w)
    ensures Trim(HyphenateSpaces(w)) == HyphenateSpaces(w)
  {
    var h := HyphenateSpaces(w);
    HyphenateChars(w);
    forall i | 0 <= i < |h|
      ensures !IsWhitespace(h[i])
    {
      assert h[i] in h;
    }
    TrimNoWhitespace(h);
  }

  /** Hyphenating a cleaned text, the step before `convertToSlug`'s final `trim`. */
  lemma {:induction false} HyphenatedSlug(w: string)
    requires IsCleaned(w)
    ensures var h := HyphenateSpaces(w);
      && (forall i :: 0 <= i < |h| ==> IsSlugChar(h[i]))
      && NoDoubleHyphen(h)
      && ('-' in h <==> ' ' in w)
      && Without(h, '-') == Without(w, ' ')
  {
    assert '-' !in w;
    HyphenateChars(w);
    HyphenateNoDouble(w);
    HyphenateHasHyphen(w);
    HyphenateKeepsWords(w);
    var h := HyphenateSpaces(w);
    assert forall i :: 0 <= i < |h| ==> h[i] in h;
  }

  /**
   * `convertToSlug`: the cleaned text with each run of spaces turned into
   * one hyphen in its place. So it holds only lower-case letters, digits,
   * `_` and `-`; never two hyphens in a row; a hyphen iff the cleaned text
   * had a space; and the letters, digits and underscores of the cleaned
   * text, in order, once the hyphens are removed.
   */
  function ConvertToSlug(text: string): (r: string)
    ensures r == SpacesToHyphens(Squeeze(SlugWords(text)))
    ensures forall i :: 0 <= i < |r| ==> IsSlugChar(r[i])
    ensures NoDoubleHyphen(r)
    ensures '-' in r <==> ' ' in SlugWords(text)
    ensures Without(r, '-') == Without(SlugWords(text), ' ')
  {
    var w := SlugWords(text);
    HyphenateIsSqueezedRuns(w);
    HyphenatedSlug(w);
    SlugTrimIsNoOp(w);
    Trim(HyphenateSpaces(w))
  }

  /** `capitalize`: the first character upper-cased, the rest lower-cased; "" stays "". */
  function Capitalize(text: string): (r: string)
    ensures |r| == |text|
    ensures text != [] ==> r[0] == UpperChar(text[0]) && !IsLower(r[0])
    ensures forall i :: 1 <= i < |r| ==> r[i] == LowerChar(text[i]) && !IsUpper(r[i])
  {
    if text == [] then []
    else
      var rest := ToLower(text[1..]);
      assert forall i :: 1 <= i < |text| ==> rest[i - 1] == LowerChar(text[i]);
      [UpperChar(text[0])] + rest
  }

  /** Capitalising ignores the case the text came in, and is idempotent. */
  lemma {:induction false} CapitalizeIgnoresCase(text: string)
    ensures Capitalize(ToLower(text)) == Capitalize(text)
    ensures Capitalize(ToUpper(text)) == Capitalize(text)
    ensures Capitalize(Capitalize(text)) == Capitalize(text)
  {
    if text != [] {
      assert ToLower(text)[1..] == ToLower(text[1..]);
      assert ToUpper(text)[1..] == ToUpper(text[1..]);
      assert Capitalize(text)[1..] == ToLower(text[1..]);
      forall i | 0 <= i < |text| - 1
        ensures ToLower(ToUpper(text[1..]))[i] == ToLower(text[1..])[i]
      {
      }
    }
  }
}

=== FILE: update_user_dto.dfy ===
/**
 * `UpdateUserDto` (the fields of `CreateUserDto` without password and e-mail,
 * each made optional) and `SetPasswordDto` (a new password and its
 * confirmation). `UpdateMyProfileDto` declares no field at all.
 */
module UpdateUserDto {
  import opened Common
  import opened Js
  import opened DtoRules
  import RegexUtils
  import CreateUserDto

  /**
   * A validated update. `username` is `None` when the request left it out
   * and `Some(None)` when it sent `null` (which `@IsOptional` lets through).
   */
  datatype Dto = Dto(username: Option<Option<string>>, roleIds: Option<seq<int>>, isActive: Option<bool>)

  /** Each constraint of `CreateUserDto` behind `@IsOptional()`: `null` and `undefined` skip it. */
  predicate Optional(v: Value, ok: bool)
  {
    IsNullish(v) || ok
  }

  function Validate(body: Value): (r: Result<Dto, HttpError>)
    ensures r.Ok? <==>
      && Optional(Get(body, "username"), CreateUserDto.UsernameOk(Get(body, "username")))
      && Optional(Get(body, "roleIds"), CreateUserDto.RoleIdsOk(Get(body, "roleIds")))
      && CreateUserDto.IsActiveOk(Get(body, "isActive"))
    ensures r.Err? ==> r.error == BadRequest(VALIDATION_FAILED)
    ensures r.Ok? && r.value.username.Some? && r.value.username.value.Some? ==>
      var s := r.value.username.value.value;
      Get(body, "username") == Str(s) && s != "" && |s| <= CreateUserDto.IDENT_MAX_LENGTH
    ensures r.Ok? ==> (r.value.username.None? <==> Get(body, "username") == Undefined)
    ensures r.Ok? ==> (r.value.username == Some(None) <==> Get(body, "username") == Null)
    ensures r.Ok? && r.value.roleIds.Some? ==> r.value.roleIds.value != []
    ensures r.Ok? ==> (r.value.roleIds.None? <==> IsNullish(Get(body, "roleIds")))
  {
    var username := Get(body, "username");
    var roleIds := Get(body, "roleIds");
    var isActive := Get(body, "isActive");
    if Optional(username, CreateUserDto.UsernameOk(username))
       && Optional(roleIds, CreateUserDto.RoleIdsOk(roleIds))
       && CreateUserDto.IsActiveOk(isActive)
    then
      Ok(Dto(
        if username.Undefined? then None else if username.Null? then Some(None) else Some(Some(username.s)),
        if roleIds.Arr? then Some(IntsOf(roleIds.items)) else None,
        if isActive.Bool? then Some(isActive.b) else None))
    else Err(BadRequest(VALIDATION_FAILED))
  }

  /** Every body `CreateUserDto` accepts is accepted here too, with the same username, role ids and flag. */
  lemma {:induction false} CreateBodyIsUpdateBody(body: Value, isEmail: string -> bool)
    requires CreateUserDto.Validate(body, isEmail).Ok?
    ensures Validate(body).Ok?
    ensures var c := CreateUserDto.Validate(body, isEmail).value;
      Validate(body).value == Dto(Some(Some(c.username)), Some(c.roleIds), c.isActive)
  {
    var c := CreateUserDto.Validate(body, isEmail).value;
    var u := Validate(body).value;
    assert Get(body, "roleIds") == Arr(Nums(c.roleIds));
    assert u.roleIds.value == c.roleIds;
  }

  /** E-mail and password are not fields of the update: sending them changes nothing. */
  lemma DropsEmailAndPassword(fields: seq<Field>, email: Value, password: Value)
    ensures Validate(Obj([Field("email", email), Field("password", password)] + fields)) == Validate(Obj(fields))
  {
    var fs := [Field("email", email), Field("password", password)] + fields;
    assert fs[1..][1..] == fields;
    forall k | k in {"username", "roleIds", "isActive"} ensures Get(Obj(fs), k) == Get(Obj(fields), k) {
      assert Lookup(fs, k) == Lookup(fs[1..], k) == Lookup(fields, k);
    }
  }

  /** An empty body is a valid update that changes nothing. */
  lemma EmptyBodyIsEmptyUpdate()
    ensures Validate(Obj([])) == Ok(Dto(None, None, None))
  {
  }

  // ----- SetPasswordDto -----

  datatype SetPassword = SetPassword(newPassword: string, confirmPassword: string)

  function ValidateSetPassword(body: Value): (r: Result<SetPassword, HttpError>)
    ensures r.Ok? <==>
      && IsPassword(Get(body, "newPassword"))
      && IsPassword(Get(body, "confirmPassword"))
      && Confirm(body, "confirmPassword", "newPassword")
    ensures r.Err? ==> r.error == BadRequest(VALIDATION_FAILED)
    ensures r.Ok? ==> r.value.newPassword == r.value.confirmPassword
    ensures r.Ok? ==> Get(body, "newPassword") == Str(r.value.newPassword)
    ensures r.Ok? ==> PASSWORD_MIN_LENGTH <= |r.value.newPassword| <= PASSWORD_MAX_LENGTH
    ensures r.Ok? ==> RegexUtils.ContainsNoWhitespace(r.value.newPassword)
  {
    var p := Get(body, "newPassword");
    var c := Get(body, "confirmPassword");
    if IsPassword(p) && IsPassword(c) && Confirm(body, "confirmPassword", "newPassword") then
      ConfirmIff(body, "confirmPassword", "newPassword");
      Ok(SetPassword(p.s, c.s))
    else Err(BadRequest(VALIDATION_FAILED))
  }

  /** Two different passwords are refused. */
  lemma MismatchRefused(body: Value)
    requires Get(body, "newPassword").Str? && Get(body, "confirmPassword").Str?
    requires Get(body, "newPassword") != Get(body, "confirmPassword")
    ensures ValidateSetPassword(body).Err?
  {
  }
}

=== FILE: user_command.dfy ===
/**
 * The `init:user <email> <password>` console command: it checks its two
 * arguments, looks up the ADMINISTRATOR role and an existing user with the
 * e-mail, and saves an active administrator. Every failure is caught and
 * logged, never rethrown; the methods return the outcome the command logs.
 */
module UserCommand {
  import opened Common
  import opened RoleEntity
  import opened UserEntity
  import opened UserService
  import RoleConfig

  const EMAIL_INVALID := "Email invalid!"
  const PASSWORD_HAS_SPACE := "Password cannot contain spaces!"
  const PASSWORD_TOO_SHORT := "Password must be at least 3 characters!"
  const ADMIN_ROLE_MISSING := "ADMINISTRATOR role not found!"
  const EMAIL_EXISTS := "User with this email already exists!"

  const PASSWORD_MIN_LENGTH := 3

  /**
   * The checks before the save, in the command's order: a valid e-mail, a
   * password without a space and of at least three characters, an existing
   * ADMINISTRATOR role, and no live user with the e-mail. Passing them gives
   * the administrator role.
   */
  function Precheck(users: UserTable, email: string, password: string, isEmail: string -> bool): (r: Result<Role, HttpError>)
    reads users, users.roles
    requires users.Valid() && users.roles.Valid()
    ensures !isEmail(email) ==> r == Err(BadRequest(EMAIL_INVALID))
    ensures isEmail(email) && ' ' in password ==> r == Err(BadRequest(PASSWORD_HAS_SPACE))
    ensures isEmail(email) && ' ' !in password && |password| < PASSWORD_MIN_LENGTH ==> r == Err(BadRequest(PASSWORD_TOO_SHORT))
    ensures r.Ok? <==>
      && isEmail(email) && ' ' !in password && |password| >= PASSWORD_MIN_LENGTH
      && users.roles.FindByCode(RoleConfig.ADMIN_CODE).Some?
      && users.FindOne(ByEmail(email), false).None?
    ensures r.Ok? ==> Some(r.value) == users.roles.FindByCode(RoleConfig.ADMIN_CODE)
    ensures (r.Err? && r.error != BadRequest(EMAIL_INVALID) && r.error != BadRequest(PASSWORD_HAS_SPACE)
             && r.error != BadRequest(PASSWORD_TOO_SHORT)) ==>
      if users.roles.FindByCode(RoleConfig.ADMIN_CODE).None? then r == Err(BadRequest(ADMIN_ROLE_MISSING))
      else r == Err(BadRequest(EMAIL_EXISTS))
  {
    if !isEmail(email) then Err(BadRequest(EMAIL_INVALID))
    else if ' ' in password then Err(BadRequest(PASSWORD_HAS_SPACE))
    else if |password| < PASSWORD_MIN_LENGTH then Err(BadRequest(PASSWORD_TOO_SHORT))
    else
      var admin := users.roles.FindByCode(RoleConfig.ADMIN_CODE);
      if admin.None? then Err(BadRequest(ADMIN_ROLE_MISSING))
      else if users.FindOne(ByEmail(email), false).Some? then Err(BadRequest(EMAIL_EXISTS))
      else Ok(admin.value)
  }

  /**
   * `initUser` as written: after the checks it saves a user with an e-mail,
   * a password, the administrator role and `is_active` set, but no username.
   * The username column is NOT NULL without a default, so the save always
   * fails and the command never creates anyone.
   */
  method InitUser(users: UserTable, email: string, password: string, isEmail: string -> bool, hash: string -> string)
    returns (r: Result<User, HttpError>)
    requires users.Valid() && users.roles.Valid()
    modifies users
    ensures users.Valid()
    ensures old(Precheck(users, email, password, isEmail)).Err? ==> r == Err(old(Precheck(users, email, password, isEmail)).error)
    ensures old(Precheck(users, email, password, isEmail)).Ok? ==> r == Err(QueryFailed(ER_NO_DEFAULT_FOR_FIELD))
    ensures r.Err? && users.rows == old(users.rows) && users.nextId == old(users.nextId)
  {
    var admin := Precheck(users, email, password, isEmail);
    if admin.Err? {
      return Err(admin.error);
    }
    r := users.Insert(Some(email), None, Some(password), Some(true), [admin.value], hash);
  }

  /**
   * `initUser` with the username the save needs: after the same checks it
   * creates exactly one user, active, whose only role is ADMINISTRATOR, and
   * it succeeds whenever the row fits the table.
   */
  method InitUserWithUsername(users: UserTable, email: string, username: string, password: string,
                              isEmail: string -> bool, hash: string -> string)
    returns (r: Result<User, HttpError>)
    requires users.Valid() && users.roles.Valid()
    modifies users
    ensures users.Valid()
    ensures old(Precheck(users, email, password, isEmail)).Err? ==>
      r == Err(old(Precheck(users, email, password, isEmail)).error) && users.rows == old(users.rows)
    ensures old(Precheck(users, email, password, isEmail)).Ok? && Insertable(old(users.rows), email, username, hash(password)) ==> r.Ok?
    ensures r.Err? ==> users.rows == old(users.rows) && users.nextId == old(users.nextId)
    ensures r.Ok? ==>
      && var id := old(users.nextId);
      && r.value.id == id && id in users.rows
      && users.rows == old(users.rows)[id := users.rows[id]]
      && users.rows[id].email == IdentTo(Some(email)).value
      && users.rows[id].username == IdentTo(Some(username)).value
      && users.rows[id].password == hash(password)
      && users.rows[id].isActive
      && users.rows[id].deletedAt.None?
      && users.roles.FindByCode(RoleConfig.ADMIN_CODE).Some?
      && users.rows[id].roleIds == [users.roles.FindByCode(RoleConfig.ADMIN_CODE).value.id]
  {
    var admin := Precheck(users, email, password, isEmail);
    if admin.Err? {
      return Err(admin.error);
    }
    r := users.Insert(Some(email), Some(username), Some(password), Some(true), [admin.value], hash);
  }
}

=== FILE: user_entity.dfy ===
/**
 * The `user` table's record: e-mail and username stored trimmed and
 * lower-cased, a password column that is hashed before every write and left
 * out of default selections, an activity flag that defaults to false, the
 * eagerly loaded roles and the soft-delete timestamp.
 */
module UserEntity {
  import opened Common
  import opened RoleEntity

  const IDENT_MAX_LENGTH := 191

  /** `is_active` when the insert does not give one. */
  const IS_ACTIVE_DEFAULT := false

  datatype User = User(
    id: int,
    email: string,
    username: string,
      /** `None` when the column was not selected (it is `select: false`). */
    password: Option<string>,
    isActive: bool,
    roles: seq<Role>,
      /** The `deleted_at` column: the soft-delete time, `None` for a live row. */
    deletedAt: Option<int>)

  /**
   * The write transformer of the e-mail and username columns: a truthy string
   * is trimmed and lower-cased, the empty string and an absent value pass.
   */
  function IdentTo(value: Option<string>): (r: Option<string>)
    ensures value.None? ==> r.None?
    ensures value.Some? ==> r.Some? && |r.value| <= |value.value|
    ensures value == Some("") ==> r == value
    ensures r.Some? ==> forall i :: 0 <= i < |r.value| ==> !IsUpper(r.value[i])
    ensures r.Some? && r.value != [] ==> !IsWhitespace(r.value[0]) && !IsWhitespace(r.value[|r.value| - 1])
  {
    match value
    case None => None
    case Some(s) => if s == [] then value else Some(LowerTrimmed(s))
  }

  /** `value.trim().toLowerCase()`. */
  function LowerTrimmed(value: string): (r: string)
    ensures |r| <= |value|
    ensures forall i :: 0 <= i < |r| ==> !IsUpper(r[i])
    ensures r == [] || (!IsWhitespace(r[0]) && !IsWhitespace(r[|r| - 1]))
  {
    ToLower(Trim(value))
  }

  /**
   * What the write transformer stores for a non-empty string: the input with
   * the white space at its two ends removed, each remaining character
   * lower-cased.
   */
  lemma IdentToLowerCasesTrimmed(value: string)
    requires value != ""
    ensures IdentTo(Some(value)).Some?
    ensures exists k ::
      && SliceBetweenWhitespace(value, Trim(value), k)
      && |IdentTo(Some(value)).value| == |Trim(value)|
      && (forall i :: 0 <= i < |Trim(value)| ==> IdentTo(Some(value)).value[i] == LowerChar(value[k + i]))
  {
    var t := Trim(value);
    TrimRemovesOnlyEdges(value);
    var k :| SliceBetweenWhitespace(value, t, k);
    assert IdentTo(Some(value)).value == ToLower(t);
    LowerOfSlice(value, t, k);
  }

  lemma LowerOfSlice(value: string, t: string, k: int)
    requires 0 <= k && k + |t| <= |value| && t == value[k..k + |t|]
    ensures forall i :: 0 <= i < |t| ==> ToLower(t)[i] == LowerChar(value[k + i])
  {
    forall i | 0 <= i < |t| ensures ToLower(t)[i] == LowerChar(value[k + i]) {
      assert t[i] == value[k + i];
    }
  }

  /** The read transformer leaves the stored text as it is. */
  function IdentFrom(value: string): (r: string)
    ensures |r| == |value| && forall i :: 0 <= i < |r| ==> r[i] == value[i]
  {
    value
  }

  lemma {:induction false} IdentToIdempotent(value: Option<string>)
    ensures IdentTo(IdentTo(value)) == IdentTo(value)
  {
    if value.Some? && value.value != "" {
      var t := Trim(value.value);
      TrimToLower(t);
      TrimIdempotent(value.value);
      ToLowerIdempotent(t);
    }
  }

  /** A stored e-mail or username: no upper-case letter, no white space at either end. */
  predicate IsNormalIdent(s: string)
  {
    && (forall i :: 0 <= i < |s| ==> !IsUpper(s[i]))
    && (s == [] || (!IsWhitespace(s[0]) && !IsWhitespace(s[|s| - 1])))
  }

  /** The transformer's fixed points are exactly the normal identifiers. */
  lemma {:induction false} NormalIdentIff(s: string)
    ensures IdentTo(Some(s)) == Some(s) <==> IsNormalIdent(s)
  {
    if IsNormalIdent(s) && s != [] {
      assert TrimStart(s) == s;
      assert TrimEnd(s) == s;
      assert Trim(s) == s;
      assert ToLower(s) == s;
    }
  }

  /**
   * The `@BeforeInsert` / `@BeforeUpdate` hook: a non-empty password is
   * replaced by its hash, anything else is left alone.
   */
  function HashPasswordBeforeWrite(password: Option<string>, hash: string -> string): (r: Option<string>)
    ensures password.Some? && password.value != "" ==> r == Some(hash(password.value))
    ensures password.None? || password.value == "" ==> r == password
  {
    if password.Some? && password.value != "" then Some(hash(password.value)) else password
  }

  /** A stored user as a default selection returns it: without the password. */
  function Selected(u: User, includeHidden: bool): (r: User)
    ensures r.password == (if includeHidden then u.password else None)
    ensures r.(password := u.password) == u
  {
    if includeHidden then u else u.(password := None)
  }

  /** The fields `Object.assign` copies onto a user; absent ones stay as they are. */
  datatype UserPatch = UserPatch(
    email: Option<string>,
    username: Option<string>,
    password: Option<Option<string>>,
    isActive: Option<bool>,
    roles: Option<seq<Role>>)

  /** `User.load`: every field present in the patch overwrites the user's, nothing else changes. */
  function Load(u: User, p: UserPatch): (r: User)
    ensures r.id == u.id && r.deletedAt == u.deletedAt
    ensures r.email == (if p.email.Some? then p.email.value else u.email)
    ensures r.username == (if p.username.Some? then p.username.value else u.username)
    ensures r.password == (if p.password.Some? then p.password.value else u.password)
    ensures r.isActive == (if p.isActive.Some? then p.isActive.value else u.isActive)
    ensures r.roles == (if p.roles.Some? then p.roles.value else u.roles)
  {
    User(u.id,
         if p.email.Some? then p.email.value else u.email,
         if p.username.Some? then p.username.value else u.username,
         if p.password.Some? then p.password.value else u.password,
         if p.isActive.Some? then p.isActive.value else u.isActive,
         if p.roles.Some? then p.roles.value else u.roles,
         u.deletedAt)
  }
}

=== FILE: user_service.dfy ===
/**
 * `UserService` over the `user` table. A row keeps the stored (normalised)
 * e-mail and username, the stored password, the activity flag, the ids of
 * its roles (the `user_role` join table) and the soft-delete time. Roles are
 * looked up in the role table when a user is read, so a deleted role no
 * longer shows on its users.
 */
module UserService {
  import opened Common
  import opened Js
  import opened RoleEntity
  import opened UserEntity
  import opened Listing
  import RoleConfig
  import RoleService
  import CreateUserDto
  import RegisterDto
  import UpdateUserDto
  import DtoRules
  import QueryDto

  /** The soft-delete column as the table declares it. */
  const DELETED_AT := "deleted_at"

  /** The column the listing's `isDeleted` filter names in its condition text. */
  const DELETED_AT_AS_WRITTEN := "deletedAt"

  /** The error `update` raises for a key that is no column it can write. */
  const NOT_UPDATABLE := "EntityPropertyNotFoundError"

  datatype UserRow = UserRow(
    email: string,
    username: string,
    password: string,
    isActive: bool,
    roleIds: seq<int>,
    deletedAt: Option<int>)

  /** What a stored row keeps to: normalised, unique-able identifiers within their column lengths. */
  predicate RowOk(row: UserRow)
  {
    && IsNormalIdent(row.email) && |row.email| <= IDENT_MAX_LENGTH
    && IsNormalIdent(row.username) && |row.username| <= IDENT_MAX_LENGTH
    && |row.password| <= IDENT_MAX_LENGTH
  }

  /** The `where` of a single-user lookup; each value goes through the column's write transformer. */
  datatype Key = ById(id: int) | ByUsername(username: string) | ByEmail(email: string)
               | ByUsernameAndEmail(username: string, email: string)

  /** The ids of the given role entities, as the join table stores them. */
  function RoleIdsOf(roles: seq<Role>): (r: seq<int>)
    ensures |r| == |roles| && forall i :: 0 <= i < |r| ==> r[i] == roles[i].id
  {
    seq(|roles|, i requires 0 <= i < |roles| => roles[i].id)
  }

  /**
   * The database accepts a new row with this e-mail, username and stored
   * password: each fits its column and no row, deleted or not, already has
   * the e-mail or the username.
   */
  predicate Insertable(before: map<int, UserRow>, email: string, username: string, password: string)
  {
    var e := IdentTo(Some(email)).value;
    var u := IdentTo(Some(username)).value;
    && |e| <= IDENT_MAX_LENGTH && |u| <= IDENT_MAX_LENGTH && |password| <= IDENT_MAX_LENGTH
    && forall id :: id in before ==> before[id].email != e && before[id].username != u
  }

  /** `findOne({ username, email })` finds a live row: both values, normalised, belong to the same live row. */
  predicate Duplicate(before: map<int, UserRow>, email: string, username: string)
  {
    exists id :: id in before && before[id].deletedAt.None?
      && before[id].username == IdentTo(Some(username)).value && before[id].email == IdentTo(Some(email)).value
  }

  /** One `andWhere` of the listing query. */
  datatype Condition =
    | EmailLike(s: string)
    | IdIn(ids: seq<int>)
    | IdNotIn(ids: seq<int>)
      /** `<column> IS NULL` (`isNull`) or `<column> IS NOT NULL`. */
    | DeletedIs(column: string, isNull: bool)

  /** A condition the database can evaluate: every column it names exists. */
  predicate Known(c: Condition)
  {
    c.DeletedIs? ==> c.column == DELETED_AT
  }

  predicate Holds(c: Condition, u: User)
  {
    match c
    case EmailLike(s) => Like(u.email, s)
    case IdIn(ids) => u.id in ids
    case IdNotIn(ids) => u.id !in ids
    case DeletedIs(_, isNull) => u.deletedAt.None? == isNull
  }

  predicate HoldsAll(cs: seq<Condition>, u: User)
  {
    forall i :: 0 <= i < |cs| ==> Holds(cs[i], u)
  }

  /**
   * The users a listing selects: the e-mail contains `s` (when given), the
   * id lists admit the id, `isDeleted` picks deleted (1) or live (0) users,
   * and deleted users are hidden unless `withDeleted` is set.
   */
  predicate Matches(u: User, q: QueryDto.QueryParams)
  {
    Filters(u, q) && (ShowsDeleted(q) || u.deletedAt.None?)
  }

  /** What the added conditions ask of a user. */
  predicate Filters(u: User, q: QueryDto.QueryParams)
  {
    && (q.s.Some? && q.s.value != "" ==> Like(u.email, q.s.value))
    && IdFilters(u.id, q.inIds, q.notInIds)
    && (q.isDeleted.Some? ==> (q.isDeleted.value != 0 <==> u.deletedAt.Some?))
  }

  /** `withDeleted` is truthy: the ORM's own `deleted_at IS NULL` condition is dropped. */
  predicate ShowsDeleted(q: QueryDto.QueryParams)
  {
    q.withDeleted.Some? && q.withDeleted.value != 0
  }

  predicate AllKnown(cs: seq<Condition>)
  {
    forall i :: 0 <= i < |cs| ==> Known(cs[i])
  }

  /**
   * `?isDeleted=1&withDeleted=1`, the query that asks for the soft-deleted
   * users, passes validation; so the listing as written fails on a request
   * it accepts, while the corrected one answers it.
   */
  lemma DeletedUsersQueryIsValid()
    ensures var q := QueryDto.Parse(Obj([Field("isDeleted", Str("1")), Field("withDeleted", Str("1"))]), true);
      q.Ok? && q.value.isDeleted == Some(1) && ShowsDeleted(q.value)
  {
    var raw := Obj([Field("isDeleted", Str("1")), Field("withDeleted", Str("1"))]);
    QueryDto.FlagOfOne();
    assert Get(raw, "isDeleted") == Str("1");
    assert Get(raw, "withDeleted") == Str("1");
    QueryDto.ParseDeleteFlagsOnly(raw, 1, 1);
  }

  /** Asking for deleted users without `withDeleted` selects nobody. */
  lemma DeletedNeedWithDeleted(u: User, q: QueryDto.QueryParams)
    requires q.isDeleted.Some? && q.isDeleted.value != 0
    requires q.withDeleted.None? || q.withDeleted.value == 0
    ensures !Matches(u, q)
  {
  }

  function OrderOf(q: QueryDto.QueryParams): QueryDto.Order
  {
    if q.order.Some? then q.order.value else QueryDto.DESC
  }

  /**
   * The conditions the listing adds, the soft-delete one written against
   * `deletedColumn`. They can be evaluated exactly when no `isDeleted`
   * filter is given or the column is the table's; then they select the rows
   * `Matches` describes, apart from hiding deleted ones.
   */
  method Conditions(q: QueryDto.QueryParams, deletedColumn: string) returns (cs: seq<Condition>)
    ensures AllKnown(cs) <==> (q.isDeleted.None? || deletedColumn == DELETED_AT)
    ensures forall u :: HoldsAll(cs, u) <==> Filters(u, q)
  {
    cs := [];
    if q.s.Some? && q.s.value != "" {
      cs := AndWhere(cs, EmailLike(q.s.value));
    }
    if |q.inIds| > 0 {
      cs := AndWhere(cs, IdIn(q.inIds));
    }
    if |q.notInIds| > 0 {
      cs := AndWhere(cs, IdNotIn(q.notInIds));
    }
    if q.isDeleted.Some? {
      cs := AndWhere(cs, DeletedIs(deletedColumn, q.isDeleted.value == 0));
    }
  }

  /** `andWhere`: one more condition, which every selected row must also meet. */
  function AndWhere(cs: seq<Condition>, c: Condition): (r: seq<Condition>)
    ensures forall u :: HoldsAll(r, u) <==> HoldsAll(cs, u) && Holds(c, u)
    ensures AllKnown(r) <==> AllKnown(cs) && Known(c)
  {
    var r := cs + [c];
    assert r[|cs|] == c;
    assert forall u :: HoldsAll(r, u) <==> HoldsAll(cs, u) && Holds(c, u) by {
      forall u ensures HoldsAll(r, u) <==> HoldsAll(cs, u) && Holds(c, u) {
        HoldsAllConcat(cs, [c], u);
        HoldsAllSingle(c, u);
      }
    }
    assert AllKnown(r) <==> AllKnown(cs) && Known(c) by {
      if AllKnown(cs) && Known(c) {
        forall i | 0 <= i < |r| ensures Known(r[i]) {
          if i < |cs| { assert r[i] == cs[i]; }
        }
      }
      if AllKnown(r) {
        forall i | 0 <= i < |cs| ensures Known(cs[i]) {
          assert r[i] == cs[i];
        }
      }
    }
    r
  }

  lemma HoldsAllConcat(a: seq<Condition>, b: seq<Condition>, u: User)
    ensures HoldsAll(a + b, u) <==> HoldsAll(a, u) && HoldsAll(b, u)
  {
    if HoldsAll(a, u) && HoldsAll(b, u) {
      forall i | 0 <= i < |a + b| ensures Holds((a + b)[i], u) {
        if i >= |a| {
          assert (a + b)[i] == b[i - |a|];
        }
      }
    }
    if HoldsAll(a + b, u) {
      forall i | 0 <= i < |a| ensures Holds(a[i], u) {
        assert (a + b)[i] == a[i];
      }
      forall i | 0 <= i < |b| ensures Holds(b[i], u) {
        assert (a + b)[|a| + i] == b[i];
      }
    }
  }

  lemma HoldsAllSingle(c: Condition, u: User)
    ensures HoldsAll([c], u) <==> Holds(c, u)
  {
    assert [c][0] == c;
  }

  class UserTable {
    var rows: map<int, UserRow>
    var nextId: int
    /** The role table the users' roles are resolved in. */
    const roles: RoleService.RoleTable

    /** Ids are the keys and below the next one; every row keeps to its columns; e-mails and usernames are unique. */
    ghost predicate Valid()
      reads this
    {
      && nextId >= 1
      && (forall id :: id in rows ==> 1 <= id < nextId && RowOk(rows[id]))
      && (forall a, b :: a in rows && b in rows && rows[a].email == rows[b].email ==> a == b)
      && (forall a, b :: a in rows && b in rows && rows[a].username == rows[b].username ==> a == b)
    }

    constructor (roles: RoleService.RoleTable)
      ensures Valid() && rows == map[] && nextId == 1 && this.roles == roles
    {
      rows := map[];
      nextId := 1;
      this.roles := roles;
    }

    /** A row that is not soft-deleted. */
    predicate Live(id: int)
      reads this
    {
      id in rows && rows[id].deletedAt.None?
    }

    predicate EmailTaken(email: string)
      reads this
    {
      exists id :: id in rows && rows[id].email == email
    }

    predicate UsernameTaken(username: string)
      reads this
    {
      exists id :: id in rows && rows[id].username == username
    }

    predicate UsernameTakenByOther(username: string, id: int)
      reads this
    {
      exists k :: k in rows && k != id && rows[k].username == username
    }

    predicate KeyMatches(key: Key, id: int)
      reads this
      requires id in rows
    {
      match key
      case ById(k) => id == k
      case ByUsername(u) => rows[id].username == IdentTo(Some(u)).value
      case ByEmail(e) => rows[id].email == IdentTo(Some(e)).value
      case ByUsernameAndEmail(u, e) =>
        rows[id].username == IdentTo(Some(u)).value && rows[id].email == IdentTo(Some(e)).value
    }

    /** A user as a read returns it: roles resolved in the role table, the password only when asked for. */
    function Resolve(id: int, includeHidden: bool): (r: User)
      reads this, roles
      requires id in rows && roles.Valid()
      ensures r.id == id && r.email == rows[id].email && r.username == rows[id].username
      ensures r.password == (if includeHidden then Some(rows[id].password) else None)
      ensures r.isActive == rows[id].isActive && r.deletedAt == rows[id].deletedAt
      ensures r.roles == roles.FindAllInIds(rows[id].roleIds)
    {
      var row := rows[id];
      Selected(User(id, row.email, row.username, Some(row.password), row.isActive,
                    roles.FindAllInIds(row.roleIds), row.deletedAt), includeHidden)
    }

    /**
     * `findOne(where, includeHiddenFields)`: the live user the condition
     * selects, with its roles, and with its password only when asked for;
     * `None` when there is none.
     */
    function FindOne(key: Key, includeHidden: bool): (r: Option<User>)
      reads this, roles
      requires Valid() && roles.Valid()
      ensures r.Some? <==> exists id :: id in rows && Live(id) && KeyMatches(key, id)
      ensures r.Some? ==> r.value.id in rows && Live(r.value.id) && KeyMatches(key, r.value.id)
      ensures r.Some? ==> r.value == Resolve(r.value.id, includeHidden)
    {
      var id := FirstMatch(IdsBelow(rows, nextId), key);
      if id.Some? then Some(Resolve(id.value, includeHidden)) else None
    }

    function FirstMatch(ids: seq<int>, key: Key): (r: Option<int>)
      reads this
      requires forall i :: 0 <= i < |ids| ==> ids[i] in rows
      ensures r.Some? ==> r.value in rows && Live(r.value) && KeyMatches(key, r.value)
      ensures r.None? ==> forall i :: 0 <= i < |ids| ==> !(Live(ids[i]) && KeyMatches(key, ids[i]))
    {
      if ids == [] then None
      else if Live(ids[0]) && KeyMatches(key, ids[0]) then Some(ids[0])
      else FirstMatch(ids[1..], key)
    }

    /** The duplicate check of `create` and `register` finds a user exactly when a live row has both values. */
    lemma FoundIffDuplicate(email: string, username: string)
      requires Valid() && roles.Valid()
      ensures FindOne(ByUsernameAndEmail(username, email), false).Some? <==> Duplicate(rows, email, username)
    {
      if Duplicate(rows, email, username) {
        var id :| id in rows && rows[id].deletedAt.None?
          && rows[id].username == IdentTo(Some(username)).value && rows[id].email == IdentTo(Some(email)).value;
        assert Live(id) && KeyMatches(ByUsernameAndEmail(username, email), id);
      }
    }

    /** Every user, live or deleted, by ascending id, without password. */
    function AllUsers(): (r: seq<User>)
      reads this, roles
      requires Valid() && roles.Valid()
      ensures forall i :: 0 <= i < |r| ==> r[i].id in rows && r[i] == Resolve(r[i].id, false)
      ensures forall id :: id in rows ==> Resolve(id, false) in r
    {
      UsersOf(IdsBelow(rows, nextId))
    }

    function UsersOf(ids: seq<int>): (r: seq<User>)
      reads this, roles
      requires forall i :: 0 <= i < |ids| ==> ids[i] in rows
      requires roles.Valid()
      ensures |r| == |ids| && forall i :: 0 <= i < |ids| ==> r[i] == Resolve(ids[i], false)
    {
      seq(|ids|, i requires 0 <= i < |ids| && roles.Valid() && ids[i] in rows reads this, roles => Resolve(ids[i], false))
    }

    /**
     * `save` of a new user. The `@BeforeInsert` hook hashes a non-empty
     * password and the transformers normalise e-mail and username; a missing
     * value for a NOT NULL column, a value longer than its column, or an
     * e-mail or username some row (deleted or not) already has makes the
     * insert fail and nothing is written. The saved entity is returned: the
     * e-mail and username as given, the hashed password, the new id.
     */
    method Insert(email: Option<string>, username: Option<string>, password: Option<string>,
                  isActive: Option<bool>, userRoles: seq<Role>, hash: string -> string)
      returns (r: Result<User, HttpError>)
      requires Valid()
      modifies this
      ensures Valid()
      ensures var e := IdentTo(email);
        var u := IdentTo(username);
        var p := HashPasswordBeforeWrite(password, hash);
        var active := if isActive.Some? then isActive.value else IS_ACTIVE_DEFAULT;
        if e.None? || u.None? || p.None? then
          r == Err(QueryFailed(ER_NO_DEFAULT_FOR_FIELD)) && rows == old(rows) && nextId == old(nextId)
        else if |e.value| > IDENT_MAX_LENGTH || |u.value| > IDENT_MAX_LENGTH || |p.value| > IDENT_MAX_LENGTH then
          r == Err(QueryFailed(ER_DATA_TOO_LONG)) && rows == old(rows) && nextId == old(nextId)
        else if old(EmailTaken(e.value)) || old(UsernameTaken(u.value)) then
          r == Err(QueryFailed(ER_DUP_ENTRY)) && rows == old(rows) && nextId == old(nextId)
        else
          && r == Ok(User(old(nextId), email.value, username.value, p, active, userRoles, None))
          && rows == old(rows)[old(nextId) := UserRow(e.value, u.value, p.value, active, RoleIdsOf(userRoles), None)]
          && nextId == old(nextId) + 1
    {
      var e := IdentTo(email);
      var u := IdentTo(username);
      var p := HashPasswordBeforeWrite(password, hash);
      var active := if isActive.Some? then isActive.value else IS_ACTIVE_DEFAULT;
      if e.None? || u.None? || p.None? {
        return Err(QueryFailed(ER_NO_DEFAULT_FOR_FIELD));
      }
      if |e.value| > IDENT_MAX_LENGTH || |u.value| > IDENT_MAX_LENGTH || |p.value| > IDENT_MAX_LENGTH {
        return Err(QueryFailed(ER_DATA_TOO_LONG));
      }
      if EmailTaken(e.value) || UsernameTaken(u.value) {
        return Err(QueryFailed(ER_DUP_ENTRY));
      }
      var id := Add(UserRow(e.value, u.value, p.value, active, RoleIdsOf(userRoles), None));
      r := Ok(User(id, email.value, username.value, p, active, userRoles, None));
    }

    /**
     * `create`: validate the body, then create the user it describes. An
     * invalid body is refused and nothing is written.
     */
    method Create(body: Value, isEmail: string -> bool, hash: string -> string) returns (r: Result<User, HttpError>)
      requires Valid() && roles.Valid()
      modifies this
      ensures Valid()
      ensures CreateUserDto.Validate(body, isEmail).Err? ==>
        r == Err(CreateUserDto.Validate(body, isEmail).error) && rows == old(rows) && nextId == old(nextId)
      ensures CreateUserDto.Validate(body, isEmail).Ok? ==>
        CreatedAs(CreateUserDto.Validate(body, isEmail).value, hash, old(rows), old(nextId), r)
    {
      var dto := CreateUserDto.Validate(body, isEmail);
      if dto.Err? {
        return Err(dto.error);
      }
      r := CreateValid(dto.value, hash);
    }

    /**
     * The outcome of creating the user `dto` describes, from the table
     * `before` (ids below `next`): refused when a live user has both this
     * username and this e-mail, refused when some listed role id does not
     * resolve to its own role, and otherwise exactly one new row holding the
     * normalised identifiers, the hashed password, the flag coerced to a
     * boolean and precisely the listed roles. An insert the database refuses
     * leaves the table as it was.
     */
    ghost predicate CreatedAs(dto: CreateUserDto.Dto, hash: string -> string,
                              before: map<int, UserRow>, next: int, r: Result<User, HttpError>)
      reads this, roles
      requires roles.Valid()
    {
      var taken := Duplicate(before, dto.email, dto.username);
      && (taken ==> r == Err(BadRequest(ALREADY_EXISTS)))
      && (!taken && |roles.FindAllInIds(dto.roleIds)| != |dto.roleIds| ==> r == Err(BadRequest(FAILED)))
      && (!taken && |roles.FindAllInIds(dto.roleIds)| == |dto.roleIds| && Insertable(before, dto.email, dto.username, hash(dto.password)) ==> r.Ok?)
      && (r.Err? ==> rows == before && nextId == next)
      && (r.Ok? ==>
            && !taken
            && r.value.id == next && r.value.username == dto.username && r.value.email == dto.email
            && r.value.isActive == (dto.isActive == Some(true))
            && next in rows
            && rows == before[next := rows[next]] && nextId == next + 1
            && rows[next].username == IdentTo(Some(dto.username)).value
            && rows[next].email == IdentTo(Some(dto.email)).value
            && rows[next].password == hash(dto.password)
            && rows[next].isActive == (dto.isActive == Some(true))
            && rows[next].deletedAt.None?
            && (forall k :: k in rows[next].roleIds <==> k in dto.roleIds))
    }

    method CreateValid(dto: CreateUserDto.Dto, hash: string -> string) returns (r: Result<User, HttpError>)
      requires Valid() && roles.Valid() && dto.password != ""
      modifies this
      ensures Valid()
      ensures CreatedAs(dto, hash, old(rows), old(nextId), r)
    {
      var existing := FindOne(ByUsernameAndEmail(dto.username, dto.email), false);
      FoundIffDuplicate(dto.email, dto.username);
      if existing.Some? {
        return Err(BadRequest(ALREADY_EXISTS));
      }
      var found := roles.FindAllInIds(dto.roleIds);
      if |found| != |dto.roleIds| {
        return Err(BadRequest(FAILED));
      }
      AllListedRolesFound(found, dto.roleIds);
      r := InsertCreated(dto, found, hash);
    }

    /** The insert of `create`, once the listed roles are found: exactly the listed ids become the user's roles. */
    method InsertCreated(dto: CreateUserDto.Dto, found: seq<Role>, hash: string -> string) returns (r: Result<User, HttpError>)
      requires Valid() && dto.password != ""
      requires forall k :: k in RoleIdsOf(found) <==> k in dto.roleIds
      modifies this
      ensures Valid()
      ensures Insertable(old(rows), dto.email, dto.username, hash(dto.password)) ==> r.Ok?
      ensures r.Err? ==> rows == old(rows) && nextId == old(nextId)
      ensures r.Ok? ==>
        && r.value.id == old(nextId) && r.value.username == dto.username && r.value.email == dto.email
        && r.value.isActive == (dto.isActive == Some(true))
        && old(nextId) in rows
        && rows == old(rows)[old(nextId) := rows[old(nextId)]] && nextId == old(nextId) + 1
        && rows[old(nextId)].username == IdentTo(Some(dto.username)).value
        && rows[old(nextId)].email == IdentTo(Some(dto.email)).value
        && rows[old(nextId)].password == hash(dto.password)
        && rows[old(nextId)].isActive == (dto.isActive == Some(true))
        && rows[old(nextId)].deletedAt.None?
        && (forall k :: k in rows[old(nextId)].roleIds <==> k in dto.roleIds)
    {
      r := Insert(Some(dto.email), Some(dto.username), Some(dto.password), Some(dto.isActive == Some(true)), found, hash);
    }

    /**
     * `register`: validate the body, then register the user it describes. An
     * invalid body is refused and nothing is written.
     */
    method Register(body: Value, isEmail: string -> bool, hash: string -> string) returns (r: Result<User, HttpError>)
      requires Valid() && roles.Valid()
      modifies this
      ensures Valid()
      ensures RegisterDto.Validate(body, isEmail).Err? ==>
        r == Err(RegisterDto.Validate(body, isEmail).error) && rows == old(rows) && nextId == old(nextId)
      ensures RegisterDto.Validate(body, isEmail).Ok? ==>
        RegisteredAs(RegisterDto.Validate(body, isEmail).value, hash, old(rows), old(nextId), r)
    {
      var dto := RegisterDto.Validate(body, isEmail);
      if dto.Err? {
        return Err(dto.error);
      }
      r := RegisterValid(dto.value, hash);
    }

    /**
     * The outcome of registering `dto` from the table `before`: refused when
     * a live user has both this username and this e-mail, a server error when
     * there is no GUEST role, and otherwise exactly one new row, inactive,
     * whose only role is GUEST.
     */
    ghost predicate RegisteredAs(dto: RegisterDto.Dto, hash: string -> string,
                                 before: map<int, UserRow>, next: int, r: Result<User, HttpError>)
      reads this, roles
      requires roles.Valid()
    {
      var taken := Duplicate(before, dto.email, dto.username);
      var guest := roles.FindByCode(RoleConfig.GUEST_CODE);
      && (taken ==> r == Err(BadRequest(ALREADY_EXISTS)))
      && (!taken && guest.None? ==> r == Err(InternalServerError(FAILED)))
      && (!taken && guest.Some? && Insertable(before, dto.email, dto.username, hash(dto.password)) ==> r.Ok?)
      && (r.Err? ==> rows == before && nextId == next)
      && (r.Ok? ==>
            && !taken && guest.Some?
            && r.value.id == next && r.value.username == dto.username && r.value.email == dto.email
            && !r.value.isActive && r.value.roles == [guest.value]
            && next in rows
            && rows == before[next := rows[next]] && nextId == next + 1
            && rows[next].username == IdentTo(Some(dto.username)).value
            && rows[next].email == IdentTo(Some(dto.email)).value
            && rows[next].password == hash(dto.password)
            && !rows[next].isActive
            && rows[next].deletedAt.None?
            && rows[next].roleIds == [guest.value.id])
    }

    method RegisterValid(dto: RegisterDto.Dto, hash: string -> string) returns (r: Result<User, HttpError>)
      requires Valid() && roles.Valid() && dto.password != ""
      modifies this
      ensures Valid()
      ensures RegisteredAs(dto, hash, old(rows), old(nextId), r)
    {
      var existing := FindOne(ByUsernameAndEmail(dto.username, dto.email), false);
      FoundIffDuplicate(dto.email, dto.username);
      if existing.Some? {
        return Err(BadRequest(ALREADY_EXISTS));
      }
      var guest := roles.FindByCode(RoleConfig.GUEST_CODE);
      if guest.None? {
        return Err(InternalServerError(FAILED));
      }
      r := Insert(Some(dto.email), Some(dto.username), Some(dto.password), None, [guest.value], hash);
    }

    /**
     * `findAll` with the soft-delete filter written against `deletedColumn`:
     * the conditions are added one `andWhere` at a time, deleted users are
     * hidden unless `withDeleted` is set, the matches are ordered by id and cut
     * to the requested page; `total` counts every match. A condition naming
     * a column the table lacks makes the whole query fail.
     */
    method FindAllWith(raw: Value, deletedColumn: string) returns (r: Result<Page<User>, HttpError>)
      requires Valid() && roles.Valid()
      ensures var q := QueryDto.Parse(raw, true);
        && (q.Err? ==> r == Err(q.error))
        && (q.Ok? && q.value.isDeleted.Some? && deletedColumn != DELETED_AT ==> r == Err(QueryFailed(ER_BAD_FIELD_ERROR)))
        && (q.Ok? && (q.value.isDeleted.None? || deletedColumn == DELETED_AT) ==>
              r == Ok(Paginate(Filter(AllUsers(), u => Matches(u, q.value)),
                               OrderOf(q.value), QueryDto.Page(q.value), QueryDto.Limit(q.value))))
    {
      var parsed := QueryDto.Parse(raw, true);
      if parsed.Err? {
        return Err(parsed.error);
      }
      var q := parsed.value;
      var selected := Select(q, deletedColumn);
      if selected.Err? {
        return Err(selected.error);
      }
      r := Ok(Paginate(selected.value, OrderOf(q), QueryDto.Page(q), QueryDto.Limit(q)));
    }

    /** The rows the listing's conditions select, before ordering and paging. */
    method Select(q: QueryDto.QueryParams, deletedColumn: string) returns (r: Result<seq<User>, HttpError>)
      requires Valid() && roles.Valid()
      ensures q.isDeleted.Some? && deletedColumn != DELETED_AT ==> r == Err(QueryFailed(ER_BAD_FIELD_ERROR))
      ensures q.isDeleted.None? || deletedColumn == DELETED_AT ==> r == Ok(Filter(AllUsers(), u => Matches(u, q)))
    {
      var conditions := Conditions(q, deletedColumn);
      if !AllKnown(conditions) {
        return Err(QueryFailed(ER_BAD_FIELD_ERROR));
      }
      var withDeleted := ShowsDeleted(q);
      var all := AllUsers();
      FilterCongruent(all, u => HoldsAll(conditions, u) && (withDeleted || u.deletedAt.None?), u => Matches(u, q));
      r := Ok(Filter(all, u => HoldsAll(conditions, u) && (withDeleted || u.deletedAt.None?)));
    }

    /** `findAll` as written: its `isDeleted` condition names `user.deletedAt`. */
    method FindAllAsWritten(raw: Value) returns (r: Result<Page<User>, HttpError>)
      requires Valid() && roles.Valid()
      ensures var q := QueryDto.Parse(raw, true);
        && (q.Err? ==> r == Err(q.error))
        && (q.Ok? && q.value.isDeleted.Some? ==> r == Err(QueryFailed(ER_BAD_FIELD_ERROR)))
        && (q.Ok? && q.value.isDeleted.None? ==>
              r == Ok(Paginate(Filter(AllUsers(), u => Matches(u, q.value)),
                               OrderOf(q.value), QueryDto.Page(q.value), QueryDto.Limit(q.value))))
    {
      r := FindAllWith(raw, DELETED_AT_AS_WRITTEN);
    }

    /** `findAll` with the filter on the soft-delete column the table has. */
    method FindAll(raw: Value) returns (r: Result<Page<User>, HttpError>)
      requires Valid() && roles.Valid()
      ensures var q := QueryDto.Parse(raw, true);
        && (q.Err? ==> r == Err(q.error))
        && (q.Ok? ==>
              r == Ok(Paginate(Filter(AllUsers(), u => Matches(u, q.value)),
                               OrderOf(q.value), QueryDto.Page(q.value), QueryDto.Limit(q.value))))
    {
      r := FindAllWith(raw, DELETED_AT);
    }

    /**
     * `update` as evidently intended: validate the body, then apply it to the
     * live user `id`, writing the username, the resolved roles and the flag.
     * An invalid body is refused and nothing is written.
     */
    method Update(id: int, body: Value) returns (r: Result<bool, HttpError>)
      requires Valid() && roles.Valid()
      modifies this
      ensures Valid()
      ensures nextId == old(nextId)
      ensures UpdateUserDto.Validate(body).Err? ==> r == Err(UpdateUserDto.Validate(body).error) && rows == old(rows)
      ensures UpdateUserDto.Validate(body).Ok? ==> UpdatedAs(id, UpdateUserDto.Validate(body).value, old(rows), r)
    {
      var dto := UpdateUserDto.Validate(body);
      if dto.Err? {
        return Err(dto.error);
      }
      r := UpdateValid(id, dto.value);
    }

    /**
     * The outcome of applying `dto` to user `id` of the table `before`:
     * refused when no live user has that id; refused when a role list is
     * given and none of its ids resolves (a partly resolving list is
     * accepted); a `null` username breaks its NOT NULL column, one longer
     * than the column does not fit, and one another row already has breaks
     * its unique key. Otherwise only that
     * row changes: the username normalised when one was given, the resolved
     * roles when a list was given and the flag when one was given; e-mail,
     * password and deletion time stay.
     */
    ghost predicate UpdatedAs(id: int, dto: UpdateUserDto.Dto, before: map<int, UserRow>, r: Result<bool, HttpError>)
      reads this, roles
      requires roles.Valid()
    {
      var live := id in before && before[id].deletedAt.None?;
      var noRoles := dto.roleIds.Some? && roles.FindAllInIds(dto.roleIds.value) == [];
      var name := if dto.username.Some? then IdentTo(dto.username.value) else None;
      && (!live ==> r == Err(BadRequest(NOT_FOUND)))
      && (live && noRoles ==> r == Err(BadRequest(INVALID)))
      && (live && !noRoles && dto.username == Some(None) ==> r == Err(QueryFailed(ER_BAD_NULL_ERROR)))
      && (live && !noRoles && name.Some? && |name.value| > IDENT_MAX_LENGTH ==> r == Err(QueryFailed(ER_DATA_TOO_LONG)))
      && (live && !noRoles && name.Some? && |name.value| <= IDENT_MAX_LENGTH
            && (exists k :: k in before && k != id && before[k].username == name.value) ==>
            r == Err(QueryFailed(ER_DUP_ENTRY)))
      && (r.Err? ==> rows == before)
      && (r.Ok? ==>
            && r.value && live && !noRoles && dto.username != Some(None)
            && id in rows && rows == before[id := rows[id]]
            && rows[id].email == before[id].email
            && rows[id].password == before[id].password
            && rows[id].isActive == (if dto.isActive.Some? then dto.isActive.value else before[id].isActive)
            && rows[id].deletedAt == before[id].deletedAt
            && rows[id].username == (if name.Some? then name.value else before[id].username)
            && rows[id].roleIds == (if dto.roleIds.Some? then RoleIdsOf(roles.FindAllInIds(dto.roleIds.value))
                                    else before[id].roleIds))
    }

    method UpdateValid(id: int, dto: UpdateUserDto.Dto) returns (r: Result<bool, HttpError>)
      requires Valid() && roles.Valid()
      modifies this
      ensures Valid()
      ensures nextId == old(nextId)
      ensures UpdatedAs(id, dto, old(rows), r)
    {
      if !Live(id) {
        return Err(BadRequest(NOT_FOUND));
      }
      var roleIds := rows[id].roleIds;
      if dto.roleIds.Some? {
        var found := roles.FindAllInIds(dto.roleIds.value);
        if found == [] {
          return Err(BadRequest(INVALID));
        }
        roleIds := RoleIdsOf(found);
      }
      r := WriteUpdate(id, dto, roleIds);
    }

    /** The write of an update to a live user whose role list, if any, resolved to `roleIds`. */
    method WriteUpdate(id: int, dto: UpdateUserDto.Dto, roleIds: seq<int>) returns (r: Result<bool, HttpError>)
      requires Valid() && roles.Valid() && Live(id)
      requires dto.roleIds.Some? ==> roles.FindAllInIds(dto.roleIds.value) != []
      requires roleIds == (if dto.roleIds.Some? then RoleIdsOf(roles.FindAllInIds(dto.roleIds.value)) else rows[id].roleIds)
      modifies this
      ensures Valid()
      ensures nextId == old(nextId)
      ensures UpdatedAs(id, dto, old(rows), r)
    {
      var username := rows[id].username;
      if dto.username.Some? {
        var u := IdentTo(dto.username.value);
        if u.None? {
          return Err(QueryFailed(ER_BAD_NULL_ERROR));
        }
        if |u.value| > IDENT_MAX_LENGTH {
          return Err(QueryFailed(ER_DATA_TOO_LONG));
        }
        if UsernameTakenByOther(u.value, id) {
          return Err(QueryFailed(ER_DUP_ENTRY));
        }
        assert IsNormalIdent(u.value);
        username := u.value;
      }
      var active := if dto.isActive.Some? then dto.isActive.value else rows[id].isActive;
      PutRow(id, rows[id].(username := username, roleIds := roleIds, isActive := active));
      r := Ok(true);
    }

    /**
     * The outcome of `update` as written, `update(id, { ...body, roles })`.
     * The not-found and no-role refusals come first, as in the intended
     * update. Then the partial entity is turned into a `SET` list, where an
     * `undefined` key is skipped. `roleIds` and `isActive` are not property
     * paths of the user (the column's property is `is_active`), and `roles`
     * is a many-to-many relation, which `update` cannot write. So a body
     * that gives either field fails before any statement runs. Only a body
     * with at most a username gets through, and it is applied as the
     * intended update applies it.
     */
    ghost predicate UpdatedAsWritten(id: int, body: Value, dto: UpdateUserDto.Dto, before: map<int, UserRow>, r: Result<bool, HttpError>)
      reads this, roles
      requires roles.Valid()
    {
      var live := id in before && before[id].deletedAt.None?;
      var noRoles := dto.roleIds.Some? && roles.FindAllInIds(dto.roleIds.value) == [];
      var notColumns := Get(body, "roleIds") != Undefined || Get(body, "isActive") != Undefined;
      && (!live ==> r == Err(BadRequest(NOT_FOUND)) && rows == before)
      && (live && noRoles ==> r == Err(BadRequest(INVALID)) && rows == before)
      && (live && !noRoles && notColumns ==> r == Err(RuntimeError(NOT_UPDATABLE)) && rows == before)
      && (!notColumns ==> UpdatedAs(id, dto, before, r))
    }

    /** `update` exactly as written. */
    method UpdateAsWritten(id: int, body: Value) returns (r: Result<bool, HttpError>)
      requires Valid() && roles.Valid()
      modifies this
      ensures Valid()
      ensures nextId == old(nextId)
      ensures UpdateUserDto.Validate(body).Err? ==> r == Err(UpdateUserDto.Validate(body).error) && rows == old(rows)
      ensures UpdateUserDto.Validate(body).Ok? ==> UpdatedAsWritten(id, body, UpdateUserDto.Validate(body).value, old(rows), r)
    {
      var dto := UpdateUserDto.Validate(body);
      if dto.Err? {
        return Err(dto.error);
      }
      if !Live(id) {
        return Err(BadRequest(NOT_FOUND));
      }
      if dto.value.roleIds.Some? && roles.FindAllInIds(dto.value.roleIds.value) == [] {
        return Err(BadRequest(INVALID));
      }
      if Get(body, "roleIds") != Undefined || Get(body, "isActive") != Undefined {
        return Err(RuntimeError(NOT_UPDATABLE));
      }
      r := UpdateValid(id, dto.value);
    }

    /**
     * The update as written never changes a user's roles or flag: whatever
     * the body, a successful call leaves both as they were.
     */
    lemma AsWrittenKeepsRolesAndFlag(id: int, body: Value, before: map<int, UserRow>, r: Result<bool, HttpError>)
      requires roles.Valid() && UpdateUserDto.Validate(body).Ok?
      requires UpdatedAsWritten(id, body, UpdateUserDto.Validate(body).value, before, r)
      ensures r.Ok? ==>
        id in before && id in rows && rows[id].roleIds == before[id].roleIds && rows[id].isActive == before[id].isActive
    {
      var dto := UpdateUserDto.Validate(body).value;
      if r.Ok? {
        assert Get(body, "roleIds") == Undefined && Get(body, "isActive") == Undefined;
        assert dto.roleIds.None? && dto.isActive.None?;
      }
    }

    /**
     * The intended update does write them: a successful update whose body
     * lists roles stores the resolved ones, and one that gives the flag
     * stores it.
     */
    lemma IntendedWritesRolesAndFlag(id: int, dto: UpdateUserDto.Dto, before: map<int, UserRow>, r: Result<bool, HttpError>)
      requires roles.Valid() && UpdatedAs(id, dto, before, r) && r.Ok?
      ensures dto.roleIds.Some? ==> rows[id].roleIds == RoleIdsOf(roles.FindAllInIds(dto.roleIds.value))
      ensures dto.isActive.Some? ==> rows[id].isActive == dto.isActive.value
    {
    }

    /** Stores a new row under the next id. */
    method Add(row: UserRow) returns (id: int)
      requires Valid()
      requires RowOk(row) && !EmailTaken(row.email) && !UsernameTaken(row.username)
      modifies this
      ensures Valid()
      ensures id == old(nextId) && rows == old(rows)[id := row] && nextId == old(nextId) + 1
    {
      ghost var before := rows;
      id := nextId;
      rows := rows[id := row];
      nextId := nextId + 1;
      forall k | k in rows ensures 1 <= k < nextId && RowOk(rows[k]) {
        if k != id {
          assert rows[k] == before[k];
        }
      }
      forall a, b | a in rows && b in rows && rows[a].email == rows[b].email ensures a == b {
        if a != id && b != id {
          assert before[a].email == before[b].email;
        }
      }
      forall a, b | a in rows && b in rows && rows[a].username == rows[b].username ensures a == b {
        if a != id && b != id {
          assert before[a].username == before[b].username;
        }
      }
    }

    /** Writes one row over the row with that id, the e-mail unchanged and the username unique. */
    method PutRow(id: int, row: UserRow)
      requires Valid()
      requires id in rows && RowOk(row) && row.email == rows[id].email && !UsernameTakenByOther(row.username, id)
      modifies this
      ensures Valid()
      ensures rows == old(rows)[id := row] && nextId == old(nextId)
    {
      ghost var before := rows;
      rows := rows[id := row];
      forall k | k in rows ensures 1 <= k < nextId && RowOk(rows[k]) {
        if k != id {
          assert rows[k] == before[k];
        }
      }
      forall a, b | a in rows && b in rows && rows[a].email == rows[b].email ensures a == b {
        if a != id && b != id {
          assert before[a].email == before[b].email;
        }
      }
      forall a, b | a in rows && b in rows && rows[a].username == rows[b].username ensures a == b {
        if a != id && b != id {
          assert before[a].username == before[b].username;
        }
      }
    }

    /**
     * `setPassword`: store the hash of the new password, hashed once (an
     * update runs no entity hook); answers whether a row, deleted or not,
     * has that id.
     */
    method SetPassword(id: int, password: string, hash: string -> string) returns (r: Result<bool, HttpError>)
      requires Valid()
      modifies this
      ensures Valid()
      ensures nextId == old(nextId)
      ensures |hash(password)| > IDENT_MAX_LENGTH ==> r == Err(QueryFailed(ER_DATA_TOO_LONG)) && rows == old(rows)
      ensures |hash(password)| <= IDENT_MAX_LENGTH ==>
        && r == Ok(id in old(rows))
        && (id in old(rows) ==> rows == old(rows)[id := old(rows[id]).(password := hash(password))])
        && (id !in old(rows) ==> rows == old(rows))
    {
      var hashed := hash(password);
      if |hashed| > IDENT_MAX_LENGTH {
        return Err(QueryFailed(ER_DATA_TOO_LONG));
      }
      if id in rows {
        PutRow(id, rows[id].(password := hashed));
      }
      r := Ok(id in rows);
    }

    /** Some listed id has a row. */
    predicate AnyListed(ids: seq<int>)
      reads this
    {
      exists i :: 0 <= i < |ids| && ids[i] in rows
    }

    /**
     * `softDelete`: stamp every listed row, deleted or not, with `now`;
     * answers whether some row was affected. An empty list is refused by the
     * repository before any statement.
     */
    method SoftDelete(ids: seq<int>, now: int) returns (r: Result<bool, HttpError>)
      requires Valid()
      modifies this
      ensures Valid()
      ensures nextId == old(nextId)
      ensures ids == [] ==> r == Err(RuntimeError(EMPTY_CRITERIA_SOFT_DELETE)) && rows == old(rows)
      ensures ids != [] ==> r == Ok(old(AnyListed(ids)))
      ensures rows.Keys == old(rows).Keys
      ensures forall id :: id in rows ==>
        rows[id] == if id in ids && ids != [] then old(rows[id]).(deletedAt := Some(now)) else old(rows[id])
    {
      if ids == [] {
        return Err(RuntimeError(EMPTY_CRITERIA_SOFT_DELETE));
      }
      r := Ok(AnyListed(ids));
      rows := map id | id in rows :: if id in ids then rows[id].(deletedAt := Some(now)) else rows[id];
    }

    /** `restore`: clear the deletion time of every listed row; answers whether some row was affected. */
    method Restore(ids: seq<int>) returns (r: Result<bool, HttpError>)
      requires Valid()
      modifies this
      ensures Valid()
      ensures nextId == old(nextId)
      ensures ids == [] ==> r == Err(RuntimeError(EMPTY_CRITERIA_RESTORE)) && rows == old(rows)
      ensures ids != [] ==> r == Ok(old(AnyListed(ids)))
      ensures rows.Keys == old(rows).Keys
      ensures forall id :: id in rows ==>
        rows[id] == if id in ids && ids != [] then old(rows[id]).(deletedAt := None) else old(rows[id])
    {
      if ids == [] {
        return Err(RuntimeError(EMPTY_CRITERIA_RESTORE));
      }
      r := Ok(AnyListed(ids));
      rows := map id | id in rows :: if id in ids then rows[id].(deletedAt := None) else rows[id];
    }

    /** `delete`: remove every listed row for good; answers whether some row was affected. */
    method Delete(ids: seq<int>) returns (r: Result<bool, HttpError>)
      requires Valid()
      modifies this
      ensures Valid()
      ensures nextId == old(nextId)
      ensures ids == [] ==> r == Err(RuntimeError(EMPTY_CRITERIA_DELETE)) && rows == old(rows)
      ensures ids != [] ==> r == Ok(old(AnyListed(ids)))
      ensures ids != [] ==> rows == map id | id in old(rows) && id !in ids :: old(rows[id])
    {
      if ids == [] {
        return Err(RuntimeError(EMPTY_CRITERIA_DELETE));
      }
      r := Ok(AnyListed(ids));
      rows := map id | id in rows && id !in ids :: rows[id];
    }
  }

  // The repository's refusals of an empty id list.
  const EMPTY_CRITERIA_SOFT_DELETE := "Empty criteria(s) are not allowed for the softDelete method."
  const EMPTY_CRITERIA_RESTORE := "Empty criteria(s) are not allowed for the restore method."
  const EMPTY_CRITERIA_DELETE := "Empty criteria(s) are not allowed for the delete method."

  /**
   * When as many roles are found as ids were listed, the ids hold no repeat
   * and every one of them resolved: the found roles are exactly the listed ids.
   */
  lemma {:induction false} AllListedRolesFound(found: seq<Role>, ids: seq<int>)
    requires |found| == |ids|
    requires forall i :: 0 <= i < |found| ==> found[i].id in ids
    requires forall i, j :: 0 <= i < j < |found| ==> found[i].id < found[j].id
    ensures forall k :: k in RoleIdsOf(found) <==> k in ids
  {
    var fs := RoleIdsOf(found);
    assert Distinct(fs);
    forall k | k in ids ensures k in fs {
      if k !in fs {
        DistinctBoundedBySet(fs, (set x | x in ids) - {k});
        SetOfSeqBound(ids);
        assert false;
      }
    }
  }

  /**
   * `{"roleIds": [2]}` passes the update's validation with its role list in
   * the DTO, and it leaves a defined `roleIds` key in the body that
   * `update` as written hands on to the repository.
   */
  lemma RoleListBodyReachesRepository()
    ensures var body := Obj([Field("roleIds", Arr([Num(2)]))]);
      && UpdateUserDto.Validate(body) == Ok(UpdateUserDto.Dto(None, Some([2]), None))
      && Get(body, "roleIds") != Undefined
  {
    var body := Obj([Field("roleIds", Arr([Num(2)]))]);
    assert Get(body, "roleIds") == Arr([Num(2)]);
    assert Get(body, "username") == Undefined && Get(body, "isActive") == Undefined;
    var ids := DtoRules.IntsOf([Num(2)]);
    assert |ids| == 1 && Num(ids[0]) == Num(2);
    assert ids == [2];
  }
}
